=== FILE: README.md ===
# Sunbeam plan engine, in Dafny

Sunbeam (the `sunbeam` command of the OpenStack snap) deploys OpenStack as a
sequence of *plans*. A plan is a list of *steps*. The runner visits each
step in order: it asks the step's questions, asks the step whether it is
needed (`is_skip`), runs it if so, records its result under the step's
class name, and stops at the first failure. Before a plan runs, a list of
pre-flight *checks* runs in the same fail-fast way.

This project models that engine and the logic around it:

- the runner and the pre-flight checks (`jobs/common.py`, `jobs/checks.py`);
- the plans each command builds for bootstrap, add, join and remove
  (`commands/bootstrap.py`, `commands/node.py`);
- the per-step skip and fail decisions of the MicroK8s, OpenStack and
  configure steps (`commands/microk8s.py`, `commands/openstack.py`,
  `commands/configure.py`);
- the scale and topology calculations (`commands/openstack.py`);
- the FQDN validator (`jobs/checks.py`);
- the MetalLB range validator (`commands/microk8s.py`);
- the cluster daemon's client and its error classifier
  (`clusterd/cluster.py`, `clusterd/service.py`);
- the Juju helpers for unit names and readiness (`jobs/juju.py`);
- the log-retention rule (`log.py`).

External state is never run. The cluster daemon, the Juju controller, the
user's answers, the Kubernetes API and the host are each passed in as
*oracles*: functions from the history or state to an answer.

- A step is a `Behaviour` over a state `S`. Its `prompt`, `is_skip` and
  `run` are total functions of that state.
- The runner `Engine.RunPlan` is a loop. It is proved equal to a recursive
  specification, `Engine.Run`, and the lemmas about `Run` state what
  `run_plan` promises.
- Objects whose methods update their own fields are classes. This covers
  the checks, the cluster client (which keeps the list of requests it
  sent), the configure steps (`charm_config`, `variables`, `nic`), the step
  objects that store what `is_skip` found, and the log directory. Their
  methods have `modifies` clauses and state the new value of each field.

Module layout: one module per source file (`Common`, `Checks`, `Service`,
`Cluster`, `Juju`, `Bootstrap`, `Node`, `Microk8s`, `OpenStack`,
`Configure`, `Log`), with `jobs/common.py`'s runner in its own module
`Engine` and what the four commands share (the step objects they create,
the role flags, running plans one after another) in `Workflows`. There are also three helper modules:
`Wrappers` (Option and Outcome), `Strs` (the Python `str` operations used)
and `JsonValue` (decoded JSON values).

## Model

| member | source | states |
|---|---|---|
| Common.RoleHasOneKind | sunbeam-python/sunbeam/jobs/common.py:46-80 | every role satisfies exactly one of the control, compute and storage predicates |
| Common.RoleByName | sunbeam-python/sunbeam/jobs/common.py:34-44 | `Role[name]`: a role is found only for its exact member name, and none when no role has that name |
| Common.RolesToStrList | sunbeam-python/sunbeam/jobs/common.py:83-84 | one lower-cased name per role (the round trip is `ValidateRolesToStrList`) |
| Strs.Repr | sunbeam-python/sunbeam/jobs/common.py:274 | Python's `repr` of a string: the text between two equal quotes, never shorter than the text plus its quotes |
| Strs.ReprQuoteChoice | sunbeam-python/sunbeam/jobs/common.py:274 | `repr` uses double quotes exactly when the text holds a single quote and no double quote, single quotes otherwise |
| Strs.ReprOfQuoteFree | sunbeam-python/sunbeam/jobs/common.py:274 | text without quotes, backslashes or control characters is shown between single quotes as it is |
| Strs.ReprOfSingleQuoted | sunbeam-python/sunbeam/jobs/common.py:274 | text holding a single quote but no double quote, backslash or control character is shown between double quotes as it is |
| Strs.ReprDoublesBackslash | sunbeam-python/sunbeam/jobs/common.py:274 | an example: the backslash in `a\b` is shown doubled, between single quotes |
| Strs.ReprEscapesSingleQuote | sunbeam-python/sunbeam/jobs/common.py:274 | an example: text holding both quote kinds is shown between single quotes with the single quote escaped |
| Common.ValidateRoles | sunbeam-python/sunbeam/jobs/common.py:267-274 | on success, one role per value, each the role whose name is the upper-cased value; on failure, the first value naming no role, reported as `str(KeyError)` gives it: the `repr` of the upper-cased name (`Strs.Repr`) |
| Common.UpperLowerName | sunbeam-python/sunbeam/jobs/common.py:34-44 | upper-casing a role's lower-cased name gives the member name back |
| Common.ValidateRolesToStrList | sunbeam-python/sunbeam/jobs/common.py:267-274 | the names `roles_to_str_list` produces validate back to exactly the same roles |
| Common.ValidateRolesIgnoresCase | sunbeam-python/sunbeam/jobs/common.py:267-274 | values that differ only in ASCII case validate alike |
| Common.GetStepMessage | sunbeam-python/sunbeam/jobs/common.py:259-264 | the message recorded under the class name, or `None` when nothing was recorded |
| Common.NewStepResult | sunbeam-python/sunbeam/jobs/common.py:113-140 | raises exactly when a keyword is `result_type` (which a call cannot pass) or an inherited attribute, with that key's message; otherwise the attributes are exactly the keywords, with their values |
| Engine.VisitRecord | sunbeam-python/sunbeam/jobs/common.py:230-248 | one visit asks the questions exactly when the step has prompts, and runs the step exactly when `is_skip` answered COMPLETED |
| Engine.RunPlan | sunbeam-python/sunbeam/jobs/common.py:216-257 | the loop's outcome, results, records and final state are those of the recursive specification `Run` |
| Engine.RunFromRecords | sunbeam-python/sunbeam/jobs/common.py:226-257 | from any step on: one record per step reached, in order; every record but the last did not fail; the plan completes exactly when all steps were reached without failure; an abort carries the failing result's message |
| Engine.RunFromResults | sunbeam-python/sunbeam/jobs/common.py:233-248 | the results dictionary is the one the records leave, in plan order |
| Engine.RunPlanFacts | sunbeam-python/sunbeam/jobs/common.py:216-257 | `run_plan`'s promises together: order, prompting, skip-means-not-run, fail-fast with the failing message, completion exactly when nothing failed, results as recorded |
| Engine.RecordedHas | sunbeam-python/sunbeam/jobs/common.py:233-246 | the results hold a class name exactly when a reached step of that class was skipped or run |
| Engine.RecordedLast | sunbeam-python/sunbeam/jobs/common.py:233-246 | a class name maps to the result of the last reached step of that class (later entries overwrite earlier ones) |
| Engine.RecordedNotFailed | sunbeam-python/sunbeam/jobs/common.py:250-257 | records that did not fail leave no FAILED result |
| Engine.CompletedPlanHasNoFailure | sunbeam-python/sunbeam/jobs/common.py:250-257 | a completed plan returns only COMPLETED or SKIPPED results |
| Engine.GetStepMessageOfRun | sunbeam-python/sunbeam/jobs/common.py:216-264 | after a run, `get_step_message` gives the message of the last reached step of that class |
| Engine.GetStepMessageMissing | sunbeam-python/sunbeam/jobs/common.py:259-264 | and `None` when no reached step of that class left an entry |
| Engine.AllSkippedRunsNothing | sunbeam-python/sunbeam/jobs/common.py:233-236 | a plan whose steps all answer SKIPPED completes, reaches every step and runs none |
| Engine.DefaultStepRuns | sunbeam-python/sunbeam/jobs/common.py:157-180 | a step keeping `BaseStep`'s defaults asks nothing, is not skipped and runs |
| Engine.JujuSnapExplained | sunbeam-python/sunbeam/jobs/checks.py:68-78 | a failing Juju snap check leaves a non-empty message |
| Engine.SshKeysExplained | sunbeam-python/sunbeam/jobs/checks.py:90-107 | a failing ssh-keys check leaves a non-empty message |
| Engine.DaemonGroupExplained | sunbeam-python/sunbeam/jobs/checks.py:125-139 | a failing socket-group check leaves a non-empty message |
| Engine.LocalShareExplained | sunbeam-python/sunbeam/jobs/checks.py:152-167 | a failing `~/.local/share` check leaves a non-empty message |
| Engine.HostnameExplained | sunbeam-python/sunbeam/jobs/checks.py:238-246 | a failing hypervisor hostname check leaves a non-empty message |
| Engine.BootstrappedExplained | sunbeam-python/sunbeam/jobs/checks.py:280-289 | a failing bootstrapped check leaves a non-empty message |
| Engine.EvaluateFailureHasMessage | sunbeam-python/sunbeam/jobs/checks.py:49-56 | every kind of check keeps the base contract: `run` returns False only after setting a non-empty message |
| Engine.FirstFailure | sunbeam-python/sunbeam/jobs/common.py:200-213 | all checks pass exactly when each one passes; otherwise the first failing one, with its message, and every earlier check passed |
| Engine.PreflightFailureHasMessage | sunbeam-python/sunbeam/jobs/common.py:200-213 | a failing pre-flight run always aborts with a non-empty message |
| Engine.RunPreflightChecks | sunbeam-python/sunbeam/jobs/common.py:200-213 | the loop stops at `FirstFailure`, and the failing check object holds the message it aborts with; every check up to and including the failing one holds the message its verdict set (or its old one when the verdict sets none), and every check after it never ran and keeps its old message |
| Checks.SshKeysMessage | sunbeam-python/sunbeam/jobs/checks.py:95-104 | the ssh-keys message is never empty |
| Checks.DaemonGroupMessage | sunbeam-python/sunbeam/jobs/checks.py:127-135 | the socket-group message is never empty |
| Checks.LocalShareMessage | sunbeam-python/sunbeam/jobs/checks.py:158-164 | the missing-directory message is never empty |
| Checks.FirstLabelProblem | sunbeam-python/sunbeam/jobs/checks.py:206-224 | the label loop stops at the first bad label, with that label's complaint, as `LabelsProblem` says |
| Checks.Check.Run | sunbeam-python/sunbeam/jobs/checks.py:49-289 | `run` answers as `Evaluate` does for the check's kind, and sets `message` exactly when the verdict carries one |
| Checks.Check.RunVerifyFqdn | sunbeam-python/sunbeam/jobs/checks.py:180-224 | the FQDN check passes exactly when `FqdnProblem` finds nothing, and otherwise leaves that complaint |
| Checks.LabelsProblemMessages | sunbeam-python/sunbeam/jobs/checks.py:206-222 | a label complaint is one of the three label messages |
| Checks.FqdnFailureHasMessage | sunbeam-python/sunbeam/jobs/checks.py:180-224 | a failing FQDN check has a non-empty message |
| Checks.SystemRequirementsOnlyWarns | sunbeam-python/sunbeam/jobs/checks.py:258-267 | the system requirements check always passes, and warns exactly when memory is under 16 GiB or there are fewer than four cores |
| Checks.HypervisorHostnameIff | sunbeam-python/sunbeam/jobs/checks.py:238-246 | the hostname check passes exactly when the two names are equal |
| Checks.LabelsProblemNoneIff | sunbeam-python/sunbeam/jobs/checks.py:206-224 | the label loop accepts exactly when every label is accepted |
| Checks.LabelProblemNoneIff | sunbeam-python/sunbeam/jobs/checks.py:207-222 | a label is accepted exactly when it has 2 to 62 characters, no hyphen at either end, and matches the pattern |
| Checks.FqdnAcceptedIff | sunbeam-python/sunbeam/jobs/checks.py:180-224 | a name is accepted exactly when it is non-empty, at most 255 characters, contains a dot, and every label (the trailing dot dropped) is accepted |
| Checks.LabelsToCheckOfJoin | sunbeam-python/sunbeam/jobs/checks.py:191-202 | the labels inspected for a name written as two or more dot-free labels are those labels |
| Checks.FqdnProblemOfLabels | sunbeam-python/sunbeam/jobs/checks.py:180-224 | for such a name, both the check as written and the intended one decide on those labels alone |
| Checks.FqdnOfAcceptedLabels | sunbeam-python/sunbeam/jobs/checks.py:180-224 | a name made of two or more accepted labels passes |
| Checks.OneCharacterLabelRejected | sunbeam-python/sunbeam/jobs/checks.py:207-211 | as written, `a.example.com` is refused with the "empty or longer than 63" message |
| Checks.TrailingNewlineLabelAccepted | sunbeam-python/sunbeam/jobs/checks.py:204-217 | as written, `ab\n.example.com` is accepted because `$` matches before a final newline |
| Checks.IntendedLabelProblem | sunbeam-python/sunbeam/jobs/checks.py:207-222 | the label rule the messages describe: accepted exactly for 1 to 63 ASCII letters, digits and hyphens, with no hyphen at either end |
| Checks.IntendedLabelsProblem | sunbeam-python/sunbeam/jobs/checks.py:206-224 | the intended loop accepts exactly when every label is such a label |
| Checks.IntendedFqdnAcceptsLdhNames | sunbeam-python/sunbeam/jobs/checks.py:180-224 | the intended check accepts exactly the non-empty dotted names of at most 255 characters whose labels are such labels |
| Checks.IntendedAcceptsOneCharacterLabel | sunbeam-python/sunbeam/jobs/checks.py:207-211 | the intended check accepts `a.example.com` |
| Checks.IntendedFqdnOfLdhLabels | sunbeam-python/sunbeam/jobs/checks.py:180-224 | the intended check accepts any name of two or more such labels |
| Checks.IntendedRejectsNewlineLabel | sunbeam-python/sunbeam/jobs/checks.py:204-222 | the intended check refuses `ab\n.example.com` with the character message |
| Checks.IntendedFirstLabelDecides | sunbeam-python/sunbeam/jobs/checks.py:206-224 | under the intended check, a bad first label decides the verdict |
| Service.NormalizePath | sunbeam-python/sunbeam/clusterd/service.py:111-112 | one leading slash is dropped, and a path without one is kept |
| Service.NormalizePathLeadingSlash | sunbeam-python/sunbeam/clusterd/service.py:111-112 | exactly one slash is dropped: `//x` and `/x` address different paths |
| Service.ConnectionFailure | sunbeam-python/sunbeam/clusterd/service.py:120-127 | a connection error becomes "service unavailable", with the socket message when the text mentions `FileNotFoundError`, else the text itself |
| Service.FirstMatch | sunbeam-python/sunbeam/clusterd/service.py:133-174 | the result is the exception of the first rule whose text occurs in the error, or the fallback when none occurs |
| Service.FirstMatchAppend | sunbeam-python/sunbeam/clusterd/service.py:133-174 | matching against two rule lists in turn is matching against their concatenation |
| Service.RestIsFirstMatch | sunbeam-python/sunbeam/clusterd/service.py:146-174 | the later branches of the chain are the first match over the later rules |
| Service.ClassifyIsFirstMatch | sunbeam-python/sunbeam/clusterd/service.py:133-174 | the `if`/`elif` chain is the first match over the rule table, in source order, falling back to the HTTP error |
| Service.UnknownErrorRaisedAsIs | sunbeam-python/sunbeam/clusterd/service.py:174 | an error text that no rule matches re-raises the HTTP error |
| Service.KnownErrorTranslated | sunbeam-python/sunbeam/clusterd/service.py:133-173 | the first rule that matches decides the exception, and it is never the HTTP error |
| Service.HandleResponse | sunbeam-python/sunbeam/clusterd/service.py:116-176 | a connection error becomes "service unavailable"; a status below 400 or of 600 and over returns the body; a 4xx or 5xx status raises |
| Service.Get | sunbeam-python/sunbeam/clusterd/cluster.py:92 | `.get(key)` on a mapping: the field's value, or `None` when it is absent |
| Service.SetDefault | sunbeam-python/sunbeam/clusterd/service.py:179-199 | `kwargs.setdefault`: adds the key with the value only when it is absent, and leaves every other key as it was |
| Service.GetCall | sunbeam-python/sunbeam/clusterd/service.py:178-180 | a GET request that follows redirects unless told otherwise |
| Service.HeadCall | sunbeam-python/sunbeam/clusterd/service.py:182-184 | a HEAD request that does not follow redirects unless told otherwise |
| Service.OptionsCall | sunbeam-python/sunbeam/clusterd/service.py:198-200 | an OPTIONS request that follows redirects unless told otherwise |
| Service.PostCall | sunbeam-python/sunbeam/clusterd/service.py:186-187 | a POST request carrying `data` and an empty `json` |
| Service.PutCall | sunbeam-python/sunbeam/clusterd/service.py:192-193 | a PUT request carrying `data` |
| Service.DeleteCall | sunbeam-python/sunbeam/clusterd/service.py:195-196 | a DELETE request with no further arguments |
| JsonValue.LoadsDumpString | sunbeam-python/sunbeam/clusterd/cluster.py:231-240 | for a plain string (printable ASCII without quote or backslash), `json.loads(json.dumps(s))` gives back the string `s` |
| Cluster.StrList | sunbeam-python/sunbeam/clusterd/cluster.py:112 | a list of names is a JSON array of those strings, in order |
| Cluster.RoleQuery | sunbeam-python/sunbeam/clusterd/cluster.py:173-174 | a list of roles is joined with `&role=`, and a single name is used as it is |
| Cluster.RoleQueryParameters | sunbeam-python/sunbeam/clusterd/cluster.py:171-176 | each further role in a list adds one more `role=` parameter, and a one-element list asks for the same nodes as its element |
| Cluster.Metadata | sunbeam-python/sunbeam/clusterd/cluster.py:91-92 | `.get("metadata")` of the reply, with errors passed through; a reply that is not a mapping raises |
| Cluster.Sequence | sunbeam-python/sunbeam/clusterd/cluster.py:205-227 | consecutive requests: the ones sent are a prefix of those asked for, and all of them when the last one succeeds |
| Cluster.SequenceOne | sunbeam-python/sunbeam/clusterd/cluster.py:209-210 | a single request is sent, and its answer is the outcome |
| Cluster.SequenceStopsAtFailure | sunbeam-python/sunbeam/clusterd/cluster.py:205-227 | when request k raises after the earlier ones succeeded, exactly the first k + 1 are sent and that error is the outcome |
| Cluster.SequenceAllSucceed | sunbeam-python/sunbeam/clusterd/cluster.py:205-227 | when every request succeeds, all are sent and the last answer is the outcome |
| Cluster.KeepMemberKeys | sunbeam-python/sunbeam/clusterd/cluster.py:67-69 | a member keeps exactly its name, address and status fields, with their values |
| Cluster.Members | sunbeam-python/sunbeam/clusterd/cluster.py:59-70 | a failed request raises its error, and so does a reply that is not a mapping |
| Cluster.MembersKeepOrderAndKeys | sunbeam-python/sunbeam/clusterd/cluster.py:64-70 | a listing of member objects becomes the same members, in the daemon's order, each cut down to the three keys |
| Cluster.MembersDefaultEmpty | sunbeam-python/sunbeam/clusterd/cluster.py:66 | a reply without `metadata` lists no members |
| Cluster.MemberNames | sunbeam-python/sunbeam/clusterd/cluster.py:218 | one `member.get("name")` per member, in order |
| Cluster.RemovalCalls | sunbeam-python/sunbeam/clusterd/cluster.py:220-227 | for a member: remove the juju user, then the node record, then the member; otherwise delete only its join token |
| Cluster.RemoveMemberOrder | sunbeam-python/sunbeam/clusterd/cluster.py:216-224 | the membership itself is removed last: if removing the juju user or the node record raises, the later requests are not sent |
| Cluster.JujuUserOutcome | sunbeam-python/sunbeam/clusterd/cluster.py:149-157 | a 404 HTTP error becomes "user not found", other errors are re-raised, and a success gives the metadata |
| Cluster.HandleResponseNeverUserNotFound | sunbeam-python/sunbeam/clusterd/service.py:129-176 | the request layer never raises "user not found" itself |
| Cluster.ClassifyRaisesIff | sunbeam-python/sunbeam/clusterd/service.py:133-174 | the HTTP error is re-raised exactly when the error text holds none of the known texts |
| Cluster.FirstIndex | sunbeam-python/sunbeam/clusterd/service.py:133-173 | when any known text occurs, a translated exception is raised |
| Cluster.JujuUserNotFoundIff | sunbeam-python/sunbeam/clusterd/cluster.py:149-157 | "user not found" is raised exactly for a 404 whose error text the request layer does not recognise: a recognised text wins even on a 404 |
| Cluster.BootstrappedState | sunbeam-python/sunbeam/clusterd/cluster.py:237-245 | a missing key or an unavailable daemon reads as False; other errors are raised; otherwise the decoded stored value |
| Cluster.UnsetStillBootstrapped | sunbeam-python/sunbeam/clusterd/cluster.py:229-245 | as written, after unsetting the flag it reads back as the non-empty string `"False"`, which is truthy, so the bootstrapped check still passes |
| Cluster.SetIsBootstrapped | sunbeam-python/sunbeam/clusterd/cluster.py:233-245 | after setting the flag it reads back as a truthy value |
| Cluster.IntendedFlagValue | sunbeam-python/sunbeam/clusterd/cluster.py:229-235 | the intended stored texts decode to the boolean itself |
| Cluster.IntendedFlagRoundTrip | sunbeam-python/sunbeam/clusterd/cluster.py:229-245 | with the intended texts, the flag reads back as what was stored, and an unset flag fails the bootstrapped check |
| Cluster.MissingFlagNotBootstrapped | sunbeam-python/sunbeam/clusterd/cluster.py:241-244 | a missing key or an unavailable daemon reads as not bootstrapped |
| Cluster.ClusterService.Request | sunbeam-python/sunbeam/clusterd/service.py:110-176 | records the request, and returns the daemon's reply as the request layer hands it back |
| Cluster.ClusterService.Send | sunbeam-python/sunbeam/clusterd/service.py:186-196 | records the request; raises exactly when the request did |
| Cluster.ClusterService.Fetch | sunbeam-python/sunbeam/clusterd/cluster.py:91-92 | records the request; returns its metadata |
| Cluster.ClusterService.BootstrapCluster | sunbeam-python/sunbeam/clusterd/cluster.py:31-43 | sends the bootstrap request with the name and address |
| Cluster.ClusterService.Join | sunbeam-python/sunbeam/clusterd/cluster.py:45-57 | sends the join request with the token, address and name |
| Cluster.ClusterService.GetClusterMembers | sunbeam-python/sunbeam/clusterd/cluster.py:59-70 | sends the member listing and returns `Members` of the reply |
| Cluster.ClusterService.Remove | sunbeam-python/sunbeam/clusterd/cluster.py:72-80 | sends the member removal for that name |
| Cluster.ClusterService.GenerateToken | sunbeam-python/sunbeam/clusterd/cluster.py:82-92 | sends the token request and returns the metadata |
| Cluster.ClusterService.DeleteToken | sunbeam-python/sunbeam/clusterd/cluster.py:99-104 | sends the token deletion for that name |
| Cluster.ClusterService.AddNodeInfo | sunbeam-python/sunbeam/clusterd/cluster.py:110-113 | sends the node record with name and roles |
| Cluster.ClusterService.GetNodeInfo | sunbeam-python/sunbeam/clusterd/cluster.py:120-122 | fetches the node record's metadata |
| Cluster.ClusterService.RemoveNodeInfo | sunbeam-python/sunbeam/clusterd/cluster.py:124-126 | sends the node record deletion |
| Cluster.ClusterService.UpdateNodeInfo | sunbeam-python/sunbeam/clusterd/cluster.py:128-133 | sends the role (or null) and machine id |
| Cluster.ClusterService.AddJujuUser | sunbeam-python/sunbeam/clusterd/cluster.py:135-138 | sends the user name and token |
| Cluster.ClusterService.RemoveJujuUser | sunbeam-python/sunbeam/clusterd/cluster.py:145-147 | sends the juju user deletion |
| Cluster.ClusterService.GetJujuUser | sunbeam-python/sunbeam/clusterd/cluster.py:149-157 | fetches the user, with a 404 turned into "user not found" |
| Cluster.ClusterService.GetConfig | sunbeam-python/sunbeam/clusterd/cluster.py:159-161 | fetches the configuration value's metadata |
| Cluster.ClusterService.UpdateConfig | sunbeam-python/sunbeam/clusterd/cluster.py:163-165 | sends the value as the raw request data |
| Cluster.ClusterService.ListNodesByRole | sunbeam-python/sunbeam/clusterd/cluster.py:171-176 | fetches the nodes for the role query |
| Cluster.ClusterService.Bootstrap | sunbeam-python/sunbeam/clusterd/cluster.py:205-207 | bootstraps the cluster, then adds the node record, stopping if the first request raises |
| Cluster.ClusterService.AddNode | sunbeam-python/sunbeam/clusterd/cluster.py:209-210 | is `generate_token` |
| Cluster.ClusterService.JoinNode | sunbeam-python/sunbeam/clusterd/cluster.py:212-214 | joins, then adds the node record, stopping if the join raises |
| Cluster.ClusterService.RemoveNode | sunbeam-python/sunbeam/clusterd/cluster.py:216-227 | lists the members, then sends `RemovalCalls` for the name one by one, stopping at the first that raises |
| Cluster.ClusterService.SetSunbeamBootstrapped | sunbeam-python/sunbeam/clusterd/cluster.py:233-235 | stores `json.dumps("True")` under the bootstrap key |
| Cluster.ClusterService.UnsetSunbeamBootstrapped | sunbeam-python/sunbeam/clusterd/cluster.py:229-231 | stores `json.dumps("False")` under the bootstrap key |
| Cluster.ClusterService.CheckSunbeamBootstrapped | sunbeam-python/sunbeam/clusterd/cluster.py:237-245 | reads the key and returns `BootstrappedState` of the reply |
| Juju.ModelIsControllerModelPart | sunbeam-python/sunbeam/jobs/juju.py:42-44 | `MODEL` is the part of `CONTROLLER_MODEL` after the slash |
| Juju.ValidateUnit | sunbeam-python/sunbeam/jobs/juju.py:297-305 | a unit name is accepted exactly when it has one `/`, and otherwise the format message is raised |
| Juju.ValidUnitName | sunbeam-python/sunbeam/jobs/juju.py:297-305 | `application/id` with slash-free parts is always accepted |
| Juju.ModelError | sunbeam-python/sunbeam/jobs/juju.py:219-223 | a controller error mentioning "HTTP 400" becomes "model not found"; any other error is raised as it is |
| Juju.ModelNameWithOwner | sunbeam-python/sunbeam/jobs/juju.py:226-231 | `owner/name`, the owner being the owner tag with its `user-` prefix removed when present |
| Juju.GetApplication | sunbeam-python/sunbeam/jobs/juju.py:249-261 | found exactly when the model has the application, and then it is that application |
| Juju.GetUnit | sunbeam-python/sunbeam/jobs/juju.py:264-279 | found exactly when the name is valid and the model has the unit; a malformed name raises the format error before any lookup |
| Juju.GetUnitFromMachine | sunbeam-python/sunbeam/jobs/juju.py:281-295 | `None` exactly when no unit is on the machine; otherwise the last unit on that machine |
| Juju.GetLeaderUnit | sunbeam-python/sunbeam/jobs/juju.py:355-372 | the name of the first unit that is leader; "leader not found" exactly when none is |
| Juju.WaitApplicationReady | sunbeam-python/sunbeam/jobs/juju.py:481-518 | returns at once for a missing application; otherwise waits for a status among the accepted ones, by default `["active"]` |
| Juju.WaitUnitReady | sunbeam-python/sunbeam/jobs/juju.py:521-572 | a malformed name raises; a missing unit returns at once; otherwise waits for the unit's agent and workload statuses |
| Juju.DefaultUnitReadiness | sunbeam-python/sunbeam/jobs/juju.py:531-562 | with the default statuses, a unit is ready exactly when its agent is idle and its workload is active |
| Juju.PartialUnitReadiness | sunbeam-python/sunbeam/jobs/juju.py:534-536 | a status list given for only the workload leaves the agent at its default `["idle"]` |
| Juju.ActionOutcome | sunbeam-python/sunbeam/jobs/juju.py:424-429 | an action succeeds exactly when its status is "completed"; otherwise its output is raised |
| Juju.CmdOutcome | sunbeam-python/sunbeam/jobs/juju.py:402-404 | a command succeeds exactly when its return code is 0; otherwise its stderr is raised |
| Juju.JujuHelper.Connect | sunbeam-python/sunbeam/jobs/juju.py:177-196 | the `controller` decorator connects only when not yet connected, and changes nothing else |
| Juju.JujuHelper.GetClouds | sunbeam-python/sunbeam/jobs/juju.py:207-210 | connects if needed; the tags are exactly "cloud-" plus each cloud's name |
| Juju.JujuHelper.GetModel | sunbeam-python/sunbeam/jobs/juju.py:212-223 | connects if needed; returns the model, or the error `ModelError` maps |
| Juju.JujuHelper.AddK8sCloud | sunbeam-python/sunbeam/jobs/juju.py:444-478 | connects first when no connection is open (the `controller` decorator, counted once); an "already exists" error is tolerated and any other is raised with nothing changed; otherwise the cloud is added when new and the credential is always added to it |
| Workflows.CompletedPlanHasEveryEntry | sunbeam-python/sunbeam/jobs/common.py:226-257 | a plan that completed left a result under the class name of every one of its steps |
| Workflows.OnlyStepMessage | sunbeam-python/sunbeam/jobs/common.py:259-264 | in a completed plan with a single step of some class, `get_step_message` returns exactly that step's message |
| Workflows.RoleFlags | sunbeam-python/sunbeam/commands/bootstrap.py:150-152 | each of the three role flags is set exactly when its role is among the node's roles |
| Workflows.TfplanDirs | sunbeam-python/sunbeam/commands/bootstrap.py:166-170 | "deploy-sunbeam-machine" always comes first; the microk8s, microceph and openstack directories are copied exactly for a control node and the hypervisor directory exactly for a compute node |
| Workflows.Preflight | sunbeam-python/sunbeam/jobs/common.py:200-213 | running the checks ends at the first failing check, with its message, or passes when none fails |
| Workflows.StartThreaded | sunbeam-python/sunbeam/jobs/common.py:216-257 | a command that has run no plan satisfies the threading invariant (every run is `run_plan` of its plan from the state the previous run left) |
| Workflows.AppendThreaded | sunbeam-python/sunbeam/jobs/common.py:216-257 | running one more plan after plans that all completed keeps the threading invariant |
| Workflows.RunNext | sunbeam-python/sunbeam/jobs/common.py:216-257 | one more `run_plan` appends the plan and its run, ends the command when the plan failed, and keeps the threading invariant |
| Workflows.RunIfFinished | sunbeam-python/sunbeam/jobs/common.py:216-257 | a plan runs only while every earlier plan completed (a failed plan exits the command); otherwise nothing changes |
| Workflows.FinishedCompletedAll | sunbeam-python/sunbeam/jobs/common.py:216-257 | a command that ended normally completed every plan it ran |
| Bootstrap.BuildPlan4 | sunbeam-python/sunbeam/commands/bootstrap.py:241-277 | plan 4 as built by appending equals the reference plan: the base steps, the storage steps for a storage node, the OpenStack control-plane steps for a control node |
| Bootstrap.BuildPlan5 | sunbeam-python/sunbeam/commands/bootstrap.py:279-294 | plan 5 as built by appending equals the reference plan: MySQL and load-balancer steps for a control node, hypervisor steps for a compute node |
| Bootstrap.Plan4Gating | sunbeam-python/sunbeam/commands/bootstrap.py:241-277 | plan 4 always starts with the eleven base steps; the microceph unit and OSD steps are there exactly for a storage node, the Terraform init and control-plane deployment exactly for a control node |
| Bootstrap.Plan5Gating | sunbeam-python/sunbeam/commands/bootstrap.py:279-294 | the MySQL and load-balancer steps are there exactly for a control node and come first; the hypervisor steps exactly for a compute node; plan 5 is empty exactly when the node is neither |
| Bootstrap.TokenIsCreatedUserMessage | sunbeam-python/sunbeam/commands/bootstrap.py:191-196 | once plan 2 completed, the token handed on is the message its `CreateJujuUserStep` left |
| Bootstrap.RunBootstrap | sunbeam-python/sunbeam/commands/bootstrap.py:140-296 | the command stops before any plan exactly when a pre-flight check fails, with that check's message and the state untouched; otherwise it runs the plans in order and finishes only after all five |
| Bootstrap.RunPlans | sunbeam-python/sunbeam/commands/bootstrap.py:185-294 | the plans that ran are a prefix of the five, each run from the state the previous left, plan 3 built with the token from plan 2; the command ends at the first failed plan |
| Bootstrap.PlanThreeGetsCreatedUserToken | sunbeam-python/sunbeam/commands/bootstrap.py:196-199 | in a bootstrap that reached plan 3, that plan's first step stores the node's Juju user with the message plan 2's user step left |
| Node.RemoveTrailingDot | sunbeam-python/sunbeam/commands/node.py:89-91 | the result is a prefix of the value that does not end in a dot, and only dots were removed |
| Node.RemoveTrailingDotIdempotent | sunbeam-python/sunbeam/commands/node.py:89-91 | removing the trailing dots twice removes nothing more |
| Node.AbsoluteNameSameNode | sunbeam-python/sunbeam/commands/node.py:89-91 | the absolute form of a name (with a trailing dot) gives the same node name |
| Node.AddTokenIsCreatedUserMessage | sunbeam-python/sunbeam/commands/node.py:117-127 | once plan 1 of `add` completed, the token plan 2 gets is the message of its Juju user step |
| Node.Report | sunbeam-python/sunbeam/commands/node.py:139-146 | a completed add-node step shows its token; a skipped one shows its message exactly when that is non-empty and otherwise says the node is already a member |
| Node.RunAdd | sunbeam-python/sunbeam/commands/node.py:108-146 | the checks run on the name as typed and stop the command exactly when one fails; otherwise plan 1 runs on the name without trailing dots, plan 2 with plan 1's token only if plan 1 completed, and the report comes from plan 1's add-node entry |
| Node.RunAddPlans | sunbeam-python/sunbeam/commands/node.py:113-146 | the plans of `add` as above, threaded through the state |
| Node.BuildJoinChecks | sunbeam-python/sunbeam/commands/node.py:189-199 | the checks `join` builds by appending equal the reference list |
| Node.JoinChecksGating | sunbeam-python/sunbeam/commands/node.py:189-199 | five checks always, in order; the hypervisor-hostname check is there exactly for a compute node |
| Node.BuildJoinPlan2 | sunbeam-python/sunbeam/commands/node.py:247-276 | plan 2 of `join` built by appending equals the reference plan |
| Node.JoinPlan2Gating | sunbeam-python/sunbeam/commands/node.py:247-276 | plan 2 always starts by recording the machine and adding the sunbeam-machine unit; each role's steps are there exactly when the node has that role, and its length counts them |
| Node.MachineId | sunbeam-python/sunbeam/commands/node.py:241-244 | no message gives -1; a message gives its decimal value after stripping whitespace, and otherwise `int()`'s ValueError, whose text quotes the message with `repr` |
| Node.MachineIdOfText | sunbeam-python/sunbeam/commands/node.py:241-244 | the decimal text of a machine id reads back as that id |
| Node.RunJoin | sunbeam-python/sunbeam/commands/node.py:167-278 | the command stops before any plan exactly when a pre-flight check fails; otherwise plan 1 runs, the command crashes exactly when plan 1 completed with a non-integer machine id, and plan 2 runs with that id exactly when it completed with an integer one |
| Node.RunJoinPlans | sunbeam-python/sunbeam/commands/node.py:232-278 | the plans of `join` as above, threaded through the state |
| Node.RunRemove | sunbeam-python/sunbeam/commands/node.py:326-345 | the daemon-group check, then the one removal plan (microk8s unit, microceph unit, Juju machine, cluster member); the command finishes exactly when that plan completed |
| Microk8s.FirstRangeError | sunbeam-python/sunbeam/commands/microk8s.py:55-70 | no error exactly when every comma-separated entry is valid; otherwise the error is that of one of the entries (the first refused one) |
| Microk8s.ValidateMetallbRange | sunbeam-python/sunbeam/commands/microk8s.py:55-70 | the ranges pass exactly when no entry is refused, and otherwise raise the first refused entry's error |
| Microk8s.LoneAddressRefused | sunbeam-python/sunbeam/commands/microk8s.py:58-62 | a single entry without a "/" is refused as not a CIDR, even when it is a valid address |
| Microk8s.TooManyDashesRefused | sunbeam-python/sunbeam/commands/microk8s.py:64-70 | an entry with more than one "-" is refused as not a range |
| Microk8s.AddressRangeAccepted | sunbeam-python/sunbeam/commands/microk8s.py:64-66 | two addresses joined by one "-" are accepted |
| Microk8s.DefaultRangeIsAddressRange | sunbeam-python/sunbeam/commands/microk8s.py:78 | the default MetalLB answer splits into the two addresses of one range |
| Microk8s.FirstOnMachine | sunbeam-python/sunbeam/commands/microk8s.py:212-213 | the unit found is on the machine and no earlier unit is |
| Microk8s.AddMicrok8sUnitStep.IsSkip | sunbeam-python/sunbeam/commands/microk8s.py:194-222 | a node missing from the cluster or an undeployed application fails the step with that message; a unit already on the node's machine skips it; otherwise it runs, with the machine id recorded as text |
| Microk8s.AddMicrok8sUnitStep.Run | sunbeam-python/sunbeam/commands/microk8s.py:224-240 | adds the unit on the recorded machine; an error adding it or waiting for it fails the step with its text, otherwise it completes |
| Microk8s.RemoveMicrok8sUnitStep.IsSkip | sunbeam-python/sunbeam/commands/microk8s.py:250-276 | never fails; runs exactly when the node is known, the application is deployed and a unit is on the node's machine, keeping the first such unit; an undeployed application skips with its message |
| Microk8s.RemoveMicrok8sUnitStep.Run | sunbeam-python/sunbeam/commands/microk8s.py:278-294 | removes the unit kept by `is_skip` (its `str`); the removal's error, or else the wait's, fails the step, otherwise it completes |
| Common.TwoStages | sunbeam-python/sunbeam/commands/microk8s.py:278-294 | a step of two fallible stages completes exactly when neither raised, and otherwise carries the first error's text |
| Microk8s.StoreConfigSkip | sunbeam-python/sunbeam/commands/microk8s.py:347-358 | skipped exactly when the kubeconfig is already stored; never fails |
| Microk8s.StoreConfigRun | sunbeam-python/sunbeam/commands/microk8s.py:360-380 | an action error fails with its text, empty or missing content fails, and non-empty content completes the step and stores exactly the kubeconfig under its key |
| Microk8s.StoreConfigThenSkip | sunbeam-python/sunbeam/commands/microk8s.py:347-380 | after a completed store, the skip check skips |
| Microk8s.AddMicrok8sCloudStep.IsSkip | sunbeam-python/sunbeam/commands/microk8s.py:309-321 | skipped exactly when the cloud is registered with the controller; never fails; nothing changes |
| Microk8s.AddMicrok8sCloudStep.Run | sunbeam-python/sunbeam/commands/microk8s.py:323-335 | a missing kubeconfig fails the step with nothing added; otherwise, connected or not, the helper connects and the step completes with the cloud and credential added, unless `add_cloud` raised an error other than "already exists", which propagates with nothing changed |
| Microk8s.DeployMicrok8sApplicationStep.Prompt | sunbeam-python/sunbeam/commands/microk8s.py:105-135 | the stored answers are kept, and "addons" gets dns and hostpath-storage empty and metallb set to the asked answer, on top of the stored addons |
| Microk8s.DeployRun | sunbeam-python/sunbeam/commands/microk8s.py:153-184 | the machine ids handed to Terraform are those of the application's units, in order, or none when the application is not deployed; the apply's error, or else the wait's, fails the step, otherwise it completes |
| OpenStack.TopologyAtBootstrap | sunbeam-python/sunbeam/commands/openstack.py:65-75 | "single" exactly when the host has less than 32 GiB of memory, and "multi" otherwise |
| OpenStack.TargetTopology | sunbeam-python/sunbeam/commands/openstack.py:78-95 | "single" exactly for one distinct node on a host under 32 GiB; "large" exactly for ten or more distinct nodes; "multi" otherwise |
| OpenStack.NodeInBothRolesCountsOnce | sunbeam-python/sunbeam/commands/openstack.py:84-89 | a single node with both the control and compute roles on a small host is a "single" deployment: names are counted once |
| OpenStack.NoNodesIsMulti | sunbeam-python/sunbeam/commands/openstack.py:84-93 | with no control or compute node the target is "multi" |
| OpenStack.HaScale | sunbeam-python/sunbeam/commands/openstack.py:98-101 | 1 for "single", 3 for any other topology |
| OpenStack.OsApiScale | sunbeam-python/sunbeam/commands/openstack.py:104-111 | 1 for "single"; for "multi" the lesser of the control-node count and 3; for "large" the lesser of two more than the control nodes and 7; any other topology raises "Unknown topology" |
| OpenStack.OsApiScaleMonotone | sunbeam-python/sunbeam/commands/openstack.py:104-111 | more control nodes never give a smaller API scale; the scale is capped at 3 ("multi") from three control nodes and at 7 ("large") from five |
| OpenStack.OsApiScaleBounds | sunbeam-python/sunbeam/commands/openstack.py:104-111 | for a known topology and at least one control node, the API scale is between 1 and 7 |
| OpenStack.IngressScale | sunbeam-python/sunbeam/commands/openstack.py:114-117 | 1 for "single", the number of control nodes otherwise |
| OpenStack.CephReplicaScale | sunbeam-python/sunbeam/commands/openstack.py:120-123 | between 1 and 3; 1 exactly for "single" or fewer than two storage nodes; otherwise the lesser of the storage-node count and 3 |
| OpenStack.CephReplicaScaleMonotone | sunbeam-python/sunbeam/commands/openstack.py:120-123 | more storage nodes never give fewer replicas; outside "single" there are 3 from three storage nodes on |
| OpenStack.Resolve | sunbeam-python/sunbeam/commands/openstack.py:179-184 | a setting other than "auto" is kept; "auto" takes the stored value, or else the detected one |
| OpenStack.DeployControlPlaneStep.IsSkip | sunbeam-python/sunbeam/commands/openstack.py:162-193 | never skips; resolves topology and database; fails with the fixed message exactly when a stored, non-empty database topology differs from the resolved one |
| OpenStack.DeployControlPlaneStep.Run | sunbeam-python/sunbeam/commands/openstack.py:195-249 | stores exactly the resolved topology and database and the deployment variables; waits, once applied, for the model's applications without cinder-ceph when Ceph is off; the apply's error, or else the wait's, fails the step |
| OpenStack.StoredRecordIsStable | sunbeam-python/sunbeam/commands/openstack.py:179-205 | the record a deployment stores makes a later "auto" resolve to what was deployed, with no database conflict |
| OpenStack.AutoDatabaseNeverConflicts | sunbeam-python/sunbeam/commands/openstack.py:183-191 | asking for "auto" never conflicts with the stored record |
| OpenStack.StoredDatabaseIsKept | sunbeam-python/sunbeam/commands/openstack.py:183-191 | once a database topology is stored, the step proceeds only with that same one |
| OpenStack.StorageTfvars | sunbeam-python/sunbeam/commands/openstack.py:150-160 | Ceph is enabled exactly when some node has the storage role, and then the offer URL names the controller model's microceph application |
| OpenStack.DeployTfvars | sunbeam-python/sunbeam/commands/openstack.py:207-217 | the deployment variables: model, channels, MicroK8s cloud and credential, storage class, one MySQL per service exactly for a "multi" database, plus the storage variables |
| OpenStack.RemoveFirst | sunbeam-python/sunbeam/commands/openstack.py:231 | `list.remove` drops one occurrence: one element shorter, the same elements less that one |
| OpenStack.AppsToWaitFor | sunbeam-python/sunbeam/commands/openstack.py:228-231 | without Ceph, one cinder-ceph is dropped from the applications waited for; otherwise they are all kept |
| OpenStack.ResizeIsSkip | sunbeam-python/sunbeam/commands/openstack.py:300-314 | never skips; fails with the fixed message exactly when the OpenStack model does not exist |
| OpenStack.Resize | sunbeam-python/sunbeam/commands/openstack.py:316-353 | a record without a database raises; a "large" target on a "single" database is refused exactly when not forced; otherwise the resize proceeds exactly when the topology is known (an unknown one raises with `OsApiScale`'s error), and then the record gets the new topology and the four scales follow from the topology and node counts |
| OpenStack.ForcedResizeProceeds | sunbeam-python/sunbeam/commands/openstack.py:325-336 | with `--force`, any known topology proceeds |
| OpenStack.ResizeTarget | sunbeam-python/sunbeam/commands/openstack.py:319-323 | the given topology, or for "auto" the one the cluster's nodes call for |
| OpenStack.ScaledTfvars | sunbeam-python/sunbeam/commands/openstack.py:344-353 | the four scale variables are written over the stored variables and every other variable is kept |
| OpenStack.ResizeRun | sunbeam-python/sunbeam/commands/openstack.py:316-379 | a refusal or a missing database stores nothing; an unknown topology raises after the record was stored; a resize that proceeds stores the record and the scaled variables, waits without cinder-ceph when no node has storage, and the apply's error, or else the wait's, fails it |
| OpenStack.PatchIsSkip | sunbeam-python/sunbeam/commands/openstack.py:393-419 | without the MicroK8s config, or when the client cannot be built, the step fails with that message; otherwise it never fails and skips exactly when every service already carries the MetalLB annotation |
| OpenStack.PatchRun | sunbeam-python/sunbeam/commands/openstack.py:421-432 | completes exactly when every unannotated service has a first ingress address; otherwise raises, at the first unannotated service without one, the TypeError (no ingress list) or IndexError (empty list) of `ingress[0]`; either way the cluster and patched names are those of the reference fold over the services before the stop (all three when it completes) |
| OpenStack.FirstUnpatchable | sunbeam-python/sunbeam/commands/openstack.py:424-427 | the position of the first service that is neither annotated nor has an ingress address: every service before it has one or the other |
| OpenStack.PatchAllEffect | sunbeam-python/sunbeam/commands/openstack.py:421-432 | when every listed service is annotated or has an ingress address, every listed service ends annotated (with its own address when it was not already), every other service is unchanged, and exactly those that lacked the annotation are patched |
| OpenStack.PatchedAllAnnotated | sunbeam-python/sunbeam/commands/openstack.py:393-432 | when every unannotated service has an ingress address, after `run` every service carries the annotation, so the skip check would skip |
| Configure.CheckChoice | sunbeam-python/sunbeam/commands/configure.py:72-82 | a NIC answer is accepted exactly when its stripped, lower-cased form is one of the host's NICs; otherwise the error names it |
| Configure.ReturnCodeFails | sunbeam-python/sunbeam/commands/configure.py:266 | a missing return code counts as 0; an integer one fails exactly when above 1; a value Python cannot compare with an integer raises |
| Configure.AdminCredentials | sunbeam-python/sunbeam/commands/configure.py:250-280 | the exception `get_leader_unit` raises (no unit leads Keystone) propagates unchanged; an empty leader name raises "Unable to get keystone leader"; a failing return code raises; otherwise the eight OS_ variables, with the auth URL from the public endpoint and both API versions from the action's api-version |
| Configure.DemoIsSkip | sunbeam-python/sunbeam/commands/configure.py:564-576 | never fails; runs exactly when the stored demo-setup answer is truthy, and a missing answer raises |
| Configure.OpenrcIsSkip | sunbeam-python/sunbeam/commands/configure.py:363-378 | skipped without a user section; otherwise runs exactly when the demo-setup answer is truthy, and a missing answer raises |
| Configure.OpenrcFollowsDemo | sunbeam-python/sunbeam/commands/configure.py:363-378 | with a user section the openrc step is skipped exactly when the demo setup is; without one the openrc step skips where the demo step raises |
| Configure.CharmConfig | sunbeam-python/sunbeam/commands/configure.py:303-331 | the configuration exists exactly when the answers hold the access location and the external network (and a network for local access): gateway enabled exactly for remote access, bridge br-ex, bridge address the gateway with the network's prefix length for local access and the any-network address otherwise, the physical network copied |
| Configure.SetHypervisorCharmConfigStep.Run | sunbeam-python/sunbeam/commands/configure.py:303-349 | when the configuration exists it is merged over the step's and applied in the controller model, an apply error failing the step; otherwise the step raises, having set the gateway and bridge entries once the access location is known and, for an access other than local, the unset bridge address |
| Configure.HostAt | sunbeam-python/sunbeam/commands/configure.py:518-525 | Python list indexing: defined exactly for indices from -len to len-1, negative ones counting from the end |
| Configure.DefaultAnswer | sunbeam-python/sunbeam/commands/configure.py:492-494 | the stored answer when truthy; otherwise the network's host at the index, raising when there is none |
| Configure.NameserverList | sunbeam-python/sunbeam/commands/configure.py:511-513 | the nameservers answer becomes a list of the same words, in order |
| Configure.AskNetwork | sunbeam-python/sunbeam/commands/configure.py:467-504 | the access location is the answer; the CIDR is asked from the bank for that location; fails exactly when the CIDR is not a network or the default gateway cannot be found; otherwise only the CIDR, gateway (the default for local access, asked with it for remote access) and physical network change |
| Configure.AskDemoUser | sunbeam-python/sunbeam/commands/configure.py:505-516 | fails exactly when the nameservers answer is not text; otherwise sets the five user answers, splitting the nameservers, and keeps the rest |
| Configure.AskAllocation | sunbeam-python/sunbeam/commands/configure.py:517-538 | fails exactly when the start or end default has no host; otherwise the range is asked with those defaults, the network type is asked, and the segmentation id is asked for "vlan" and 0 otherwise; other answers kept |
| Configure.AskDemo | sunbeam-python/sunbeam/commands/configure.py:505-538 | records the demo answer; answered falsy, nothing else changes; answered truthy, fails exactly when the nameservers answer is not text or a range default has no host, and otherwise sets the demo user's answers and the allocation answers by their rules |
| Configure.AskAll | sunbeam-python/sunbeam/commands/configure.py:467-538 | succeeds exactly when the CIDR answer is a network, the gateway default has a host and, for a truthy demo answer, the nameservers answer is text and both range defaults have a host; on success: the access location and demo answers are recorded; the CIDR is asked from the location's bank; the gateway is the stored one or the network's first host (asked with that default for remote access); the physical network is physnet1; and for a truthy demo answer the demo user's answers and the allocation range (stored or second and last host as defaults), network type and segmentation id (0 unless "vlan") |
| Configure.UserQuestions.Prompt | sunbeam-python/sunbeam/commands/configure.py:443-542 | starts from the stored answers with the two sections ensured, keeps every other section, writes back exactly its answers, and does so exactly when no question step raises (the CIDR is a network, the gateway default has a host and, for a truthy demo answer, the nameservers answer is text and both range defaults have a host), and the written `user` and `external_network` sections follow every rule of the questions (location, CIDR, gateway, physnet1, demo user, allocation range, network type, segmentation id) |
| Configure.ChosenNic | sunbeam-python/sunbeam/commands/configure.py:661-684 | a NIC is chosen only when joining or for remote access; then the preseed's NIC when truthy, else the prompted one |
| Configure.SetLocalHypervisorOptions.Prompt | sunbeam-python/sunbeam/commands/configure.py:661-684 | the step's NIC is the chosen one |
| Configure.SetLocalHypervisorOptions.Run | sunbeam-python/sunbeam/commands/configure.py:686-709 | without a NIC it completes; otherwise it raises exactly when openstack-hypervisor is missing, no unit is on the node's machine or the return code cannot be compared, and else the action goes to that unit and the step fails exactly when the return code is above 1 |
| Log.LogName | sunbeam-python/sunbeam/log.py:113 | the new log file's name matches the pattern, so later runs count it |
| Log.BelowIrreflexive | sunbeam-python/sunbeam/log.py:109 | no name sorts before itself |
| Log.BelowTransitive | sunbeam-python/sunbeam/log.py:109 | the string order is transitive |
| Log.BelowTotal | sunbeam-python/sunbeam/log.py:109 | of two different names one sorts before the other |
| Log.BelowAsymmetric | sunbeam-python/sunbeam/log.py:109 | two names never sort before each other |
| Log.Insert | sunbeam-python/sunbeam/log.py:109 | inserting into an ascending list keeps it ascending and adds exactly the element |
| Log.Sort | sunbeam-python/sunbeam/log.py:109 | `sorted` of distinct names is ascending and a permutation of them |
| Log.Enumerate | sunbeam-python/sunbeam/log.py:108 | the listing holds every matched file exactly once |
| Log.CutAscending | sunbeam-python/sunbeam/log.py:109 | cutting a sorted list leaves every front element below every back element, and the back is the rest of the whole |
| Log.SelectOld | sunbeam-python/sunbeam/log.py:109-110 | nothing is selected for at most the limit; otherwise exactly the limit remain, and every selected file sorts before every remaining one |
| Log.LogDir.Unlink | sunbeam-python/sunbeam/log.py:110-111 | the listed files are gone from the directory and nothing else changes |
| Log.LogDir.PrepareLogfile | sunbeam-python/sunbeam/log.py:100-114 | the directory exists; only matching files go, none while at most nine match, else exactly nine remain, each sorting after every removed one; the returned path is the directory and the new name |
| Log.Retention | sunbeam-python/sunbeam/log.py:107-111 | what removing the selected files leaves: the matches less those files, at most nine, each after every removed one |
| Log.RetentionBound | sunbeam-python/sunbeam/log.py:23 | with the new log file, at most ten matching files exist |

## Left out

- Terraform, the Juju controller connection, the HTTP session over the daemon's unix socket, the Kubernetes client, `Snap` paths, `shutil.copytree` and `/proc/meminfo`: their answers are parameters (error texts as `Option<string>`, host facts, model views, oracles).
- asyncio, `run_sync`, `update_status_background` and the timeouts of `block_until` and `wait_for_idle`: a `wait_*` helper is modelled by the condition it polls (`Juju.Wait`), not by waiting.
- `ipaddress` parsing and host enumeration: a network's prefix length (`prefixLength`), its hosts (`hostsOf`) and the address/network predicates of the MetalLB validator are parameters.
- The rich console, status spinner, click options, the table and YAML output of `node list` and of `add`'s token, and the interactive loops of `NicPrompt.__call__` and `prompt_for_nic`: `add` is reduced to what it reports, and the prompted NIC is a parameter.
- The question banks, the preseed file reading and `write_answers` (sunbeam/jobs/questions.py is not part of this model): a question's answer is the `ask` oracle, given the bank, the question and the default offered.
- `node list` and the `configure` command's composition of its steps are not modelled; the steps themselves are.
- `setup_root_logging` and `setup_logging` only configure logging. `prepare_logfile`'s directory mode (0o750) and the timestamp format are left out: the timestamp text is the `stamp` parameter, and the directory is reduced to the names of its entries.
- Glob metacharacters inside the log name are not interpreted: the name is matched literally.
- JSON encoding inside `update_config`/`read_config`, and the persistence of `JujuAccount`/`JujuController`, are opaque storage; only the `json.dumps`/`json.loads` round trip of a string is stated.
- The values of `utils.LOCAL_ACCESS`/`utils.REMOTE_ACCESS` ("local"/"remote"), `utils.get_fqdn` and the other host queries come from sunbeam/utils.py, which is not part of this model; they are constants or inputs.
- sunbeam/commands/microceph.py, sunbeam/commands/juju.py, the hypervisor steps and the Terraform helper are not part of this model: the steps they define appear only as names in the plans (`Workflows.StepCall`) with a behaviour supplied by the caller.
- Python's `int()` also accepts underscores between digits and non-ASCII digits; `Node.MachineId` accepts only an optional sign and ASCII digits after stripping whitespace.
- `Strs.Lower` and `Strs.Upper` fold ASCII letters only, while Python's `str.lower`/`str.upper` fold all of Unicode. The FQDN label pattern's case-insensitive match is modelled with the four non-ASCII characters that fold to ASCII letters.
- Strs.Repr: keeps non-printable characters above U+00FF as they are, where Python writes them as `\u` or `\U` escapes; its printability test covers the Latin-1 range only.
- Common.ValidateRoles: upper-cases the user's `--role` values with `Strs.Upper`, so a value that only Unicode upper-casing turns into a role name (`"ſtorage".upper()` is `"STORAGE"`) is refused by the model but accepted by the code.
- `Strs.IsSpace` is the ASCII whitespace set (space, tab, newline, carriage return, vertical tab, form feed); Python's `str.strip()` and `str.split()` also treat `\x1c` to `\x1f`, `\x85`, `\xa0` and the other Unicode spaces as whitespace.
- Configure.CheckChoice: strips the answer of ASCII whitespace only, so an answer padded with another Unicode space is refused by the model but accepted by the code.
- Node.MachineId: strips ASCII whitespace only before reading the integer, so output padded with another Unicode space is refused by the model but read by the code.
- `Configure.Text` renders a list or a dict only by its kind, not by its elements: those values never reach the formatted messages the model states.
- Configure.AskDemoUser: the nameservers answer is split by the `split` parameter; `Configure.AskAll` passes Python's whitespace split (`Strs.Words`).
- The answers of the cloud configuration use a closed set of keys (`Configure.Key`); any other stored key is an `Other` and is carried along unchanged.
- OpenStack.PatchIsSkip: requires every load-balancer service to exist; the code raises out of the step for a missing one, which is not modelled.
- OpenStack.PatchRun: requires every load-balancer service to exist, for the same reason, and does not model the `kube.patch` call beyond the resulting service map. An ingress entry without an `ip` field is not modelled: the model's ingress list holds addresses only.
- OpenStack.ResizeRun: takes the stored Terraform variables as a parameter; a missing stored record raises in the code before anything else, which is not modelled.
- Juju.GetUnitFromMachine: takes the application, so the raise when the application is missing happens in the caller (`Configure.SetLocalHypervisorOptions.Run` models it).
- The `kubeconfig` parsing in `add_k8s_cloud` and the credential's content: the cloud and credential are recorded by name.
- `run_action` raising on a status other than "completed" is modelled by `Juju.ActionOutcome`; the action's parameters are not.
- Microk8s.AddMicrok8sUnitStep.Run: its `error` parameter stands only for the exceptions the step catches (`ApplicationNotFoundException`, `TimeoutException`); any other exception escapes `run_plan` and is not modelled.
- Microk8s.RemoveMicrok8sUnitStep.Run: `removeError` and `waitError` stand only for the caught `ApplicationNotFoundException` and `TimeoutException`; other exceptions escape and are not modelled.
- Microk8s.DeployRun: `applyError` stands only for the caught `TerraformException` and `waitError` for the caught `TimeoutException`; other exceptions escape and are not modelled.
- OpenStack.DeployControlPlaneStep.Run: `applyError` stands only for the caught `TerraformException` and `waitError` for the caught `JujuWaitException` or `TimeoutException`; other exceptions escape and are not modelled.
- OpenStack.ResizeRun: `applyError` and `waitError` stand only for the same caught exceptions as the deployment's; other exceptions escape and are not modelled.
- Steps whose `run` does no more than apply Terraform and wait (the control-plane and MicroK8s deployments, resizing) are modelled by their decisions and the errors they pass through (`Common.TwoStages`), not by what Terraform deploys.

## Findings

Each finding has both halves in the model: the as-written member keeps the
code's behaviour (and the command flow uses it, so that the model matches
the repository), and the corrected member states the evidently intended
rule with its property proved.

| source | as written | input that shows it | evidently intended | confidence | as-written member | corrected member |
|---|---|---|---|---|---|---|
| sunbeam-python/sunbeam/jobs/checks.py:207 | `if not 1 < len(label) < 63` refuses labels of length 1 (and of 63) while the message says only empty labels and labels over 63 characters are refused | `a.example.com` fails with the length message | labels of 1 to 63 characters pass, as host names allow | not executed | Checks.OneCharacterLabelRejected | Checks.IntendedAcceptsOneCharacterLabel |
| sunbeam-python/sunbeam/jobs/checks.py:204 | `re.match(r"^[a-z0-9-]*$", label)` lets a label ending in a newline through, because `$` matches before a final newline | `ab\n.example.com` is accepted | only letters, digits and hyphens pass (`\Z` or `re.fullmatch`) | not executed | Checks.TrailingNewlineLabelAccepted | Checks.IntendedRejectsNewlineLabel |
| sunbeam-python/sunbeam/clusterd/cluster.py:231 | `unset_sunbeam_bootstrapped` stores `json.dumps("False")`, a string that decodes to the non-empty, truthy `"False"` | after unset, `check_sunbeam_bootstrapped` still reads as bootstrapped | store the JSON booleans `true`/`false`, so the flag reads back as what was stored | not executed | Cluster.UnsetStillBootstrapped | Cluster.IntendedFlagRoundTrip |

=== FILE: bootstrap.dfy ===
/** `sunbeam cluster bootstrap` (sunbeam/commands/bootstrap.py): the four
    pre-flight checks, then five plans run one after another. The roles
    decide which steps plans 4 and 5 hold, and the token the Juju user
    step of plan 2 produced is handed to plan 3. */
module Bootstrap {
  import opened Wrappers
  import opened Common
  import opened Checks
  import opened Engine
  import opened Workflows
  import Juju

  /** The command's inputs: the validated roles, the topology and database
      options, `--accept-defaults`, the host's FQDN and the snap's Juju cloud
      settings. */
  datatype BootstrapArgs = BootstrapArgs(
    roles: seq<Role>,
    topology: string,
    database: string,
    acceptDefaults: bool,
    fqdn: string,
    cloudName: string,
    cloudType: string)

  /** The pre-flight checks, in the order they are appended. */
  const BOOTSTRAP_CHECKS: seq<CheckKind> := [JujuSnapCheck, SshKeysConnectedCheck, DaemonGroupCheck, LocalShareCheck]

  /** Plan 1: log in to Juju, initialise the cluster with the role names,
      bootstrap the controller. */
  function Plan1(args: BootstrapArgs): seq<StepCall> {
    [JujuLoginStep, ClusterInitStep(RolesToStrList(args.roles)),
     BootstrapJujuStep(args.cloudName, args.cloudType, Juju.CONTROLLER)]
  }

  /** Plan 2: create the node's Juju user, record the controller. */
  function Plan2(args: BootstrapArgs): seq<StepCall> {
    [CreateJujuUserStep(args.fqdn), ClusterUpdateJujuControllerStep(Juju.CONTROLLER)]
  }

  /** Plan 3: store the user with its registration token, back up the
      bootstrap user, save the user locally. */
  function Plan3(args: BootstrapArgs, token: Option<string>): seq<StepCall> {
    [ClusterAddJujuUserStep(args.fqdn, token), BackupBootstrapUserStep(args.fqdn),
     SaveJujuUserLocallyStep(args.fqdn)]
  }

  /** The part of plan 4 every node runs, whatever its roles. */
  function Plan4Base(args: BootstrapArgs): seq<StepCall> {
    [RegisterJujuUserStep(args.fqdn, Juju.CONTROLLER, true),
     TerraformInitStep("sunbeam-machine-plan"), DeploySunbeamMachineApplicationStep,
     AddSunbeamMachineUnitStep(args.fqdn),
     TerraformInitStep("microk8s-plan"), DeployMicrok8sApplicationStep(args.acceptDefaults),
     AddMicrok8sUnitStep(args.fqdn), StoreMicrok8sConfigStep, AddMicrok8sCloudStep,
     TerraformInitStep("microceph-plan"), DeployMicrocephApplicationStep]
  }

  /** Plan 4: the base, then the microceph unit and OSD steps for a storage
      node, then the openstack plan and the control plane for a control node. */
  function Plan4(args: BootstrapArgs): seq<StepCall> {
    Plan4Base(args)
    + (if AnyStorage(args.roles) then [AddMicrocephUnitStep(args.fqdn), ConfigureMicrocephOSDStep(args.fqdn, args.acceptDefaults)] else [])
    + (if AnyControl(args.roles) then [TerraformInitStep("openstack-plan"), DeployControlPlaneStep(args.topology, args.database)] else [])
  }

  /** Plan 5: MySQL configuration and load-balancer patching for a control
      node, then the hypervisor plan, application and unit for a compute node. */
  function Plan5(args: BootstrapArgs): seq<StepCall> {
    (if AnyControl(args.roles) then [ConfigureMySQLStep, PatchLoadBalancerServicesStep] else [])
    + (if AnyCompute(args.roles) then [TerraformInitStep("hypervisor-plan"), DeployHypervisorApplicationStep, AddHypervisorUnitStep(args.fqdn)] else [])
  }

  /** The five plans, plan 3 built with `token`. */
  function Plans(args: BootstrapArgs, token: Option<string>): (plans: seq<seq<StepCall>>)
    ensures |plans| == 5
  {
    [Plan1(args), Plan2(args), Plan3(args, token), Plan4(args), Plan5(args)]
  }

  /** The token plan 3 receives: the message of `CreateJujuUserStep` in the
      results of plan 2. */
  function Token<S>(w: Workflow<S>): Option<string> {
    if |w.runs| < 2 then None else GetStepMessage(w.runs[1].results, "CreateJujuUserStep")
  }

  /** Plan 4 as the command builds it, by appending. */
  method BuildPlan4(args: BootstrapArgs) returns (plan: seq<StepCall>)
    ensures plan == Plan4(args)
  {
    plan := [RegisterJujuUserStep(args.fqdn, Juju.CONTROLLER, true)];
    plan := plan + [TerraformInitStep("sunbeam-machine-plan")];
    plan := plan + [DeploySunbeamMachineApplicationStep];
    plan := plan + [AddSunbeamMachineUnitStep(args.fqdn)];
    plan := plan + [TerraformInitStep("microk8s-plan")];
    plan := plan + [DeployMicrok8sApplicationStep(args.acceptDefaults)];
    plan := plan + [AddMicrok8sUnitStep(args.fqdn)];
    plan := plan + [StoreMicrok8sConfigStep];
    plan := plan + [AddMicrok8sCloudStep];
    plan := plan + [TerraformInitStep("microceph-plan")];
    plan := plan + [DeployMicrocephApplicationStep];
    assert plan == Plan4Base(args);
    if AnyStorage(args.roles) {
      plan := plan + [AddMicrocephUnitStep(args.fqdn)];
      plan := plan + [ConfigureMicrocephOSDStep(args.fqdn, args.acceptDefaults)];
    }
    if AnyControl(args.roles) {
      plan := plan + [TerraformInitStep("openstack-plan")];
      plan := plan + [DeployControlPlaneStep(args.topology, args.database)];
    }
  }

  /** Plan 5 as the command builds it, by appending. */
  method BuildPlan5(args: BootstrapArgs) returns (plan: seq<StepCall>)
    ensures plan == Plan5(args)
  {
    plan := [];
    if AnyControl(args.roles) {
      plan := plan + [ConfigureMySQLStep];
      plan := plan + [PatchLoadBalancerServicesStep];
    }
    if AnyCompute(args.roles) {
      plan := plan + [TerraformInitStep("hypervisor-plan")];
      plan := plan + [DeployHypervisorApplicationStep];
      plan := plan + [AddHypervisorUnitStep(args.fqdn)];
    }
  }

  /** Plan 4 always starts with the sunbeam-machine, microk8s and microceph
      deployment; the microceph unit and OSD steps are there exactly for a
      storage node, the openstack plan and control plane exactly for a
      control node. */
  lemma Plan4Gating(args: BootstrapArgs)
    ensures |Plan4(args)| >= 11 && Plan4(args)[..11] == Plan4Base(args)
    ensures AddMicrocephUnitStep(args.fqdn) in Plan4(args) <==> AnyStorage(args.roles)
    ensures ConfigureMicrocephOSDStep(args.fqdn, args.acceptDefaults) in Plan4(args) <==> AnyStorage(args.roles)
    ensures TerraformInitStep("openstack-plan") in Plan4(args) <==> AnyControl(args.roles)
    ensures DeployControlPlaneStep(args.topology, args.database) in Plan4(args) <==> AnyControl(args.roles)
  {
    var base := Plan4Base(args);
    assert TerraformInitStep("openstack-plan") !in base by {
      forall k | 0 <= k < |base| ensures base[k] != TerraformInitStep("openstack-plan") {
        if base[k].TerraformInitStep? {
          assert base[k].tfplan[0] == 'm' || base[k].tfplan[0] == 's';
        }
      }
    }
  }

  /** Plan 5 holds the MySQL and load-balancer steps exactly for a control
      node and the hypervisor steps exactly for a compute node; it is empty
      for a node that is neither (a storage-only node). */
  lemma Plan5Gating(args: BootstrapArgs)
    ensures ConfigureMySQLStep in Plan5(args) <==> AnyControl(args.roles)
    ensures PatchLoadBalancerServicesStep in Plan5(args) <==> AnyControl(args.roles)
    ensures DeployHypervisorApplicationStep in Plan5(args) <==> AnyCompute(args.roles)
    ensures AddHypervisorUnitStep(args.fqdn) in Plan5(args) <==> AnyCompute(args.roles)
    ensures Plan5(args) == [] <==> !AnyControl(args.roles) && !AnyCompute(args.roles)
    ensures AnyControl(args.roles) ==> Plan5(args)[..2] == [ConfigureMySQLStep, PatchLoadBalancerServicesStep]
  {
  }

  /** Once plan 2 has completed, the token handed to plan 3 is the message
      `CreateJujuUserStep` left (its skip result, or its run result). */
  lemma TokenIsCreatedUserMessage<S>(args: BootstrapArgs, behave: StepCall -> Behaviour<S>, st: S)
    requires Run(Steps(Plan2(args), behave), st).status.PlanCompleted?
    ensures |Run(Steps(Plan2(args), behave), st).records| == 2
    ensures Entry(Run(Steps(Plan2(args), behave), st).records[0]).Some?
    ensures GetStepMessage(Run(Steps(Plan2(args), behave), st).results, "CreateJujuUserStep")
            == Entry(Run(Steps(Plan2(args), behave), st).records[0]).value.message
  {
    OnlyStepMessage(Plan2(args), behave, st, 0);
  }

  /** `run_bootstrap`: the Terraform directories, the pre-flight checks, then
      plans 1 to 5. */
  method RunBootstrap<S>(args: BootstrapArgs, facts: HostFacts, behave: StepCall -> Behaviour<S>, st: S)
    returns (w: Workflow<S>)
    ensures w.end.PreflightFailed? <==> FirstFailure(BOOTSTRAP_CHECKS, facts).CheckFailed?
    ensures w.end.PreflightFailed? ==>
              w.end.message == FirstFailure(BOOTSTRAP_CHECKS, facts).message && w.plans == [] && w.state == st
    ensures !w.end.PreflightFailed? ==>
              Threaded(w, behave, st) && 1 <= |w.plans| <= 5 && w.plans == Plans(args, Token(w))[..|w.plans|]
    ensures !w.end.PreflightFailed? ==> w.end.Finished? || w.end.PlanFailed?
    ensures w.end.Finished? ==> |w.plans| == 5
  {
    // The Terraform plan directories copied into the snap's user data; the
    // copies themselves (`copytree`) are file I/O and are not modelled.
    var dirs := TfplanDirs(args.roles);
    var outcome := Preflight(BOOTSTRAP_CHECKS, facts);
    if outcome.CheckFailed? {
      return Workflow(PreflightFailed(outcome.message), [], [], st);
    }
    w := RunPlans(args, behave, st);
  }

  /** Plans 1 to 5, each started in the state the previous one left and
      stopping at the first that does not complete; plan 3 receives the
      token plan 2 produced. */
  method RunPlans<S>(args: BootstrapArgs, behave: StepCall -> Behaviour<S>, st: S) returns (w: Workflow<S>)
    ensures Threaded(w, behave, st) && 1 <= |w.plans| <= 5 && w.plans == Plans(args, Token(w))[..|w.plans|]
    ensures w.end.Finished? || w.end.PlanFailed?
    ensures w.end.Finished? ==> |w.plans| == 5
  {
    StartThreaded(behave, st);
    w := RunNext(Start(st), Plan1(args), behave, st);
    w := RunIfFinished(w, Plan2(args), behave, st);
    var token := if |w.runs| < 2 then None else GetStepMessage(w.runs[1].results, "CreateJujuUserStep");
    assert w.plans == Plans(args, token)[..|w.plans|] by {
      if |w.plans| == 2 { assert w.plans == [Plan1(args)] + [Plan2(args)]; }
    }
    ghost var w2 := w;
    w := RunLaterPlans(w, args, token, behave, st);
    assert |w2.runs| == 2 ==> w.runs[1] == w2.runs[1] by {
      if |w2.runs| == 2 { assert w.runs[1] == w.runs[..2][1]; }
    }
  }

  /** Plans 3 to 5, each run only while every earlier plan completed. */
  method RunLaterPlans<S>(w0: Workflow<S>, args: BootstrapArgs, token: Option<string>, behave: StepCall -> Behaviour<S>, ghost st: S)
    returns (w: Workflow<S>)
    requires Threaded(w0, behave, st) && 1 <= |w0.plans| <= 2 && w0.plans == Plans(args, token)[..|w0.plans|]
    requires w0.end.Finished? || w0.end.PlanFailed?
    requires w0.end.Finished? ==> |w0.plans| == 2
    ensures Threaded(w, behave, st) && |w0.plans| <= |w.plans| <= 5 && w.plans == Plans(args, token)[..|w.plans|]
    ensures w.runs[..|w0.runs|] == w0.runs
    ensures w.end.Finished? || w.end.PlanFailed?
    ensures w.end.Finished? ==> |w.plans| == 5
  {
    ghost var plans := Plans(args, token);
    w := RunIfFinished(w0, Plan3(args, token), behave, st);
    PrefixGrows(plans, w0.plans, w.plans);
    ghost var w3 := w;
    var plan4 := BuildPlan4(args);
    w := RunIfFinished(w, plan4, behave, st);
    PrefixGrows(plans, w3.plans, w.plans);
    ghost var w4 := w;
    var plan5 := BuildPlan5(args);
    w := RunIfFinished(w, plan5, behave, st);
    PrefixGrows(plans, w4.plans, w.plans);
    assert w.runs[..|w0.runs|] == w0.runs by {
      assert w3.runs[..|w0.runs|] == w0.runs;
      assert w4.runs[..|w3.runs|] == w3.runs;
      assert w.runs[..|w4.runs|] == w4.runs;
    }
  }

  /** In a bootstrap that reached plan 3, the token of its first step is
      the message `CreateJujuUserStep` left in plan 2. */
  lemma PlanThreeGetsCreatedUserToken<S>(w: Workflow<S>, args: BootstrapArgs, behave: StepCall -> Behaviour<S>, st: S)
    requires Threaded(w, behave, st) && 3 <= |w.plans| <= 5 && w.plans == Plans(args, Token(w))[..|w.plans|]
    ensures |w.runs[1].records| == 2 && Entry(w.runs[1].records[0]).Some?
    ensures w.plans[2][0] == ClusterAddJujuUserStep(args.fqdn, Entry(w.runs[1].records[0]).value.message)
  {
    assert w.plans[1] == Plan2(args);
    assert w.runs[1] == Run(Steps(w.plans[1], behave), StateBefore(w, st, 1));
    assert w.runs[1].status.PlanCompleted?;
    TokenIsCreatedUserMessage(args, behave, StateBefore(w, st, 1));
  }

  /** A prefix of `all` extended by the next element of `all` is a longer prefix. */
  lemma PrefixGrows<T>(all: seq<T>, before: seq<T>, after: seq<T>)
    requires |before| <= |all| && before == all[..|before|]
    requires after == before || (|before| < |all| && after == before + [all[|before|]])
    ensures after == all[..|after|]
  {
    if after != before {
      assert all[..|after|] == all[..|before|] + [all[|before|]];
    }
  }
}

=== FILE: checks.dfy ===
/** Pre-flight checks (sunbeam/jobs/checks.py). A check is an object whose
    `run` answers whether the host is fit and, when it is not, leaves an
    explanation in its `message` field. The facts a check reads from the
    host (files, snap connections, socket permissions, memory, the cluster
    database) are gathered in `HostFacts`. */
module Checks {
  import opened Wrappers
  import opened Strs
  import opened JsonValue
  import opened Common

  /** What the checks observe on the host. `user` and `group` are `None`
      when the environment variable or the snap option is unset. */
  datatype HostFacts = HostFacts(
    jujuSnapPresent: bool,
    sshKeysConnected: bool,
    snapName: string,
    socketWritable: bool,
    user: Option<string>,
    group: Option<string>,
    localSharePath: string,
    localShareExists: bool,
    totalRamKb: int,
    totalCores: int,
    bootstrapped: Json)

  /** Each subclass of `Check`, with its constructor arguments. */
  datatype CheckKind =
    | BaseCheck
    | JujuSnapCheck
    | SshKeysConnectedCheck
    | DaemonGroupCheck
    | LocalShareCheck
    | VerifyFQDNCheck(fqdn: string)
    | VerifyHypervisorHostnameCheck(fqdn: string, hypervisorHostname: string)
    | SystemRequirementsCheck
    | VerifyBootstrappedCheck

  const FQDN_EMPTY := "FQDN cannot be an empty string"
  const FQDN_TOO_LONG := "A FQDN cannot be longer than 255 characters (trailing dot included)"
  const FQDN_ONE_LABEL := "A FQDN must have at least one label and a trailing dot, or two labels separated by a dot"
  const LABEL_LENGTH := "A label in a FQDN cannot be empty or longer than 63 characters"
  const LABEL_HYPHEN := "A label in a FQDN cannot start or end with a hyphen (-)"
  const LABEL_CHARS := "A label in a FQDN can only contain alphanumeric characters and hyphens (-)"
  const HOSTNAME_MISMATCH := "Host FQDN and Hypervisor hostname perceived by libvirt are different, check `hostname -f` and `/etc/hosts` file"
  const REQUIREMENTS_WARNING := "WARNING: Minimum system requirements (4 core CPU, 16 GB RAM) not met."
  const NOT_BOOTSTRAPPED := "Deployment not bootstrapped or bootstrap process has not completed succesfully. Please run `sunbeam cluster bootstrap`"

  /** Python's `str(x)` and `repr(x)` of an optional string. */
  function PyStr(x: Option<string>): string {
    if x.Some? then x.value else "None"
  }

  function PyRepr(x: Option<string>): string {
    if x.Some? then Repr(x.value) else "None"
  }

  /** A character the label pattern `[a-z0-9-]` accepts under IGNORECASE:
      ASCII letters, digits, the hyphen, and the four non-ASCII letters
      whose case folding is an ASCII letter (U+0130, U+0131, U+017F, U+212A). */
  predicate LabelChar(c: char) {
    ('a' <= c <= 'z') || ('A' <= c <= 'Z') || ('0' <= c <= '9') || c == '-'
    || c == '\U{0130}' || c == '\U{0131}' || c == '\U{017F}' || c == '\U{212A}'
  }

  predicate AllLabelChars(s: string) {
    forall k :: 0 <= k < |s| ==> LabelChar(s[k])
  }

  /** `re.match(r"^[a-z0-9-]*$", label, re.IGNORECASE)` succeeds: `$` also
      matches just before a final newline. */
  predicate LabelRegexMatch(lab: string) {
    AllLabelChars(lab) || (0 < |lab| && lab[|lab| - 1] == '\n' && AllLabelChars(lab[..|lab| - 1]))
  }

  /** The first complaint the label loop raises about one label, if any. */
  function LabelProblem(lab: string): Option<string> {
    if !(1 < |lab| < 63) then Some(LABEL_LENGTH)
    else if StartsWith(lab, "-") || EndsWith(lab, "-") then Some(LABEL_HYPHEN)
    else if !LabelRegexMatch(lab) then Some(LABEL_CHARS)
    else None
  }

  /** The complaint about the first bad label, in order. */
  function LabelsProblem(labels: seq<string>): Option<string>
    decreases |labels|
  {
    if |labels| == 0 then None
    else if LabelProblem(labels[0]).Some? then LabelProblem(labels[0])
    else LabelsProblem(labels[1..])
  }

  /** The labels the loop inspects: the pieces between dots, without the
      empty piece a trailing dot leaves. */
  function LabelsToCheck(fqdn: string): seq<string> {
    var labels := Split(fqdn, '.');
    if EndsWith(fqdn, ".") then labels[..|labels| - 1] else labels
  }

  /** What `VerifyFQDNCheck.run` decides: `None` to accept, otherwise the
      message it leaves. */
  function FqdnProblem(fqdn: string): Option<string> {
    if fqdn == "" then Some(FQDN_EMPTY)
    else if |fqdn| > 255 then Some(FQDN_TOO_LONG)
    else if |Split(fqdn, '.')| == 1 then Some(FQDN_ONE_LABEL)
    else LabelsProblem(LabelsToCheck(fqdn))
  }

  const JUJU_MISSING := "Juju not detected: please install snap"

  function SshKeysMessage(snapName: string): (m: string)
    ensures |m| > 0
  {
    "ssh-keys interface not detected\nPlease connect ssh-keys interface by running:\n\n    sudo snap connect "
    + snapName + ":ssh-keys\n"
  }

  function DaemonGroupMessage(user: Option<string>, group: Option<string>): (m: string)
    ensures |m| > 0
  {
    "Insufficient permissions to run sunbeam commands\nAdd the user " + PyRepr(user) + " to the " + PyRepr(group)
    + " group:\n\n    sudo usermod -a -G " + PyStr(group) + " " + PyStr(user)
    + "\n\nAfter this, reload the user groups either via a reboot or by running 'newgrp " + PyStr(group) + "'."
  }

  function LocalShareMessage(path: string): (m: string)
    ensures |m| > 0
  {
    path + " directory not detected\nPlease create by running:\n\n    mkdir -p " + path + "\n"
  }

  /** What one run of a check decides: whether it passes, and the message it
      writes (`None` when it leaves `message` as it was). */
  datatype Verdict = Verdict(ok: bool, message: Option<string>)

  function Evaluate(kind: CheckKind, facts: HostFacts): Verdict {
    match kind
    case BaseCheck => Verdict(true, None)
    case JujuSnapCheck =>
      if facts.jujuSnapPresent then Verdict(true, None) else Verdict(false, Some(JUJU_MISSING))
    case SshKeysConnectedCheck =>
      if facts.sshKeysConnected then Verdict(true, None) else Verdict(false, Some(SshKeysMessage(facts.snapName)))
    case DaemonGroupCheck =>
      if facts.socketWritable then Verdict(true, None) else Verdict(false, Some(DaemonGroupMessage(facts.user, facts.group)))
    case LocalShareCheck =>
      if facts.localShareExists then Verdict(true, None) else Verdict(false, Some(LocalShareMessage(facts.localSharePath)))
    case VerifyFQDNCheck(fqdn) =>
      var p := FqdnProblem(fqdn);
      Verdict(p.None?, p)
    case VerifyHypervisorHostnameCheck(fqdn, hostname) =>
      if fqdn == hostname then Verdict(true, None) else Verdict(false, Some(HOSTNAME_MISMATCH))
    case SystemRequirementsCheck =>
      if facts.totalRamKb < RAM_16_GB_IN_KB || facts.totalCores < 4 then Verdict(true, Some(REQUIREMENTS_WARNING))
      else Verdict(true, None)
    case VerifyBootstrappedCheck =>
      if Truthy(facts.bootstrapped) then Verdict(true, None) else Verdict(false, Some(NOT_BOOTSTRAPPED))
  }

  /** The label loop of `VerifyFQDNCheck.run`: stops at the first bad label. */
  method FirstLabelProblem(labels: seq<string>) returns (problem: Option<string>)
    ensures problem == LabelsProblem(labels)
  {
    var i := 0;
    while i < |labels|
      invariant 0 <= i <= |labels|
      invariant LabelsProblem(labels[i..]) == LabelsProblem(labels)
    {
      assert labels[i..][1..] == labels[i + 1..];
      var lab := labels[i];
      if !(1 < |lab| < 63) {
        return Some(LABEL_LENGTH);
      }
      if StartsWith(lab, "-") || EndsWith(lab, "-") {
        return Some(LABEL_HYPHEN);
      }
      if !LabelRegexMatch(lab) {
        return Some(LABEL_CHARS);
      }
      i := i + 1;
    }
    return None;
  }

  class Check {
    const kind: CheckKind
    var message: Option<string>

    constructor (kind: CheckKind)
      ensures this.kind == kind && message == None
    {
      this.kind := kind;
      message := None;
    }

    /** Runs the check; a failing run always leaves a message. */
    method Run(facts: HostFacts) returns (ok: bool)
      modifies this
      ensures ok == Evaluate(kind, facts).ok
      ensures message == (if Evaluate(kind, facts).message.Some? then Evaluate(kind, facts).message else old(message))
    {
      if kind.VerifyFQDNCheck? {
        ok := RunVerifyFqdn(kind.fqdn);
      } else {
        var v := Evaluate(kind, facts);
        if v.message.Some? {
          message := v.message;
        }
        ok := v.ok;
      }
    }

    method RunVerifyFqdn(fqdn: string) returns (ok: bool)
      modifies this
      ensures ok == FqdnProblem(fqdn).None?
      ensures message == (if FqdnProblem(fqdn).Some? then FqdnProblem(fqdn) else old(message))
    {
      if fqdn == "" {
        message := Some(FQDN_EMPTY);
        return false;
      }
      if |fqdn| > 255 {
        message := Some(FQDN_TOO_LONG);
        return false;
      }
      var labels := Split(fqdn, '.');
      if |labels| == 1 {
        message := Some(FQDN_ONE_LABEL);
        return false;
      }
      if EndsWith(fqdn, ".") {
        labels := labels[..|labels| - 1];
      }
      var problem := FirstLabelProblem(labels);
      if problem.Some? {
        message := problem;
        return false;
      }
      return true;
    }
  }

  lemma {:induction false} LabelsProblemMessages(labels: seq<string>)
    ensures LabelsProblem(labels).Some? ==> LabelsProblem(labels).value in {LABEL_LENGTH, LABEL_HYPHEN, LABEL_CHARS}
    decreases |labels|
  {
    if |labels| > 0 && LabelProblem(labels[0]).None? {
      LabelsProblemMessages(labels[1..]);
    }
  }

  lemma FqdnFailureHasMessage(fqdn: string, facts: HostFacts)
    ensures FqdnProblem(fqdn).Some? ==> |FqdnProblem(fqdn).value| > 0
  {
    LabelsProblemMessages(LabelsToCheck(fqdn));
  }

  /** The system requirements check passes always and warns exactly when
      the host has under 16 GiB of memory or under four cores. */
  lemma SystemRequirementsOnlyWarns(facts: HostFacts)
    ensures Evaluate(SystemRequirementsCheck, facts).ok
    ensures Evaluate(SystemRequirementsCheck, facts).message.Some?
            <==> facts.totalRamKb < 16 * 1024 * 1024 || facts.totalCores < 4
  {
  }

  /** The hypervisor hostname check passes exactly when the names agree. */
  lemma HypervisorHostnameIff(fqdn: string, hostname: string, facts: HostFacts)
    ensures Evaluate(VerifyHypervisorHostnameCheck(fqdn, hostname), facts).ok <==> fqdn == hostname
  {
  }

  lemma {:induction false} LabelsProblemNoneIff(labels: seq<string>)
    ensures LabelsProblem(labels).None? <==> forall k :: 0 <= k < |labels| ==> LabelProblem(labels[k]).None?
    decreases |labels|
  {
    if |labels| > 0 {
      LabelsProblemNoneIff(labels[1..]);
      assert forall k :: 1 <= k < |labels| ==> labels[1..][k - 1] == labels[k];
    }
  }

  /** A well-formed label as the loop judges it. */
  predicate LabelAccepted(lab: string) {
    1 < |lab| < 63 && lab[0] != '-' && lab[|lab| - 1] != '-' && LabelRegexMatch(lab)
  }

  lemma LabelProblemNoneIff(lab: string)
    ensures LabelProblem(lab).None? <==> LabelAccepted(lab)
  {
    if 1 < |lab| < 63 {
      assert StartsWith(lab, "-") <==> lab[0] == '-' by {
        assert StartsWith(lab, "-") ==> lab[..1][0] == '-';
        if lab[0] == '-' { assert lab[..1] == "-"; }
      }
      assert EndsWith(lab, "-") <==> lab[|lab| - 1] == '-' by {
        assert EndsWith(lab, "-") ==> lab[|lab| - 1..][0] == '-';
        if lab[|lab| - 1] == '-' { assert lab[|lab| - 1..] == "-"; }
      }
    }
  }

  /** The check accepts a name exactly when it is non-empty, at most 255
      characters, has a dot, and every label (after dropping the trailing
      dot) has 2 to 62 characters, no hyphen at either end, and only
      characters the label pattern allows. */
  lemma FqdnAcceptedIff(fqdn: string)
    ensures FqdnProblem(fqdn).None? <==>
      fqdn != "" && |fqdn| <= 255 && '.' in fqdn
      && forall k :: 0 <= k < |LabelsToCheck(fqdn)| ==> LabelAccepted(LabelsToCheck(fqdn)[k])
  {
    SplitCount(fqdn, '.');
    CountZeroIff(fqdn, '.');
    var labels := LabelsToCheck(fqdn);
    LabelsProblemNoneIff(labels);
    forall k | 0 <= k < |labels| ensures LabelProblem(labels[k]).None? <==> LabelAccepted(labels[k]) {
      LabelProblemNoneIff(labels[k]);
    }
  }

  lemma {:induction false} CountZeroIff(s: string, c: char)
    ensures Count(s, c) == 0 <==> c !in s
    decreases |s|
  {
    if |s| > 0 {
      CountZeroIff(s[1..], c);
      assert s == [s[0]] + s[1..];
    }
  }

  /** The labels of a name written as dot-separated labels are those labels. */
  lemma LabelsToCheckOfJoin(labels: seq<string>)
    requires |labels| >= 2 && forall k :: 0 <= k < |labels| ==> '.' !in labels[k] && labels[k] != ""
    ensures LabelsToCheck(Join(labels, ".")) == labels
    ensures '.' in Join(labels, ".") && |Split(Join(labels, "."), '.')| != 1
  {
    var fqdn := Join(labels, ".");
    SplitJoin(labels, '.');
    JoinLast(labels, ".");
    assert labels[|labels| - 1][|labels[|labels| - 1]| - 1] != '.';
    assert Join(labels, ".") == labels[0] + "." + Join(labels[1..], ".");
    assert fqdn[|labels[0]|] == '.';
  }

  /** For a name written as two or more non-empty dot-free labels, the
      verdict is the label loop's verdict on those labels. */
  lemma FqdnProblemOfLabels(labels: seq<string>)
    requires |labels| >= 2 && forall k :: 0 <= k < |labels| ==> '.' !in labels[k] && labels[k] != ""
    requires |Join(labels, ".")| <= 255
    ensures FqdnProblem(Join(labels, ".")) == LabelsProblem(labels)
    ensures IntendedFqdnProblem(Join(labels, ".")) == IntendedLabelsProblem(labels)
  {
    LabelsToCheckOfJoin(labels);
  }

  /** A name written as two or more acceptable labels passes the check. */
  lemma FqdnOfAcceptedLabels(labels: seq<string>)
    requires |labels| >= 2 && forall k :: 0 <= k < |labels| ==> '.' !in labels[k] && LabelAccepted(labels[k])
    requires |Join(labels, ".")| <= 255
    ensures FqdnProblem(Join(labels, ".")).None?
  {
    FqdnProblemOfLabels(labels);
    forall k | 0 <= k < |labels| ensures LabelProblem(labels[k]).None? {
      LabelProblemNoneIff(labels[k]);
    }
    LabelsProblemNoneIff(labels);
  }

  /** A one-character label is turned away: `a.example.com` fails the
      length rule although every label has 1 to 63 characters. */
  lemma OneCharacterLabelRejected()
    ensures FqdnProblem("a.example.com") == Some(LABEL_LENGTH)
  {
    var labels := ["a", "example", "com"];
    assert Join(labels, ".") == "a.example.com";
    FqdnProblemOfLabels(labels);
  }

  /** A label followed by a newline passes the pattern, because `$` matches
      before a final newline: `ab\n.example.com` is accepted. */
  lemma TrailingNewlineLabelAccepted()
    ensures FqdnProblem("ab\n.example.com").None?
  {
    var labels := ["ab\n", "example", "com"];
    assert Join(labels, ".") == "ab\n.example.com";
    assert LabelAccepted(labels[0]) by {
      assert labels[0][..2] == "ab";
    }
    assert LabelAccepted(labels[1]) && LabelAccepted(labels[2]);
    FqdnOfAcceptedLabels(labels);
  }

  /** A label as a host name allows it: 1 to 63 ASCII letters, digits and
      hyphens, no hyphen at either end. */
  predicate LdhLabel(lab: string) {
    1 <= |lab| <= 63 && lab[0] != '-' && lab[|lab| - 1] != '-'
    && forall k :: 0 <= k < |lab| ==> ('a' <= lab[k] <= 'z') || ('A' <= lab[k] <= 'Z') || ('0' <= lab[k] <= '9') || lab[k] == '-'
  }

  /** The label rule the messages describe: no empty label, none over 63
      characters, no hyphen at either end, only letters, digits and hyphens. */
  function IntendedLabelProblem(lab: string): (p: Option<string>)
    ensures p.None? <==> LdhLabel(lab)
  {
    if !(1 <= |lab| <= 63) then Some(LABEL_LENGTH)
    else if lab[0] == '-' || lab[|lab| - 1] == '-' then Some(LABEL_HYPHEN)
    else if exists k :: 0 <= k < |lab| && !(('a' <= lab[k] <= 'z') || ('A' <= lab[k] <= 'Z') || ('0' <= lab[k] <= '9') || lab[k] == '-') then Some(LABEL_CHARS)
    else None
  }

  function IntendedLabelsProblem(labels: seq<string>): (p: Option<string>)
    ensures p.None? <==> forall k :: 0 <= k < |labels| ==> LdhLabel(labels[k])
    decreases |labels|
  {
    if |labels| == 0 then None
    else if IntendedLabelProblem(labels[0]).Some? then IntendedLabelProblem(labels[0])
    else
      var rest := IntendedLabelsProblem(labels[1..]);
      assert forall k :: 1 <= k < |labels| ==> labels[1..][k - 1] == labels[k];
      rest
  }

  /** The FQDN check as its messages describe it. */
  function IntendedFqdnProblem(fqdn: string): Option<string> {
    if fqdn == "" then Some(FQDN_EMPTY)
    else if |fqdn| > 255 then Some(FQDN_TOO_LONG)
    else if |Split(fqdn, '.')| == 1 then Some(FQDN_ONE_LABEL)
    else IntendedLabelsProblem(LabelsToCheck(fqdn))
  }

  /** The intended check accepts exactly the dotted names of at most 255
      characters whose labels are host-name labels. */
  lemma IntendedFqdnAcceptsLdhNames(fqdn: string)
    ensures IntendedFqdnProblem(fqdn).None? <==>
      fqdn != "" && |fqdn| <= 255 && '.' in fqdn
      && forall k :: 0 <= k < |LabelsToCheck(fqdn)| ==> LdhLabel(LabelsToCheck(fqdn)[k])
  {
    SplitCount(fqdn, '.');
    CountZeroIff(fqdn, '.');
  }

  lemma IntendedAcceptsOneCharacterLabel()
    ensures IntendedFqdnProblem("a.example.com").None?
  {
    var labels := ["a", "example", "com"];
    assert Join(labels, ".") == "a.example.com";
    assert LdhLabel(labels[0]) && LdhLabel(labels[1]) && LdhLabel(labels[2]);
    IntendedFqdnOfLdhLabels(labels);
  }

  lemma IntendedFqdnOfLdhLabels(labels: seq<string>)
    requires |labels| >= 2 && forall k :: 0 <= k < |labels| ==> '.' !in labels[k] && LdhLabel(labels[k])
    requires |Join(labels, ".")| <= 255
    ensures IntendedFqdnProblem(Join(labels, ".")).None?
  {
    FqdnProblemOfLabels(labels);
  }

  lemma IntendedRejectsNewlineLabel()
    ensures IntendedFqdnProblem("ab\n.example.com") == Some(LABEL_CHARS)
  {
    var labels := ["ab\n", "example", "com"];
    assert Join(labels, ".") == "ab\n.example.com";
    assert IntendedLabelProblem(labels[0]) == Some(LABEL_CHARS) by {
      assert labels[0][2] == '\n';
    }
    IntendedFirstLabelDecides(labels);
  }

  lemma IntendedFirstLabelDecides(labels: seq<string>)
    requires |labels| >= 2 && forall k :: 0 <= k < |labels| ==> '.' !in labels[k] && labels[k] != ""
    requires |Join(labels, ".")| <= 255 && IntendedLabelProblem(labels[0]).Some?
    ensures IntendedFqdnProblem(Join(labels, ".")) == IntendedLabelProblem(labels[0])
  {
    FqdnProblemOfLabels(labels);
  }
}

=== FILE: cluster.dfy ===
/** The cluster daemon's client (sunbeam/clusterd/cluster.py): the
    membership operations built from single requests to the daemon, the
    member listing, the role filter and the "sunbeam bootstrapped" flag
    kept in the daemon's configuration.

    The daemon itself is not part of this model. It is an oracle `daemon`
    that answers a request given every request sent before it, so nothing
    is assumed about how it stores members, tokens, node records or
    configuration; a `ClusterService` records the requests it has sent. */
module Cluster {
  import opened Wrappers
  import opened Strs
  import opened JsonValue
  import opened Service
  import Checks

  /** The daemon: its answer to a request, given the requests before it. */
  type Daemon = (seq<Call>, Call) -> Response

  const SUNBEAM_BOOTSTRAP_KEY := "sunbeam_bootstrapped"

  /** The member fields `get_cluster_members` keeps. */
  const MEMBER_KEYS: set<string> := {"name", "address", "status"}

  /** A list of texts as a JSON array. */
  function StrList(xs: seq<string>): (j: Json)
    ensures j.JArr? && |j.items| == |xs|
    ensures forall i :: 0 <= i < |xs| ==> j.items[i] == JStr(xs[i])
  {
    JArr(seq(|xs|, i requires 0 <= i < |xs| => JStr(xs[i])))
  }

  // The requests of the client's operations.

  function BootstrapClusterCall(name: string, address: string): Call {
    PostCall("cluster/control", Dumped(JObj(map["bootstrap" := JBool(true), "address" := JStr(address), "name" := JStr(name)])))
  }

  function JoinCall(name: string, address: string, token: string): Call {
    PostCall("cluster/control", Dumped(JObj(map["join_token" := JStr(token), "address" := JStr(address), "name" := JStr(name)])))
  }

  function MembersCall(): Call {
    GetCall("/cluster/1.0/cluster", map[])
  }

  function RemoveCall(name: string): Call {
    DeleteCall("/cluster/1.0/cluster/" + name)
  }

  function GenerateTokenCall(name: string): Call {
    PostCall("/cluster/1.0/tokens", Dumped(JObj(map["name" := JStr(name)])))
  }

  function DeleteTokenCall(name: string): Call {
    DeleteCall("/cluster/internal/tokens/" + name)
  }

  function AddNodeInfoCall(name: string, role: seq<string>): Call {
    PostCall("/1.0/nodes", Dumped(JObj(map["name" := JStr(name), "role" := StrList(role)])))
  }

  function GetNodeInfoCall(name: string): Call {
    GetCall("1.0/nodes/" + name, map[])
  }

  function RemoveNodeInfoCall(name: string): Call {
    DeleteCall("1.0/nodes/" + name)
  }

  function UpdateNodeInfoCall(name: string, role: Option<seq<string>>, machineId: int): Call {
    var roleValue := if role.Some? then StrList(role.value) else JNull;
    PutCall("1.0/nodes/" + name, Dumped(JObj(map["role" := roleValue, "machineid" := JInt(machineId)])))
  }

  function AddJujuUserCall(name: string, token: string): Call {
    PostCall("/1.0/jujuusers", Dumped(JObj(map["username" := JStr(name), "token" := JStr(token)])))
  }

  function RemoveJujuUserCall(name: string): Call {
    DeleteCall("1.0/jujuusers/" + name)
  }

  function GetJujuUserCall(name: string): Call {
    GetCall("/1.0/jujuusers/" + name, map[])
  }

  function GetConfigCall(key: string): Call {
    GetCall("/1.0/config/" + key, map[])
  }

  function UpdateConfigCall(key: string, value: string): Call {
    PutCall("/1.0/config/" + key, Text(value))
  }

  /** `list_nodes_by_role`'s argument: one role name or a list of them. */
  datatype RoleFilter = RoleName(name: string) | RoleNames(names: seq<string>)

  /** The query value: a list is joined with "&role=", a name is used as is. */
  function RoleQuery(role: RoleFilter): (q: string)
    ensures role.RoleName? ==> q == role.name
    ensures role.RoleNames? ==> q == Join(role.names, "&role=")
  {
    match role
    case RoleName(name) => name
    case RoleNames(names) => Join(names, "&role=")
  }

  function NodesByRoleCall(role: RoleFilter): Call {
    GetCall("/1.0/nodes?role=" + RoleQuery(role), map[])
  }

  /** Each further role in a list becomes one more `role=` parameter, and a
      one-element list asks for the same nodes as its element. */
  lemma {:induction false} RoleQueryParameters(first: string, rest: seq<string>)
    ensures |rest| == 0 ==> NodesByRoleCall(RoleNames([first])) == NodesByRoleCall(RoleName(first))
    ensures |rest| > 0 ==> RoleQuery(RoleNames([first] + rest)) == first + "&role=" + RoleQuery(RoleNames(rest))
  {
    assert ([first] + rest)[1..] == rest;
  }

  /** The "metadata" of a decoded reply, None when absent; a reply that is
      not a mapping has no `.get` and raises. */
  function Metadata(a: Outcome<Json, ClusterError>): (r: Outcome<Json, ClusterError>)
    ensures a.Err? ==> r == a
    ensures a.Ok? && a.value.JObj? ==> r == Ok(Get(a.value, "metadata"))
    ensures a.Ok? && !a.value.JObj? ==> r == Err(MalformedReply)
  {
    if a.Err? then a else if !a.value.JObj? then Err(MalformedReply) else Ok(Get(a.value, "metadata"))
  }

  /** An operation that returns nothing: only whether it raised. */
  function Done(a: Outcome<Json, ClusterError>): (r: Outcome<(), ClusterError>)
    ensures r.Err? <==> a.Err?
    ensures a.Err? ==> r.error == a.error
  {
    if a.Err? then Err(a.error) else Ok(())
  }

  /** The request layer's answer to `call` after `history`. */
  function Answer(daemon: Daemon, history: seq<Call>, call: Call): Outcome<Json, ClusterError> {
    HandleResponse(daemon(history, call))
  }

  /** Answers to requests as the request layer returns them. */
  type Answers = (seq<Call>, Call) -> Outcome<Json, ClusterError>

  function Through(daemon: Daemon): (answers: Answers)
    ensures forall history, call :: answers(history, call) == Answer(daemon, history, call)
  {
    (history, call) => Answer(daemon, history, call)
  }

  /** Requests sent one after another, stopping after the first that raises. */
  datatype Trace = Trace(result: Outcome<Json, ClusterError>, sent: seq<Call>)

  function Sequence(answers: Answers, history: seq<Call>, calls: seq<Call>): (t: Trace)
    ensures |history| <= |t.sent| <= |history| + |calls|
    ensures t.sent == history + calls[..|t.sent| - |history|]
    ensures t.result.Ok? ==> t.sent == history + calls
    decreases |calls|
  {
    if |calls| == 0 then Trace(Ok(JNull), history)
    else
      var a := answers(history, calls[0]);
      if a.Err? || |calls| == 1 then
        assert calls[..1] == [calls[0]];
        Trace(a, history + [calls[0]])
      else
        var t := Sequence(answers, history + [calls[0]], calls[1..]);
        var n := |t.sent| - |history|;
        assert calls[..n] == [calls[0]] + calls[1..][..n - 1];
        assert [calls[0]] + calls[1..] == calls;
        t
  }

  /** Sending the first request, then a prefix of the rest. */
  lemma PrefixStep(history: seq<Call>, calls: seq<Call>, j: nat)
    requires 0 < |calls| && j < |calls|
    ensures (history + [calls[0]]) + calls[1..][..j] == history + calls[..j + 1]
  {
    assert calls[..j + 1] == [calls[0]] + calls[1..][..j];
  }

  /** A single request: it is sent and its answer is the outcome. */
  lemma SequenceOne(answers: Answers, history: seq<Call>, call: Call)
    ensures Sequence(answers, history, [call]) == Trace(answers(history, call), history + [call])
  {
  }

  /** Fail-fast: when the k-th request raises after the earlier ones
      succeeded, exactly the first k + 1 requests are sent and the k-th
      request's error is the outcome. */
  lemma {:induction false} SequenceStopsAtFailure(answers: Answers, history: seq<Call>, calls: seq<Call>, k: nat)
    requires k < |calls|
    requires answers(history + calls[..k], calls[k]).Err?
    requires forall j :: 0 <= j < k ==> answers(history + calls[..j], calls[j]).Ok?
    ensures Sequence(answers, history, calls).sent == history + calls[..k + 1]
    ensures Sequence(answers, history, calls).result == answers(history + calls[..k], calls[k])
    decreases k
  {
    assert history + calls[..0] == history;
    if k == 0 {
      assert calls[..1] == [calls[0]];
    } else {
      var next := history + [calls[0]];
      var rest := calls[1..];
      forall j | 0 <= j < k - 1
        ensures answers(next + rest[..j], rest[j]).Ok?
      {
        PrefixStep(history, calls, j);
      }
      PrefixStep(history, calls, k - 1);
      SequenceStopsAtFailure(answers, next, rest, k - 1);
      PrefixStep(history, calls, k);
    }
  }

  /** When every request succeeds, all are sent and the outcome is the last
      request's answer. */
  lemma {:induction false} SequenceAllSucceed(answers: Answers, history: seq<Call>, calls: seq<Call>)
    requires 0 < |calls|
    requires forall j :: 0 <= j < |calls| ==> answers(history + calls[..j], calls[j]).Ok?
    ensures Sequence(answers, history, calls).sent == history + calls
    ensures Sequence(answers, history, calls).result == answers(history + calls[..|calls| - 1], calls[|calls| - 1])
    decreases |calls|
  {
    assert history + calls[..0] == history;
    if |calls| > 1 {
      var next := history + [calls[0]];
      var rest := calls[1..];
      forall j | 0 <= j < |rest|
        ensures answers(next + rest[..j], rest[j]).Ok?
      {
        assert next + rest[..j] == history + calls[..j + 1];
      }
      SequenceAllSucceed(answers, next, rest);
      assert next + rest[..|rest| - 1] == history + calls[..|calls| - 1];
      assert next + rest == history + calls;
    }
  }

  /** `get_cluster_members`' view of one member: the name, address and
      status fields only. */
  function KeepMemberKeys(fields: map<string, Json>): (m: map<string, Json>)
    ensures m.Keys == fields.Keys * MEMBER_KEYS
    ensures forall k :: k in m ==> m[k] == fields[k]
  {
    map k | k in fields && k in MEMBER_KEYS :: fields[k]
  }

  predicate AllObjects(items: seq<Json>) {
    forall i :: 0 <= i < |items| ==> items[i].JObj?
  }

  /** The members listed in a reply, in the daemon's order; `metadata`
      defaults to an empty mapping, and anything Python could not iterate
      as a list of mappings raises. */
  function Members(a: Outcome<Json, ClusterError>): (r: Outcome<seq<map<string, Json>>, ClusterError>)
    ensures a.Err? ==> r == Err(a.error)
    ensures a.Ok? && !a.value.JObj? ==> r == Err(MalformedReply)
  {
    if a.Err? then Err(a.error)
    else if !a.value.JObj? then Err(MalformedReply)
    else
      var members := if "metadata" in a.value.fields then a.value.fields["metadata"] else JObj(map[]);
      if members.JArr? && AllObjects(members.items) then
        Ok(seq(|members.items|, i requires 0 <= i < |members.items| => KeepMemberKeys(members.items[i].fields)))
      else if members == JObj(map[]) || members == JArr([]) || members == JStr("") then Ok([])
      else Err(MalformedReply)
  }

  /** Each member keeps only the name, address and status keys, with their
      values, and the members stay in the daemon's order. */
  lemma MembersKeepOrderAndKeys(fields: map<string, Json>, items: seq<Json>)
    requires AllObjects(items)
    ensures Members(Ok(JObj(fields["metadata" := JArr(items)]))).Ok?
    ensures var r := Members(Ok(JObj(fields["metadata" := JArr(items)]))).value;
            |r| == |items| &&
            forall i :: 0 <= i < |items| ==>
              r[i].Keys == items[i].fields.Keys * MEMBER_KEYS && forall k :: k in r[i] ==> r[i][k] == items[i].fields[k]
  {
    var body := JObj(fields["metadata" := JArr(items)]);
    assert "metadata" in body.fields && body.fields["metadata"] == JArr(items);
    var r := Members(Ok(body)).value;
    forall i | 0 <= i < |items|
      ensures r[i] == KeepMemberKeys(items[i].fields)
    {
    }
  }

  /** A reply without "metadata" lists no members. */
  lemma MembersDefaultEmpty(fields: map<string, Json>)
    requires "metadata" !in fields
    ensures Members(Ok(JObj(fields))) == Ok([])
  {
  }

  /** The names `remove_node` compares against (`member.get("name")`). */
  function MemberNames(members: seq<map<string, Json>>): (names: seq<Json>)
    ensures |names| == |members|
    ensures forall i :: 0 <= i < |members| ==> names[i] == (if "name" in members[i] then members[i]["name"] else JNull)
  {
    seq(|members|, i requires 0 <= i < |members| => if "name" in members[i] then members[i]["name"] else JNull)
  }

  /** What `remove_node` sends after listing the members: for a member, the
      juju user, then the node record, then the member itself; otherwise
      only the node's join token. */
  function RemovalCalls(members: seq<map<string, Json>>, name: string): (calls: seq<Call>)
    ensures JStr(name) in MemberNames(members) ==> calls == [RemoveJujuUserCall(name), RemoveNodeInfoCall(name), RemoveCall(name)]
    ensures JStr(name) !in MemberNames(members) ==> calls == [DeleteTokenCall(name)]
  {
    if JStr(name) in MemberNames(members) then [RemoveJujuUserCall(name), RemoveNodeInfoCall(name), RemoveCall(name)]
    else [DeleteTokenCall(name)]
  }

  /** On a member, the membership is removed last: if removing the juju
      user or the node record raises, the later requests are not sent. */
  lemma RemoveMemberOrder(answers: Answers, history: seq<Call>, members: seq<map<string, Json>>, name: string)
    requires JStr(name) in MemberNames(members)
    ensures var t := Sequence(answers, history, RemovalCalls(members, name));
            var first := answers(history, RemoveJujuUserCall(name));
            var second := answers(history + [RemoveJujuUserCall(name)], RemoveNodeInfoCall(name));
            (first.Err? ==> t.sent == history + [RemoveJujuUserCall(name)] && t.result == first) &&
            (first.Ok? && second.Err? ==> t.sent == history + [RemoveJujuUserCall(name), RemoveNodeInfoCall(name)] && t.result == second) &&
            (first.Ok? && second.Ok? ==>
              t.sent == history + [RemoveJujuUserCall(name), RemoveNodeInfoCall(name), RemoveCall(name)] &&
              t.result == answers(history + [RemoveJujuUserCall(name), RemoveNodeInfoCall(name)], RemoveCall(name)))
  {
    var calls := RemovalCalls(members, name);
    assert calls[..0] == [] && calls[..1] == [RemoveJujuUserCall(name)];
    assert calls[..2] == [RemoveJujuUserCall(name), RemoveNodeInfoCall(name)];
    assert calls[..3] == calls;
    assert history + calls[..0] == history;
    var first := answers(history, RemoveJujuUserCall(name));
    var second := answers(history + [RemoveJujuUserCall(name)], RemoveNodeInfoCall(name));
    if first.Err? {
      SequenceStopsAtFailure(answers, history, calls, 0);
    } else if second.Err? {
      SequenceStopsAtFailure(answers, history, calls, 1);
    } else if answers(history + calls[..2], calls[2]).Err? {
      SequenceStopsAtFailure(answers, history, calls, 2);
    } else {
      SequenceAllSucceed(answers, history, calls);
    }
  }

  /** `get_juju_user`: a 404 raised as the HTTP error becomes "user not
      found"; other errors are raised as they are. */
  function JujuUserOutcome(a: Outcome<Json, ClusterError>): (r: Outcome<Json, ClusterError>)
    ensures a.Ok? && a.value.JObj? ==> r == Ok(Get(a.value, "metadata"))
    ensures a.Ok? && !a.value.JObj? ==> r == Err(MalformedReply)
    ensures a.Err? && a.error.HttpError? && a.error.status == 404 ==> r == Err(JujuUserNotFound)
    ensures a.Err? && !(a.error.HttpError? && a.error.status == 404) ==> r == a
  {
    if a.Err? && a.error.HttpError? && a.error.status == 404 then Err(JujuUserNotFound)
    else Metadata(a)
  }

  /** The request layer never reports "user not found" itself. */
  lemma HandleResponseNeverUserNotFound(resp: Response)
    ensures HandleResponse(resp) != Err(JujuUserNotFound)
  {
    if resp.Reply? && 400 <= resp.status < 600 && ErrorText(resp.body).Some? {
      var e := ErrorText(resp.body).value;
      assert Classify(e, resp.status) != JujuUserNotFound;
    }
  }

  /** The error text of a reply is raised as the HTTP error itself exactly
      when it holds none of the known texts. */
  lemma ClassifyRaisesIff(e: string, status: int)
    ensures Classify(e, status).HttpError? <==> forall i :: 0 <= i < |RULES| ==> !Contains(e, RULES[i].0)
  {
    if forall i :: 0 <= i < |RULES| ==> !Contains(e, RULES[i].0) {
      UnknownErrorRaisedAsIs(e, status);
    } else {
      var i :| 0 <= i < |RULES| && Contains(e, RULES[i].0);
      FirstIndex(e, status, i);
    }
  }

  /** When some rule matches, the first matching one decides, and no rule
      raises the HTTP error. */
  lemma {:induction false} FirstIndex(e: string, status: int, i: int)
    requires 0 <= i < |RULES| && Contains(e, RULES[i].0)
    ensures !Classify(e, status).HttpError?
    decreases i
  {
    if exists j :: 0 <= j < i && Contains(e, RULES[j].0) {
      var j :| 0 <= j < i && Contains(e, RULES[j].0);
      FirstIndex(e, status, j);
    } else {
      KnownErrorTranslated(e, status, i);
      assert !RULES[i].1.HttpError?;
    }
  }

  /** "User not found" is reported exactly for a 404 reply whose error text
      is none the request layer recognises: a recognised text wins even on
      a 404. */
  lemma JujuUserNotFoundIff(resp: Response)
    ensures JujuUserOutcome(HandleResponse(resp)) == Err(JujuUserNotFound) <==>
            resp.Reply? && resp.status == 404 && ErrorText(resp.body).Some? &&
            forall i :: 0 <= i < |RULES| ==> !Contains(ErrorText(resp.body).value, RULES[i].0)
  {
    HandleResponseNeverUserNotFound(resp);
    if resp.Reply? && resp.status == 404 && ErrorText(resp.body).Some? {
      ClassifyRaisesIff(ErrorText(resp.body).value, 404);
    }
  }

  /** The texts the flag is set and unset with: `json.dumps("True")` and
      `json.dumps("False")`. */
  const SET_VALUE := DumpString("True")
  const UNSET_VALUE := DumpString("False")

  /** `check_sunbeam_bootstrapped` on the answer to `get_config`: the decoded
      stored value, or False when the key is missing or the daemon is
      unavailable; other errors are raised. */
  function BootstrappedState(a: Outcome<Json, ClusterError>): (r: Outcome<Json, ClusterError>)
    ensures a.Err? && (a.error.ConfigItemNotFound? || a.error.ClusterServiceUnavailable?) ==> r == Ok(JBool(false))
    ensures a.Err? && !(a.error.ConfigItemNotFound? || a.error.ClusterServiceUnavailable?) ==> r == a
    ensures a.Ok? && !a.value.JObj? ==> r == Err(MalformedReply)
    ensures a.Ok? && a.value.JObj? && Get(a.value, "metadata").JStr? && Loads(Get(a.value, "metadata").s).Some? ==>
              r == Ok(Loads(Get(a.value, "metadata").s).value)
  {
    if a.Err? then
      if a.error.ConfigItemNotFound? || a.error.ClusterServiceUnavailable? then Ok(JBool(false)) else a
    else if !a.value.JObj? then Err(MalformedReply)
    else
      var stored := Get(a.value, "metadata");
      if stored.JStr? && Loads(stored.s).Some? then Ok(Loads(stored.s).value) else Err(MalformedReply)
  }

  /** The reply of a daemon that answers `get_config` with the text last stored. */
  function StoredReply(text: string): Outcome<Json, ClusterError> {
    Ok(JObj(map["metadata" := JStr(text)]))
  }

  /** As written, unsetting the flag stores the JSON string "False", which
      reads back as a non-empty string: the deployment still counts as
      bootstrapped, and the bootstrapped preflight check passes. */
  lemma UnsetStillBootstrapped(facts: Checks.HostFacts)
    ensures BootstrappedState(StoredReply(UNSET_VALUE)) == Ok(JStr("False"))
    ensures Truthy(BootstrappedState(StoredReply(UNSET_VALUE)).value)
    ensures Checks.Evaluate(Checks.VerifyBootstrappedCheck, facts.(bootstrapped := JStr("False"))).ok
  {
    LoadsDumpString("False");
  }

  /** Setting the flag reads back as a truthy value. */
  lemma SetIsBootstrapped()
    ensures BootstrappedState(StoredReply(SET_VALUE)) == Ok(JStr("True"))
    ensures Truthy(BootstrappedState(StoredReply(SET_VALUE)).value)
  {
    LoadsDumpString("True");
  }

  /** The evidently intended flag: `json.dumps(True)` / `json.dumps(False)`. */
  function IntendedFlagValue(bootstrapped: bool): (text: string)
    ensures Loads(text) == Some(JBool(bootstrapped))
  {
    if bootstrapped then "true" else "false"
  }

  /** With the intended values, the flag reads back as what was stored, and
      an unset flag fails the bootstrapped preflight check. */
  lemma IntendedFlagRoundTrip(bootstrapped: bool, facts: Checks.HostFacts)
    ensures BootstrappedState(StoredReply(IntendedFlagValue(bootstrapped))) == Ok(JBool(bootstrapped))
    ensures Truthy(BootstrappedState(StoredReply(IntendedFlagValue(bootstrapped))).value) == bootstrapped
    ensures Checks.Evaluate(Checks.VerifyBootstrappedCheck, facts.(bootstrapped := JBool(bootstrapped))).ok == bootstrapped
  {
  }

  /** A missing key or an unavailable daemon reads as "not bootstrapped". */
  lemma MissingFlagNotBootstrapped(message: string)
    ensures BootstrappedState(Err(ConfigItemNotFound(message))) == Ok(JBool(false))
    ensures BootstrappedState(Err(ClusterServiceUnavailable(message))) == Ok(JBool(false))
    ensures !Truthy(JBool(false))
  {
  }

  /** A client of the cluster daemon: the requests it has sent so far. */
  class ClusterService {
    const daemon: Daemon
    var sent: seq<Call>

    constructor(daemon: Daemon)
      ensures this.daemon == daemon && sent == []
    {
      this.daemon := daemon;
      sent := [];
    }

    /** `_request`: sends one request and interprets the answer. */
    method Request(call: Call) returns (r: Outcome<Json, ClusterError>)
      modifies this
      ensures sent == old(sent) + [call]
      ensures r == Answer(daemon, old(sent), call)
    {
      var resp := daemon(sent, call);
      sent := sent + [call];
      r := HandleResponse(resp);
    }

    /** A request whose caller ignores the reply. */
    method Send(call: Call) returns (r: Outcome<(), ClusterError>)
      modifies this
      ensures sent == old(sent) + [call]
      ensures r == Done(Answer(daemon, old(sent), call))
    {
      var a := Request(call);
      r := Done(a);
    }

    /** A request whose caller returns the reply's "metadata". */
    method Fetch(call: Call) returns (r: Outcome<Json, ClusterError>)
      modifies this
      ensures sent == old(sent) + [call]
      ensures r == Metadata(Answer(daemon, old(sent), call))
    {
      var a := Request(call);
      r := Metadata(a);
    }

    method BootstrapCluster(name: string, address: string) returns (r: Outcome<(), ClusterError>)
      modifies this
      ensures sent == old(sent) + [BootstrapClusterCall(name, address)]
      ensures r == Done(Answer(daemon, old(sent), BootstrapClusterCall(name, address)))
    {
      r := Send(BootstrapClusterCall(name, address));
    }

    method Join(name: string, address: string, token: string) returns (r: Outcome<(), ClusterError>)
      modifies this
      ensures sent == old(sent) + [JoinCall(name, address, token)]
      ensures r == Done(Answer(daemon, old(sent), JoinCall(name, address, token)))
    {
      r := Send(JoinCall(name, address, token));
    }

    /** `get_cluster_members`: one request, then a loop that keeps the
        name, address and status of each listed member, in order. */
    method GetClusterMembers() returns (r: Outcome<seq<map<string, Json>>, ClusterError>)
      modifies this
      ensures sent == old(sent) + [MembersCall()]
      ensures r == Members(Answer(daemon, old(sent), MembersCall()))
    {
      var cluster := Request(MembersCall());
      if cluster.Err? {
        return Err(cluster.error);
      }
      if !cluster.value.JObj? {
        return Err(MalformedReply);
      }
      var members := if "metadata" in cluster.value.fields then cluster.value.fields["metadata"] else JObj(map[]);
      if !(members.JArr? && AllObjects(members.items)) {
        if members == JObj(map[]) || members == JArr([]) || members == JStr("") {
          return Ok([]);
        }
        return Err(MalformedReply);
      }
      var result: seq<map<string, Json>> := [];
      var i := 0;
      while i < |members.items|
        invariant 0 <= i <= |members.items|
        invariant |result| == i
        invariant forall j :: 0 <= j < i ==> result[j] == KeepMemberKeys(members.items[j].fields)
      {
        result := result + [KeepMemberKeys(members.items[i].fields)];
        i := i + 1;
      }
      assert result == seq(|members.items|, i requires 0 <= i < |members.items| => KeepMemberKeys(members.items[i].fields));
      r := Ok(result);
    }

    method Remove(name: string) returns (r: Outcome<(), ClusterError>)
      modifies this
      ensures sent == old(sent) + [RemoveCall(name)]
      ensures r == Done(Answer(daemon, old(sent), RemoveCall(name)))
    {
      r := Send(RemoveCall(name));
    }

    method GenerateToken(name: string) returns (token: Outcome<Json, ClusterError>)
      modifies this
      ensures sent == old(sent) + [GenerateTokenCall(name)]
      ensures token == Metadata(Answer(daemon, old(sent), GenerateTokenCall(name)))
    {
      token := Fetch(GenerateTokenCall(name));
    }

    method DeleteToken(name: string) returns (r: Outcome<(), ClusterError>)
      modifies this
      ensures sent == old(sent) + [DeleteTokenCall(name)]
      ensures r == Done(Answer(daemon, old(sent), DeleteTokenCall(name)))
    {
      r := Send(DeleteTokenCall(name));
    }

    method AddNodeInfo(name: string, role: seq<string>) returns (r: Outcome<(), ClusterError>)
      modifies this
      ensures sent == old(sent) + [AddNodeInfoCall(name, role)]
      ensures r == Done(Answer(daemon, old(sent), AddNodeInfoCall(name, role)))
    {
      r := Send(AddNodeInfoCall(name, role));
    }

    method GetNodeInfo(name: string) returns (r: Outcome<Json, ClusterError>)
      modifies this
      ensures sent == old(sent) + [GetNodeInfoCall(name)]
      ensures r == Metadata(Answer(daemon, old(sent), GetNodeInfoCall(name)))
    {
      r := Fetch(GetNodeInfoCall(name));
    }

    method RemoveNodeInfo(name: string) returns (r: Outcome<(), ClusterError>)
      modifies this
      ensures sent == old(sent) + [RemoveNodeInfoCall(name)]
      ensures r == Done(Answer(daemon, old(sent), RemoveNodeInfoCall(name)))
    {
      r := Send(RemoveNodeInfoCall(name));
    }

    /** `update_node_info`, whose defaults are no role and machine id -1. */
    method UpdateNodeInfo(name: string, role: Option<seq<string>>, machineId: int) returns (r: Outcome<(), ClusterError>)
      modifies this
      ensures sent == old(sent) + [UpdateNodeInfoCall(name, role, machineId)]
      ensures r == Done(Answer(daemon, old(sent), UpdateNodeInfoCall(name, role, machineId)))
    {
      r := Send(UpdateNodeInfoCall(name, role, machineId));
    }

    method AddJujuUser(name: string, token: string) returns (r: Outcome<(), ClusterError>)
      modifies this
      ensures sent == old(sent) + [AddJujuUserCall(name, token)]
      ensures r == Done(Answer(daemon, old(sent), AddJujuUserCall(name, token)))
    {
      r := Send(AddJujuUserCall(name, token));
    }

    method RemoveJujuUser(name: string) returns (r: Outcome<(), ClusterError>)
      modifies this
      ensures sent == old(sent) + [RemoveJujuUserCall(name)]
      ensures r == Done(Answer(daemon, old(sent), RemoveJujuUserCall(name)))
    {
      r := Send(RemoveJujuUserCall(name));
    }

    method GetJujuUser(name: string) returns (r: Outcome<Json, ClusterError>)
      modifies this
      ensures sent == old(sent) + [GetJujuUserCall(name)]
      ensures r == JujuUserOutcome(Answer(daemon, old(sent), GetJujuUserCall(name)))
    {
      var user := Request(GetJujuUserCall(name));
      if user.Err? && user.error.HttpError? && user.error.status == 404 {
        return Err(JujuUserNotFound);
      }
      r := Metadata(user);
    }

    method GetConfig(key: string) returns (r: Outcome<Json, ClusterError>)
      modifies this
      ensures sent == old(sent) + [GetConfigCall(key)]
      ensures r == Metadata(Answer(daemon, old(sent), GetConfigCall(key)))
    {
      r := Fetch(GetConfigCall(key));
    }

    method UpdateConfig(key: string, value: string) returns (r: Outcome<(), ClusterError>)
      modifies this
      ensures sent == old(sent) + [UpdateConfigCall(key, value)]
      ensures r == Done(Answer(daemon, old(sent), UpdateConfigCall(key, value)))
    {
      r := Send(UpdateConfigCall(key, value));
    }

    method ListNodesByRole(role: RoleFilter) returns (r: Outcome<Json, ClusterError>)
      modifies this
      ensures sent == old(sent) + [NodesByRoleCall(role)]
      ensures r == Metadata(Answer(daemon, old(sent), NodesByRoleCall(role)))
    {
      r := Fetch(NodesByRoleCall(role));
    }

    /** `bootstrap`: bootstrap the daemon's cluster, then record the node;
        a failure of the first leaves the node unrecorded. */
    method Bootstrap(name: string, address: string, role: seq<string>) returns (r: Outcome<(), ClusterError>)
      modifies this
      ensures sent == Sequence(Through(daemon), old(sent), [BootstrapClusterCall(name, address), AddNodeInfoCall(name, role)]).sent
      ensures r == Done(Sequence(Through(daemon), old(sent), [BootstrapClusterCall(name, address), AddNodeInfoCall(name, role)]).result)
    {
      ghost var calls := [BootstrapClusterCall(name, address), AddNodeInfoCall(name, role)];
      assert calls[1..] == [AddNodeInfoCall(name, role)];
      r := BootstrapCluster(name, address);
      if r.Err? {
        return;
      }
      r := AddNodeInfo(name, role);
    }

    /** `add_node`: the join token the daemon generates for the node. */
    method AddNode(name: string) returns (token: Outcome<Json, ClusterError>)
      modifies this
      ensures sent == old(sent) + [GenerateTokenCall(name)]
      ensures token == Metadata(Answer(daemon, old(sent), GenerateTokenCall(name)))
    {
      token := GenerateToken(name);
    }

    /** `join_node`: join with the token, then record the node. */
    method JoinNode(name: string, address: string, token: string, role: seq<string>) returns (r: Outcome<(), ClusterError>)
      modifies this
      ensures sent == Sequence(Through(daemon), old(sent), [JoinCall(name, address, token), AddNodeInfoCall(name, role)]).sent
      ensures r == Done(Sequence(Through(daemon), old(sent), [JoinCall(name, address, token), AddNodeInfoCall(name, role)]).result)
    {
      ghost var calls := [JoinCall(name, address, token), AddNodeInfoCall(name, role)];
      assert calls[1..] == [AddNodeInfoCall(name, role)];
      r := Join(name, address, token);
      if r.Err? {
        return;
      }
      r := AddNodeInfo(name, role);
    }

    /** `remove_node`: list the members, then remove a member's juju user,
        node record and membership in that order, or a non-member's token. */
    method RemoveNode(name: string) returns (r: Outcome<(), ClusterError>)
      modifies this
      ensures var listed := Members(Answer(daemon, old(sent), MembersCall()));
              var history := old(sent) + [MembersCall()];
              if listed.Err? then sent == history && r == Err(listed.error)
              else sent == Sequence(Through(daemon), history, RemovalCalls(listed.value, name)).sent &&
                   r == Done(Sequence(Through(daemon), history, RemovalCalls(listed.value, name)).result)
    {
      var members := GetClusterMembers();
      if members.Err? {
        return Err(members.error);
      }
      var names := MemberNames(members.value);
      ghost var history := sent;
      ghost var calls := RemovalCalls(members.value, name);
      if JStr(name) in names {
        RemoveMemberOrder(Through(daemon), history, members.value, name);
        r := RemoveJujuUser(name);
        if r.Err? {
          return;
        }
        r := RemoveNodeInfo(name);
        if r.Err? {
          return;
        }
        assert sent == history + [RemoveJujuUserCall(name), RemoveNodeInfoCall(name)];
        r := Remove(name);
      } else {
        SequenceOne(Through(daemon), history, DeleteTokenCall(name));
        r := DeleteToken(name);
      }
    }

    method SetSunbeamBootstrapped() returns (r: Outcome<(), ClusterError>)
      modifies this
      ensures sent == old(sent) + [UpdateConfigCall(SUNBEAM_BOOTSTRAP_KEY, SET_VALUE)]
      ensures r == Done(Answer(daemon, old(sent), UpdateConfigCall(SUNBEAM_BOOTSTRAP_KEY, SET_VALUE)))
    {
      r := UpdateConfig(SUNBEAM_BOOTSTRAP_KEY, SET_VALUE);
    }

    method UnsetSunbeamBootstrapped() returns (r: Outcome<(), ClusterError>)
      modifies this
      ensures sent == old(sent) + [UpdateConfigCall(SUNBEAM_BOOTSTRAP_KEY, UNSET_VALUE)]
      ensures r == Done(Answer(daemon, old(sent), UpdateConfigCall(SUNBEAM_BOOTSTRAP_KEY, UNSET_VALUE)))
    {
      r := UpdateConfig(SUNBEAM_BOOTSTRAP_KEY, UNSET_VALUE);
    }

    method CheckSunbeamBootstrapped() returns (r: Outcome<Json, ClusterError>)
      modifies this
      ensures sent == old(sent) + [GetConfigCall(SUNBEAM_BOOTSTRAP_KEY)]
      ensures r == BootstrappedState(Answer(daemon, old(sent), GetConfigCall(SUNBEAM_BOOTSTRAP_KEY)))
    {
      var state := Request(GetConfigCall(SUNBEAM_BOOTSTRAP_KEY));
      r := BootstrappedState(state);
    }
  }
}

=== FILE: common.dfy ===
/** The vocabulary shared by every command (sunbeam/jobs/common.py): node
    roles, step result types and results, the per-step results a plan
    returns, and the memory thresholds. */
module Common {
  import opened Wrappers
  import opened Strs
  import opened JsonValue

  const RAM_16_GB_IN_KB: int := 16 * 1024 * 1024
  const RAM_32_GB_IN_KB: int := 32 * 1024 * 1024

  /** The roles a node can hold. */
  datatype Role = CONTROL | COMPUTE | STORAGE
  {
    predicate IsControlNode() { this == CONTROL }
    predicate IsComputeNode() { this == COMPUTE }
    predicate IsStorageNode() { this == STORAGE }

    /** The enum member's name. */
    function Name(): string {
      match this
      case CONTROL => "CONTROL"
      case COMPUTE => "COMPUTE"
      case STORAGE => "STORAGE"
    }
  }

  /** Every role is exactly one kind of node: control, compute or storage. */
  lemma RoleHasOneKind(role: Role)
    ensures role.IsControlNode() || role.IsComputeNode() || role.IsStorageNode()
    ensures !(role.IsControlNode() && role.IsComputeNode())
    ensures !(role.IsControlNode() && role.IsStorageNode())
    ensures !(role.IsComputeNode() && role.IsStorageNode())
  {
  }

  /** `Role[name]`: the member with that exact name, if any. */
  function RoleByName(name: string): (r: Option<Role>)
    ensures r.Some? ==> r.value.Name() == name
    ensures (forall role: Role :: role.Name() != name) ==> r.None?
  {
    if name == "CONTROL" then Some(CONTROL)
    else if name == "COMPUTE" then Some(COMPUTE)
    else if name == "STORAGE" then Some(STORAGE)
    else None
  }

  /** `roles_to_str_list`: the lower-cased role names, in order. */
  function RolesToStrList(roles: seq<Role>): (r: seq<string>)
    ensures |r| == |roles|
  {
    seq(|roles|, i requires 0 <= i < |roles| => Lower(roles[i].Name()))
  }

  /** `validate_roles`: each value upper-cased and looked up; the first one
      that names no role is reported (as `str(KeyError)`, the `repr` of the
      upper-cased value). */
  function ValidateRoles(values: seq<string>): (r: Outcome<seq<Role>, string>)
    ensures r.Ok? ==> |r.value| == |values|
                      && forall i :: 0 <= i < |values| ==> RoleByName(Upper(values[i])) == Some(r.value[i])
    ensures r.Err? ==> exists i :: 0 <= i < |values| && RoleByName(Upper(values[i])).None?
                                    && r.error == Repr(Upper(values[i]))
                                    && forall j :: 0 <= j < i ==> RoleByName(Upper(values[j])).Some?
    decreases |values|
  {
    if |values| == 0 then Ok([])
    else
      var head := RoleByName(Upper(values[0]));
      if head.None? then Err(Repr(Upper(values[0])))
      else
        var rest := ValidateRoles(values[1..]);
        if rest.Err? then
          assert forall i :: 1 <= i < |values| ==> values[1..][i - 1] == values[i];
          Err(rest.error)
        else
          assert forall i :: 1 <= i < |values| ==> values[1..][i - 1] == values[i];
          Ok([head.value] + rest.value)
  }

  lemma UpperLowerName(role: Role)
    ensures Upper(Lower(role.Name())) == role.Name()
  {
    match role
    case CONTROL =>
      assert Lower("CONTROL") == "control";
      assert Upper("control") == "CONTROL";
    case COMPUTE =>
      assert Lower("COMPUTE") == "compute";
      assert Upper("compute") == "COMPUTE";
    case STORAGE =>
      assert Lower("STORAGE") == "storage";
      assert Upper("storage") == "STORAGE";
  }

  /** The names `roles_to_str_list` produces validate back to the same roles. */
  lemma {:induction false} ValidateRolesToStrList(roles: seq<Role>)
    ensures ValidateRoles(RolesToStrList(roles)) == Ok(roles)
    decreases |roles|
  {
    if |roles| > 0 {
      var names := RolesToStrList(roles);
      UpperLowerName(roles[0]);
      assert Upper(names[0]) == roles[0].Name();
      assert RoleByName(Upper(names[0])) == Some(roles[0]);
      assert names[1..] == RolesToStrList(roles[1..]);
      ValidateRolesToStrList(roles[1..]);
      assert [roles[0]] + roles[1..] == roles;
    }
  }

  /** Role names are matched without regard to ASCII case. */
  lemma ValidateRolesIgnoresCase(values: seq<string>, others: seq<string>)
    requires |values| == |others|
    requires forall i :: 0 <= i < |values| ==> Upper(values[i]) == Upper(others[i])
    ensures ValidateRoles(values).Ok? <==> ValidateRoles(others).Ok?
    ensures ValidateRoles(values).Ok? ==> ValidateRoles(values) == ValidateRoles(others)
  {
    var a, b := ValidateRoles(values), ValidateRoles(others);
    if a.Ok? && b.Ok? {
      assert forall i :: 0 <= i < |values| ==> a.value[i] == b.value[i];
    }
  }

  /** Outcome of a step, or of its skip check. */
  datatype ResultType = COMPLETED | FAILED | SKIPPED

  /** `Result(result_type, message="")`; a message of `None` is allowed. */
  datatype Result = Result(resultType: ResultType, message: Option<string>)

  function NewResult(resultType: ResultType): Result {
    Result(resultType, Some(""))
  }

  /** The result of a step whose `run` does two things that can raise, the
      second only after the first succeeded (a Terraform apply or a Juju
      call, then a wait for the applications): the first error fails the
      step with its text; otherwise it completes. */
  function TwoStages(first: Option<string>, second: Option<string>): (r: Result)
    ensures r.resultType == COMPLETED <==> first.None? && second.None?
    ensures r.resultType != SKIPPED
    ensures first.Some? ==> r.message == first
    ensures first.None? && second.Some? ==> r.message == second
  {
    if first.Some? then Result(FAILED, first)
    else if second.Some? then Result(FAILED, second)
    else NewResult(COMPLETED)
  }

  /** `get_step_message`: the message of the result recorded under a step
      class's name; `None` when the plan recorded nothing for it. A recorded
      `Result` is always truthy, so a recorded entry is never ignored. */
  function GetStepMessage(results: map<string, Result>, className: string): (m: Option<string>)
    ensures className !in results ==> m.None?
    ensures className in results ==> m == results[className].message
  {
    if className in results then results[className].message else None
  }

  /** `StepResult(result_type, **kwargs)`: an object carrying a result type
      and extra attributes. */
  datatype StepResult = StepResult(resultType: ResultType, attributes: map<string, Json>)

  predicate DistinctKeys(kwargs: seq<(string, Json)>) {
    forall i, j :: 0 <= i < j < |kwargs| ==> kwargs[i].0 != kwargs[j].0
  }

  /** `StepResult.__init__`: sets each keyword as an attribute, refusing a
      keyword that names an attribute the object already has, namely
      `result_type` or one it `inherits` from its class. A call never
      passes `result_type` among the keywords (Python binds it to the
      parameter), so that case of the check is unreachable from a call. */
  method NewStepResult(resultType: ResultType, kwargs: seq<(string, Json)>, inherits: set<string>)
    returns (r: Outcome<StepResult, string>)
    requires DistinctKeys(kwargs)
    ensures r.Err? <==> exists i :: 0 <= i < |kwargs| && (kwargs[i].0 == "result_type" || kwargs[i].0 in inherits)
    ensures r.Err? ==> exists i :: 0 <= i < |kwargs| && (kwargs[i].0 == "result_type" || kwargs[i].0 in inherits)
                                   && r.error == kwargs[i].0 + " was specified but already exists on this StepResult."
    ensures r.Ok? ==> r.value.resultType == resultType
                      && r.value.attributes.Keys == (set i | 0 <= i < |kwargs| :: kwargs[i].0)
                      && forall i :: 0 <= i < |kwargs| ==> r.value.attributes[kwargs[i].0] == kwargs[i].1
  {
    var attributes: map<string, Json> := map[];
    var i := 0;
    while i < |kwargs|
      invariant 0 <= i <= |kwargs|
      invariant forall j :: 0 <= j < i ==> kwargs[j].0 != "result_type" && kwargs[j].0 !in inherits
      invariant attributes.Keys == (set j | 0 <= j < i :: kwargs[j].0)
      invariant forall j :: 0 <= j < i ==> attributes[kwargs[j].0] == kwargs[j].1
    {
      var (key, value) := kwargs[i];
      if key == "result_type" || key in inherits || key in attributes {
        return Err(key + " was specified but already exists on this StepResult.");
      }
      attributes := attributes[key := value];
      i := i + 1;
    }
    return Ok(StepResult(resultType, attributes));
  }
}

=== FILE: configure.dfy ===
/** `sunbeam configure` (sunbeam/commands/configure.py): the choice of the
    external NIC, the answers the cloud-configuration questions leave in
    the stored `CloudConfig` section, the skip rules of the demo and
    openrc steps, the openstack-hypervisor charm configuration derived
    from the answers, and the local hypervisor settings of a node.

    The stored answers are sections of decoded values; the user's answer
    to a question is an oracle `ask(bank, key, newDefault)` (the question
    banks, preseed files and console prompts are not part of this model);
    what `ipaddress` computes from a network text (its prefix length, its
    host addresses) is a parameter. sunbeam/utils.py is not part of this
    model: its two access locations are taken to be the texts "local" and
    "remote". */
module Configure {
  import opened Wrappers
  import opened Strs
  import opened JsonValue
  import opened Common
  import Juju

  const CLOUD_CONFIG_SECTION := "CloudConfig"
  const LOCAL_ACCESS := "local"
  const REMOTE_ACCESS := "remote"
  const IPVANYNETWORK_UNSET := "0.0.0.0/0"
  /** `VARIABLE_DEFAULTS["external_network"]["physical_network"]`. */
  const PHYSICAL_NETWORK := "physnet1"
  const HYPERVISOR_APPLICATION := "openstack-hypervisor"
  const LOCAL_SETTINGS_FAILED := "Unable to set local hypervisor configuration"
  const OPENRC_FAILED := "Unable to retrieve openrc from Keystone service"
  const NO_KEYSTONE_LEADER := "Unable to get keystone leader"

  /** The keys of the `user` and `external_network` sections of the
      answers (and the names of the questions asked for them), each
      standing for its snake-case text (`RemoteAccessLocation` for
      "remote_access_location"); `Nameservers` is the question whose split
      answer is stored under `DnsNameservers`; any other stored key is an
      `Other`. */
  datatype Key =
    | RemoteAccessLocation | RunDemoSetup | Username | Password | Cidr | Nameservers | DnsNameservers
    | SecurityGroupRules | Gateway | PhysicalNetwork | Start | End | NetworkType | SegmentationId | Nic
    | Other(name: string)

  /** A stored section of answers, and the stored answers by section. */
  type Section = map<Key, Json>
  type Answers = map<string, Section>

  /** `section.get(key)`: `None` when the key is missing. */
  function Get(section: Section, key: Key): (v: Json)
    ensures key in section ==> v == section[key]
    ensures key !in section ==> v == JNull
  {
    if key in section then section[key] else JNull
  }

  /** `variables.get(name, {})`. */
  function SectionOf(variables: Answers, name: string): (s: Section)
    ensures name in variables ==> s == variables[name]
    ensures name !in variables ==> s == map[]
  {
    if name in variables then variables[name] else map[]
  }

  /** `str(v)` (or `f"{v}"`) for the scalar values the answers hold; a
      list or a dict is rendered only by its kind. */
  function Text(v: Json): string {
    match v
    case JNull => "None"
    case JBool(b) => if b then "True" else "False"
    case JInt(i) => IntToString(i)
    case JStr(s) => s
    case JArr(_) => "[...]"
    case JObj(_) => "{...}"
  }

  // ---------------------------------------------------------------------
  // NIC choice

  /** `NicPrompt.check_choice`: the answer, stripped and lower-cased, must
      be one of the host's NICs (`nics`, configured ones included). */
  function CheckChoice(value: string, nics: seq<string>): (r: Outcome<bool, string>)
    ensures r.Ok? <==> Lower(Strip(value)) in nics
    ensures r.Ok? ==> r.value
    ensures r.Err? ==> r.error == "\n'" + Lower(Strip(value)) + "' not found"
  {
    var v := Lower(Strip(value));
    if v !in nics then Err("\n'" + v + "' not found") else Ok(true)
  }

  // ---------------------------------------------------------------------
  // Return codes and results of Juju actions

  /** `action_result.get(key)`. */
  function GetResult(actionResult: map<string, Json>, key: string): (v: Json)
    ensures key in actionResult ==> v == actionResult[key]
    ensures key !in actionResult ==> v == JNull
  {
    if key in actionResult then actionResult[key] else JNull
  }

  /** `action_result.get("return-code", 0) > 1`: `Err` where Python cannot
      compare the stored value with an integer. */
  function ReturnCodeFails(actionResult: map<string, Json>): (r: Outcome<bool, string>)
    ensures "return-code" !in actionResult ==> r == Ok(false)
    ensures "return-code" in actionResult && actionResult["return-code"].JInt? ==> r == Ok(actionResult["return-code"].i > 1)
    ensures r.Err? <==> "return-code" in actionResult && !actionResult["return-code"].JInt? && !actionResult["return-code"].JBool?
  {
    if "return-code" !in actionResult then Ok(false)
    else
      match actionResult["return-code"]
      case JInt(i) => Ok(i > 1)
      case JBool(b) => Ok(false)
      case _ => Err("TypeError: '>' not supported between instances")
  }

  /** The environment `retrieve_admin_credentials` hands to Terraform. */
  const ADMIN_KEYS: set<string> := {"OS_USERNAME", "OS_PASSWORD", "OS_AUTH_URL", "OS_USER_DOMAIN_NAME",
                                    "OS_PROJECT_DOMAIN_NAME", "OS_PROJECT_NAME", "OS_AUTH_VERSION", "OS_IDENTITY_API_VERSION"}

  /** `retrieve_admin_credentials`: `leader` is what `get_leader_unit`
      gave for keystone (`Juju.GetLeaderUnit`: the leader's name, or the
      exception it raised, which propagates, as `LeaderNotFound` when no
      unit leads); an empty name is refused with the "unable to get
      leader" message. `actionResult` is what the leader's
      get-admin-account action returned. */
  function AdminCredentials(leader: Outcome<string, Juju.JujuError>, actionResult: map<string, Json>): (r: Outcome<map<string, Json>, string>)
    ensures leader.Err? ==> r == Err(Juju.ErrorText(leader.error))
    ensures leader == Ok("") ==> r == Err(NO_KEYSTONE_LEADER)
    ensures leader.Ok? && leader.value != "" && ReturnCodeFails(actionResult) == Ok(true) ==> r == Err(OPENRC_FAILED)
    ensures r.Ok? <==> leader.Ok? && leader.value != "" && ReturnCodeFails(actionResult) == Ok(false)
    ensures r.Ok? ==> r.value.Keys == ADMIN_KEYS
    ensures r.Ok? ==> r.value["OS_AUTH_URL"] == GetResult(actionResult, "public-endpoint")
    ensures r.Ok? ==> r.value["OS_AUTH_VERSION"] == r.value["OS_IDENTITY_API_VERSION"] == GetResult(actionResult, "api-version")
  {
    if leader.Err? then Err(Juju.ErrorText(leader.error))
    else if leader.value == "" then Err(NO_KEYSTONE_LEADER)
    else
      var fails := ReturnCodeFails(actionResult);
      if fails.Err? then Err(fails.error)
      else if fails.value then Err(OPENRC_FAILED)
      else
        var version := GetResult(actionResult, "api-version");
        Ok(map[
          "OS_USERNAME" := GetResult(actionResult, "username"),
          "OS_PASSWORD" := GetResult(actionResult, "password"),
          "OS_AUTH_URL" := GetResult(actionResult, "public-endpoint"),
          "OS_USER_DOMAIN_NAME" := GetResult(actionResult, "user-domain-name"),
          "OS_PROJECT_DOMAIN_NAME" := GetResult(actionResult, "project-domain-name"),
          "OS_PROJECT_NAME" := GetResult(actionResult, "project-name"),
          "OS_AUTH_VERSION" := version,
          "OS_IDENTITY_API_VERSION" := version])
  }

  // ---------------------------------------------------------------------
  // Skip rules of the demo and openrc steps

  /** `DemoSetup.is_skip` and `TerraformDemoInitStep.is_skip`: run exactly
      when the user asked for the demo setup; a missing answer raises
      (`Err`). */
  function DemoIsSkip(variables: Answers): (r: Outcome<Result, string>)
    ensures r.Err? <==> "user" !in variables || RunDemoSetup !in variables["user"]
    ensures r.Ok? ==> r.value.resultType != FAILED
    ensures r.Ok? ==> (r.value.resultType == COMPLETED <==> Truthy(variables["user"][RunDemoSetup]))
  {
    if "user" !in variables then Err("KeyError: 'user'")
    else if RunDemoSetup !in variables["user"] then Err("KeyError: 'run_demo_setup'")
    else if Truthy(variables["user"][RunDemoSetup]) then Ok(NewResult(COMPLETED))
    else Ok(NewResult(SKIPPED))
  }

  /** `UserOpenRCStep.is_skip`: skipped while no user answers are stored,
      otherwise the demo rule. */
  function OpenrcIsSkip(variables: Answers): (r: Outcome<Result, string>)
    ensures "user" !in variables ==> r == Ok(NewResult(SKIPPED))
    ensures r.Err? <==> "user" in variables && RunDemoSetup !in variables["user"]
    ensures r.Ok? ==> (r.value.resultType == COMPLETED <==> "user" in variables && Truthy(variables["user"][RunDemoSetup]))
  {
    if "user" !in variables then Ok(NewResult(SKIPPED))
    else if RunDemoSetup !in variables["user"] then Err("KeyError: 'run_demo_setup'")
    else if Truthy(variables["user"][RunDemoSetup]) then Ok(NewResult(COMPLETED))
    else Ok(NewResult(SKIPPED))
  }

  /** The openrc step differs from the demo steps only before the user
      answered: it skips where they raise. */
  lemma OpenrcFollowsDemo(variables: Answers)
    ensures "user" in variables ==> OpenrcIsSkip(variables) == DemoIsSkip(variables)
    ensures "user" !in variables ==> OpenrcIsSkip(variables).Ok? && DemoIsSkip(variables).Err?
  {
  }

  // ---------------------------------------------------------------------
  // Charm configuration of openstack-hypervisor

  /** The openstack-hypervisor configuration `SetHypervisorCharmConfigStep.run`
      derives from the answers (`prefixLength` is `ip_network(cidr).prefixlen`,
      `None` where the value is not a network): the gateway is enabled
      exactly for remote access; the bridge is always br-ex; its address is
      the external gateway with the network's prefix length for local
      access and the any-network address otherwise; the physical network
      is copied. A missing section or answer raises (`Err`). */
  function CharmConfig(variables: Answers, prefixLength: Json -> Option<nat>): (r: Outcome<map<string, Json>, string>)
    ensures r.Ok? <==>
              && "user" in variables && RemoteAccessLocation in variables["user"]
              && "external_network" in variables
              && (variables["user"][RemoteAccessLocation] == JStr(LOCAL_ACCESS) ==>
                    prefixLength(Get(variables["external_network"], Cidr)).Some?)
    ensures r.Ok? ==>
              var remote := variables["user"][RemoteAccessLocation];
              var ext := variables["external_network"];
              && r.value.Keys == {"enable-gateway", "external-bridge", "external-bridge-address", "physnet-name"}
              && (r.value["enable-gateway"] == JStr("True") <==> remote == JStr(REMOTE_ACCESS))
              && (r.value["enable-gateway"] == JStr("False") <==> remote != JStr(REMOTE_ACCESS))
              && r.value["external-bridge"] == JStr("br-ex")
              && (remote == JStr(LOCAL_ACCESS) ==>
                    r.value["external-bridge-address"]
                    == JStr(Text(Get(ext, Gateway)) + "/" + NatToString(prefixLength(Get(ext, Cidr)).value)))
              && (remote != JStr(LOCAL_ACCESS) ==> r.value["external-bridge-address"] == JStr(IPVANYNETWORK_UNSET))
              && r.value["physnet-name"] == Get(ext, PhysicalNetwork)
  {
    if "user" !in variables || RemoteAccessLocation !in variables["user"] then Err("KeyError")
    else if "external_network" !in variables then Err("KeyError: 'external_network'")
    else
      var remote := variables["user"][RemoteAccessLocation];
      var ext := variables["external_network"];
      var address :=
        if remote == JStr(LOCAL_ACCESS) then
          var prefix := prefixLength(Get(ext, Cidr));
          if prefix.None? then None
          else Some(Text(Get(ext, Gateway)) + "/" + NatToString(prefix.value))
        else Some(IPVANYNETWORK_UNSET);
      if address.None? then Err("ValueError: not a network")
      else Ok(map[
        "enable-gateway" := JStr(if remote == JStr(REMOTE_ACCESS) then "True" else "False"),
        "external-bridge" := JStr("br-ex"),
        "external-bridge-address" := JStr(address.value),
        "physnet-name" := Get(ext, PhysicalNetwork)])
  }

  /** Four updates of a map in turn are a merge with the map of the four. */
  lemma UpdatesMerge<K, V>(m: map<K, V>, k1: K, v1: V, k2: K, v2: V, k3: K, v3: V, k4: K, v4: V)
    ensures m[k1 := v1][k2 := v2][k3 := v3][k4 := v4] == m + map[k1 := v1, k2 := v2, k3 := v3, k4 := v4]
  {
  }

  /** `SetHypervisorCharmConfigStep`: the configuration it has built. */
  class SetHypervisorCharmConfigStep {
    var charmConfig: map<string, Json>

    constructor ()
      ensures charmConfig == map[]
    {
      charmConfig := map[];
    }

    /** `run`: fills the configuration key by key and applies it to
        openstack-hypervisor in the controller model; `applyError` is the
        error the application update raised, if any. A missing answer
        raises out of the step (`Err`): once the access location is known
        the gateway and bridge entries are set first, and for an access
        other than local so is the unset bridge address. */
    method Run(variables: Answers, prefixLength: Json -> Option<nat>, applyError: Option<string>)
      returns (r: Outcome<Result, string>, model: string)
      modifies this
      ensures CharmConfig(variables, prefixLength).Ok? ==>
                && charmConfig == old(charmConfig) + CharmConfig(variables, prefixLength).value
                && model == Juju.MODEL
                && r == Ok(if applyError.Some? then Result(FAILED, applyError) else NewResult(COMPLETED))
      ensures CharmConfig(variables, prefixLength).Err? ==> r.Err?
      ensures r.Err? && !("user" in variables && RemoteAccessLocation in variables["user"]) ==> charmConfig == old(charmConfig)
      ensures r.Err? && "user" in variables && RemoteAccessLocation in variables["user"] ==>
                var remote := variables["user"][RemoteAccessLocation];
                var partial := old(charmConfig)["enable-gateway" := JStr(if remote == JStr(REMOTE_ACCESS) then "True" else "False")]
                                               ["external-bridge" := JStr("br-ex")];
                charmConfig == if remote == JStr(LOCAL_ACCESS) then partial
                               else partial["external-bridge-address" := JStr(IPVANYNETWORK_UNSET)]
    {
      model := "";
      if "user" !in variables || RemoteAccessLocation !in variables["user"] {
        return Err("KeyError"), model;
      }
      var ext := SectionOf(variables, "external_network");
      var remote := variables["user"][RemoteAccessLocation];
      var gateway := JStr(if remote == JStr(REMOTE_ACCESS) then "True" else "False");
      charmConfig := charmConfig["enable-gateway" := gateway]["external-bridge" := JStr("br-ex")];
      var address;
      if remote == JStr(LOCAL_ACCESS) {
        if "external_network" !in variables {
          return Err("KeyError: 'external_network'"), model;
        }
        var prefix := prefixLength(Get(variables["external_network"], Cidr));
        if prefix.None? {
          return Err("ValueError: not a network"), model;
        }
        address := Text(Get(ext, Gateway)) + "/" + NatToString(prefix.value);
      } else {
        address := IPVANYNETWORK_UNSET;
      }
      charmConfig := charmConfig["external-bridge-address" := JStr(address)];
      if "external_network" !in variables {
        return Err("KeyError: 'external_network'"), model;
      }
      charmConfig := charmConfig["physnet-name" := Get(variables["external_network"], PhysicalNetwork)];
      UpdatesMerge(old(charmConfig), "enable-gateway", gateway, "external-bridge", JStr("br-ex"),
                   "external-bridge-address", JStr(address), "physnet-name", Get(variables["external_network"], PhysicalNetwork));
      // The last part of `CONTROLLER_MODEL` (Juju.ModelIsControllerModelPart).
      model := Juju.MODEL;
      if applyError.Some? {
        return Ok(Result(FAILED, applyError)), model;
      }
      return Ok(NewResult(COMPLETED)), model;
    }
  }

  // ---------------------------------------------------------------------
  // Cloud configuration questions

  /** Python's `hosts[i]` on a list, negative indices counting from the end. */
  function HostAt(hosts: seq<string>, i: int): (h: Option<string>)
    ensures h.Some? <==> -|hosts| <= i < |hosts|
    ensures 0 <= i < |hosts| ==> h == Some(hosts[i])
    ensures -|hosts| <= i < 0 ==> h == Some(hosts[|hosts| + i])
  {
    if 0 <= i < |hosts| then Some(hosts[i])
    else if -|hosts| <= i < 0 then Some(hosts[|hosts| + i])
    else None
  }

  /** `section.get(key) or str(hosts[i])`: the stored answer when it is
      set, otherwise the `i`-th host of the network (an `IndexError`, `Err`,
      when the network has too few hosts). */
  function DefaultAnswer(section: Section, key: Key, hosts: seq<string>, i: int): (r: Outcome<Json, string>)
    ensures Truthy(Get(section, key)) ==> r == Ok(section[key])
    ensures !Truthy(Get(section, key)) ==> (r.Ok? <==> HostAt(hosts, i).Some?)
    ensures !Truthy(Get(section, key)) && r.Ok? ==> r.value == JStr(HostAt(hosts, i).value)
  {
    if Truthy(Get(section, key)) then Ok(section[key])
    else if HostAt(hosts, i).None? then Err("IndexError: list index out of range")
    else Ok(JStr(HostAt(hosts, i).value))
  }

  /** The user's answer to question `key` of question bank `bank`, offered
      with `newDefault` (`JNull` when the code passes none). */
  type Ask = (string, Key, Json) -> Json

  /** The question bank of the external network: the local-only bank has
      no gateway question. */
  function ExtNetBank(local: bool): string {
    if local then "ext_net_local" else "ext_net"
  }

  /** The nameservers answer split at whitespace, as a list of strings. */
  function NameserverList(words: seq<string>): (j: Json)
    ensures j.JArr? && |j.items| == |words|
    ensures forall k :: 0 <= k < |words| ==> j.items[k] == JStr(words[k])
  {
    JArr(seq(|words|, k requires 0 <= k < |words| => JStr(words[k])))
  }

  /** Every answer of `before` outside `changed` is still in `after`. */
  predicate Kept(before: Section, after: Section, changed: set<Key>) {
    forall k :: k in before && k !in changed ==> k in after && after[k] == before[k]
  }

  /** The answers each part of `UserQuestions.prompt` sets. */
  const EXT_NETWORK_KEYS: set<Key> := {Cidr, Gateway, PhysicalNetwork}
  const USER_DEMO_KEYS: set<Key> := {Username, Password, Cidr, DnsNameservers, SecurityGroupRules}
  const EXT_DEMO_KEYS: set<Key> := {Start, End, NetworkType, SegmentationId}

  /** The external network's answers `prompt` always sets: the CIDR
      answered from `bank`, the gateway (for local access the stored one or
      the network's first host, otherwise asked with that default), and
      physnet1. */
  predicate NetworkRules(ext0: Section, ext: Section, hosts: seq<string>, local: bool, bank: string, ask: Ask) {
    var gateway := DefaultAnswer(ext0, Gateway, hosts, 0);
    && gateway.Ok?
    && EXT_NETWORK_KEYS <= ext.Keys
    && ext[Cidr] == ask(bank, Cidr, JNull)
    && ext[Gateway] == (if local then gateway.value else ask(bank, Gateway, gateway.value))
    && ext[PhysicalNetwork] == JStr(PHYSICAL_NETWORK)
  }

  /** The demo user's answers: each asked from the user bank, with the
      nameservers answer (text) split into words by `split`. */
  predicate DemoUserRules(user: Section, ask: Ask, split: string -> seq<string>) {
    var nameservers := ask("user", Nameservers, JNull);
    && nameservers.JStr?
    && USER_DEMO_KEYS <= user.Keys
    && user[Username] == ask("user", Username, JNull)
    && user[Password] == ask("user", Password, JNull)
    && user[Cidr] == ask("user", Cidr, JNull)
    && user[DnsNameservers] == NameserverList(split(nameservers.s))
    && user[SecurityGroupRules] == ask("user", SecurityGroupRules, JNull)
  }

  /** The allocation answers: the range asked with the stored start and
      end of `ext0` as defaults, or else the network's second and last
      hosts; the network type; and the segmentation id, asked only for a
      "vlan" network and 0 otherwise. */
  predicate AllocationRules(ext0: Section, ext: Section, hosts: seq<string>, bank: string, ask: Ask) {
    var start := DefaultAnswer(ext0, Start, hosts, 1);
    var end := DefaultAnswer(ext0, End, hosts, -1);
    var networkType := ask(bank, NetworkType, JNull);
    && start.Ok? && end.Ok?
    && EXT_DEMO_KEYS <= ext.Keys
    && ext[Start] == ask(bank, Start, start.value)
    && ext[End] == ask(bank, End, end.value)
    && ext[NetworkType] == networkType
    && ext[SegmentationId] == (if networkType == JStr("vlan") then ask(bank, SegmentationId, JNull) else JInt(0))
  }

  /** A stored answer outside the changed keys gives the same default
      before and after the change. */
  lemma DefaultAnswerKept(before: Section, after: Section, changed: set<Key>, key: Key, hosts: seq<string>, i: int)
    requires key !in changed && Kept(before, after, changed) && after.Keys == before.Keys + changed
    ensures DefaultAnswer(before, key, hosts, i) == DefaultAnswer(after, key, hosts, i)
  {
    assert Get(before, key) == Get(after, key);
  }

  /** When the questions of `UserQuestions.prompt` raise nothing, from the
      stored `ext0`: the CIDR answer is a network and the gateway default
      has a host, and for a truthy demo answer the nameservers answer is
      text and both range defaults have a host. */
  predicate PromptSucceeds(ext0: Section, hostsOf: Json -> Option<seq<string>>, ask: Ask) {
    var local := ask("user", RemoteAccessLocation, JNull) == JStr(LOCAL_ACCESS);
    var network := hostsOf(ask(ExtNetBank(local), Cidr, JNull));
    && network.Some?
    && DefaultAnswer(ext0, Gateway, network.value, 0).Ok?
    && (Truthy(ask("user", RunDemoSetup, JNull)) ==>
          && ask("user", Nameservers, JNull).JStr?
          && DefaultAnswer(ext0, Start, network.value, 1).Ok?
          && DefaultAnswer(ext0, End, network.value, -1).Ok?)
  }

  /** What `UserQuestions.prompt` promises of the `user` and
      `external_network` sections it leaves, from the stored `user0` and
      `ext0`, when nothing raised. */
  predicate PromptRules(user0: Section, ext0: Section, user: Section, ext: Section,
                        hostsOf: Json -> Option<seq<string>>, ask: Ask) {
    var location := ask("user", RemoteAccessLocation, JNull);
    var local := location == JStr(LOCAL_ACCESS);
    var bank := ExtNetBank(local);
    var cidr := ask(bank, Cidr, JNull);
    var demo := ask("user", RunDemoSetup, JNull);
    && hostsOf(cidr).Some?
    && NetworkRules(ext0, ext, hostsOf(cidr).value, local, bank, ask)
    && RemoteAccessLocation in user && user[RemoteAccessLocation] == location
    && RunDemoSetup in user && user[RunDemoSetup] == demo
    && (Truthy(demo) ==> DemoUserRules(user, ask, Words) && AllocationRules(ext0, ext, hostsOf(cidr).value, bank, ask))
  }

  /** The first half of `UserQuestions.prompt`: the access location and the
      external network, from the stored `user0` and `ext0` sections.
      `hostsOf` gives the host addresses of a network value, `None` where
      `ipaddress` refuses it. The local-only bank has no gateway question:
      the gateway is the stored one or the network's first host; the
      remote bank asks for it, offering that default. The physical network
      is always physnet1. */
  method AskNetwork(user0: Section, ext0: Section, hostsOf: Json -> Option<seq<string>>, ask: Ask)
    returns (user: Section, ext: Section, hosts: seq<string>, error: Option<string>)
    ensures var location := ask("user", RemoteAccessLocation, JNull);
            var local := location == JStr(LOCAL_ACCESS);
            var bank := ExtNetBank(local);
            var cidr := ask(bank, Cidr, JNull);
            var gateway := DefaultAnswer(ext0, Gateway, hosts, 0);
            && user == user0[RemoteAccessLocation := location]
            && (error.None? <==> hostsOf(cidr).Some? && gateway.Ok?)
            && (hostsOf(cidr).Some? ==> hosts == hostsOf(cidr).value)
            && (error.None? ==>
                  && ext.Keys == ext0.Keys + EXT_NETWORK_KEYS
                  && Kept(ext0, ext, EXT_NETWORK_KEYS)
                  && ext[Cidr] == cidr
                  && ext[Gateway] == (if local then gateway.value else ask(bank, Gateway, gateway.value))
                  && ext[PhysicalNetwork] == JStr(PHYSICAL_NETWORK))
  {
    var location := ask("user", RemoteAccessLocation, JNull);
    user := user0[RemoteAccessLocation := location];
    var local := location == JStr(LOCAL_ACCESS);
    var bank := ExtNetBank(local);
    var cidr := ask(bank, Cidr, JNull);
    ext := ext0[Cidr := cidr];
    var network := hostsOf(cidr);
    if network.None? {
      return user, ext, [], Some("ValueError: does not appear to be an IPv4 or IPv6 network");
    }
    hosts := network.value;
    var gateway := DefaultAnswer(ext0, Gateway, hosts, 0);
    if gateway.Err? {
      return user, ext, hosts, Some(gateway.error);
    }
    if local {
      ext := ext[Gateway := gateway.value];
    } else {
      ext := ext[Gateway := ask(bank, Gateway, gateway.value)];
    }
    ext := ext[PhysicalNetwork := JStr(PHYSICAL_NETWORK)];
    error := None;
  }

  /** The demo user's questions of `UserQuestions.prompt`, asked once the
      demo setup was chosen: the nameservers answer is split into words by
      `split` (an `AttributeError`, `Err`, when it is not text). */
  method AskDemoUser(user0: Section, ask: Ask, split: string -> seq<string>) returns (user: Section, error: Option<string>)
    ensures Kept(user0, user, USER_DEMO_KEYS)
    ensures error.Some? <==> !ask("user", Nameservers, JNull).JStr?
    ensures error.None? ==> user.Keys == user0.Keys + USER_DEMO_KEYS && DemoUserRules(user, ask, split)
  {
    var username := ask("user", Username, JNull);
    var password := ask("user", Password, JNull);
    var cidr := ask("user", Cidr, JNull);
    var nameservers := ask("user", Nameservers, JNull);
    user := user0[Username := username][Password := password][Cidr := cidr];
    if !nameservers.JStr? {
      return user, Some("AttributeError: object has no attribute 'split'");
    }
    var rules := ask("user", SecurityGroupRules, JNull);
    user := user[DnsNameservers := NameserverList(split(nameservers.s))][SecurityGroupRules := rules];
    error := None;
  }

  /** The external network's demo questions of `UserQuestions.prompt`: the
      allocation range, offered from the stored range or the network's
      second and last hosts, the network type, and a segmentation id that
      is asked only for a VLAN network and is 0 otherwise. */
  method AskAllocation(ext0: Section, hosts: seq<string>, bank: string, ask: Ask)
    returns (ext: Section, error: Option<string>)
    ensures Kept(ext0, ext, EXT_DEMO_KEYS)
    ensures error.Some? <==> DefaultAnswer(ext0, Start, hosts, 1).Err? || DefaultAnswer(ext0, End, hosts, -1).Err?
    ensures error.None? ==> ext.Keys == ext0.Keys + EXT_DEMO_KEYS && AllocationRules(ext0, ext, hosts, bank, ask)
  {
    ext := ext0;
    var start := DefaultAnswer(ext0, Start, hosts, 1);
    if start.Err? {
      return ext, Some(start.error);
    }
    ext := ext[Start := ask(bank, Start, start.value)];
    var end := DefaultAnswer(ext0, End, hosts, -1);
    if end.Err? {
      return ext, Some(end.error);
    }
    var networkType := ask(bank, NetworkType, JNull);
    ext := ext[End := ask(bank, End, end.value)][NetworkType := networkType];
    if networkType == JStr("vlan") {
      ext := ext[SegmentationId := ask(bank, SegmentationId, JNull)];
    } else {
      ext := ext[SegmentationId := JInt(0)];
    }
    error := None;
  }

  /** The second half of `UserQuestions.prompt`: the demo question and,
      when it is answered yes, the demo user's and the external network's
      demo questions. Answered no, nothing else changes. */
  method AskDemo(user0: Section, ext0: Section, hosts: seq<string>, bank: string, ask: Ask, split: string -> seq<string>)
    returns (user: Section, ext: Section, error: Option<string>)
    ensures Kept(user0, user, USER_DEMO_KEYS + {RunDemoSetup})
    ensures Kept(ext0, ext, EXT_DEMO_KEYS)
    ensures var demo := ask("user", RunDemoSetup, JNull);
            && RunDemoSetup in user && user[RunDemoSetup] == demo
            && (!Truthy(demo) ==> error.None? && user == user0[RunDemoSetup := demo] && ext == ext0)
            && (Truthy(demo) ==>
                  (error.Some? <==> !ask("user", Nameservers, JNull).JStr?
                                    || DefaultAnswer(ext0, Start, hosts, 1).Err? || DefaultAnswer(ext0, End, hosts, -1).Err?))
            && (Truthy(demo) && error.None? ==>
                  && user.Keys == user0.Keys + USER_DEMO_KEYS + {RunDemoSetup}
                  && ext.Keys == ext0.Keys + EXT_DEMO_KEYS
                  && DemoUserRules(user, ask, split)
                  && AllocationRules(ext0, ext, hosts, bank, ask))
  {
    var demo := ask("user", RunDemoSetup, JNull);
    user := user0[RunDemoSetup := demo];
    ext := ext0;
    if !Truthy(demo) {
      return user, ext, None;
    }
    var user1;
    user1, error := AskDemoUser(user, ask, split);
    user := user1;
    if error.Some? {
      return;
    }
    ext, error := AskAllocation(ext0, hosts, bank, ask);
  }

  /** Both halves of `UserQuestions.prompt`, from the stored `user0` and
      `ext0` sections: the access location is the one answered, the
      physical network is physnet1, and for local access the gateway is
      the stored one or the network's first host; the nameservers answer
      is split as Python's `str.split()` does (`Words`). `error` is what a
      step of it raised. */
  method AskAll(user0: Section, ext0: Section, hostsOf: Json -> Option<seq<string>>, ask: Ask)
    returns (user: Section, ext: Section, error: Option<string>)
    ensures error.None? <==> PromptSucceeds(ext0, hostsOf, ask)
    ensures error.None? ==> PromptRules(user0, ext0, user, ext, hostsOf, ask)
  {
    var hosts;
    user, ext, hosts, error := AskNetwork(user0, ext0, hostsOf, ask);
    if error.Some? {
      return;
    }
    var local := user[RemoteAccessLocation] == JStr(LOCAL_ACCESS);
    var user', ext';
    ghost var extN := ext;
    user', ext', error := AskDemo(user, ext, hosts, ExtNetBank(local), ask, Words);
    assert RemoteAccessLocation !in USER_DEMO_KEYS + {RunDemoSetup};
    assert EXT_NETWORK_KEYS !! EXT_DEMO_KEYS;
    DefaultAnswerKept(ext0, extN, EXT_NETWORK_KEYS, Start, hosts, 1);
    DefaultAnswerKept(ext0, extN, EXT_NETWORK_KEYS, End, hosts, -1);
    user, ext := user', ext';
  }

  /** `UserQuestions`: the cloud configuration it collects. */
  class UserQuestions {
    var variables: Answers

    constructor ()
      ensures variables == map[]
    {
      variables := map[];
    }

    /** `prompt`: collects the answers, starting from the stored ones with
        an empty `user` and `external_network` section where none (or an
        empty one) is stored, and returns those it writes back to the
        cluster; nothing is written when a step of it raises. Sections
        other than these two are kept. */
    method Prompt(stored: Answers, hostsOf: Json -> Option<seq<string>>, ask: Ask) returns (written: Option<Answers>)
      modifies this
      ensures "user" in variables && "external_network" in variables
      ensures variables.Keys == stored.Keys + {"user", "external_network"}
      ensures forall s :: s in stored && s != "user" && s != "external_network" ==> variables[s] == stored[s]
      ensures written.Some? <==> PromptSucceeds(SectionOf(stored, "external_network"), hostsOf, ask)
      ensures written.Some? ==> written.value == variables
      ensures written.Some? ==>
                PromptRules(SectionOf(stored, "user"), SectionOf(stored, "external_network"),
                            variables["user"], variables["external_network"], hostsOf, ask)
    {
      var user, ext, error := AskAll(SectionOf(stored, "user"), SectionOf(stored, "external_network"), hostsOf, ask);
      variables := stored["user" := user]["external_network" := ext];
      if error.Some? {
        return None;
      }
      return Some(variables);
    }
  }

  // ---------------------------------------------------------------------
  // Local hypervisor settings

  /** The NIC `SetLocalHypervisorOptions.prompt` settles on (`JNull` for
      none): one is chosen only when joining a node or for remote access;
      a NIC given in the preseed is then taken as it is, otherwise the
      one the interactive prompt returns (`promptedNic`). */
  function ChosenNic(joinMode: bool, variables: Answers, preseed: Answers, promptedNic: string): (nic: Json)
    ensures !joinMode && Get(SectionOf(variables, "user"), RemoteAccessLocation) != JStr(REMOTE_ACCESS) ==> nic == JNull
    ensures (joinMode || Get(SectionOf(variables, "user"), RemoteAccessLocation) == JStr(REMOTE_ACCESS)) ==>
              nic == if Truthy(Get(SectionOf(preseed, "external_network"), Nic))
                     then Get(SectionOf(preseed, "external_network"), Nic)
                     else JStr(promptedNic)
  {
    var remote := Get(SectionOf(variables, "user"), RemoteAccessLocation);
    if joinMode || remote == JStr(REMOTE_ACCESS) then
      var preseedNic := Get(SectionOf(preseed, "external_network"), Nic);
      if Truthy(preseedNic) then preseedNic else JStr(promptedNic)
    else JNull
  }

  /** `SetLocalHypervisorOptions`: the node, whether it is joining, and the
      NIC `prompt` chose. */
  class SetLocalHypervisorOptions {
    const name: string
    const joinMode: bool
    var nic: Json
    var machineId: string

    constructor (name: string, joinMode: bool)
      ensures this.name == name && this.joinMode == joinMode && nic == JNull
    {
      this.name := name;
      this.joinMode := joinMode;
      nic := JNull;
      machineId := "";
    }

    /** `prompt`. */
    method Prompt(variables: Answers, preseed: Answers, promptedNic: string)
      modifies this
      ensures nic == ChosenNic(joinMode, variables, preseed, promptedNic)
      ensures machineId == old(machineId)
    {
      nic := JNull;
      var remote := Get(SectionOf(variables, "user"), RemoteAccessLocation);
      if joinMode || remote == JStr(REMOTE_ACCESS) {
        var extPreseed := SectionOf(preseed, "external_network");
        if Truthy(Get(extPreseed, Nic)) {
          nic := Get(extPreseed, Nic);
        } else {
          nic := JStr(promptedNic);
        }
      }
    }

    /** `run`: without a NIC it completes at once; otherwise it sends the
        set-hypervisor-local-settings action, with the NIC, to the
        openstack-hypervisor unit on the node's machine (`nodeInfo` is the
        node's record, `model` the controller model, `actionResult` the
        action's results) and fails when the action's return code is above
        one. `target` is the unit the action went to. */
    method Run(nodeInfo: map<string, Json>, model: Juju.ModelView, actionResult: map<string, Json>)
      returns (r: Outcome<Result, string>, target: Option<Juju.Unit>)
      modifies this
      ensures !Truthy(old(nic)) ==> r == Ok(NewResult(COMPLETED)) && target.None? && machineId == old(machineId)
      ensures Truthy(old(nic)) ==> machineId == Text(GetResult(nodeInfo, "machineid"))
      ensures nic == old(nic)
      ensures target.Some? ==>
                && HYPERVISOR_APPLICATION in model.applications
                && target.value.machineId == machineId
                && target.value in model.applications[HYPERVISOR_APPLICATION].units
      ensures Truthy(old(nic)) ==>
                (r.Ok? <==> && HYPERVISOR_APPLICATION in model.applications
                            && (exists i :: 0 <= i < |model.applications[HYPERVISOR_APPLICATION].units| &&
                                              model.applications[HYPERVISOR_APPLICATION].units[i].machineId == machineId)
                            && ReturnCodeFails(actionResult).Ok?)
      ensures r.Ok? && Truthy(old(nic)) ==>
                && target.Some? && ReturnCodeFails(actionResult).Ok?
                && r.value == if ReturnCodeFails(actionResult).value then Result(FAILED, Some(LOCAL_SETTINGS_FAILED)) else NewResult(COMPLETED)
    {
      target := None;
      if !Truthy(nic) {
        return Ok(NewResult(COMPLETED)), None;
      }
      machineId := Text(GetResult(nodeInfo, "machineid"));
      if HYPERVISOR_APPLICATION !in model.applications {
        return Err("AttributeError: 'NoneType' object has no attribute 'units'"), None;
      }
      var unit := Juju.GetUnitFromMachine(model.applications[HYPERVISOR_APPLICATION], machineId);
      if unit.None? {
        return Err("AttributeError: 'NoneType' object has no attribute 'entity_id'"), None;
      }
      target := unit;
      var fails := ReturnCodeFails(actionResult);
      if fails.Err? {
        return Err(fails.error), target;
      }
      if fails.value {
        return Ok(Result(FAILED, Some(LOCAL_SETTINGS_FAILED))), target;
      }
      return Ok(NewResult(COMPLETED)), target;
    }
  }
}

=== FILE: engine.dfy ===
/** The plan runner (sunbeam/jobs/common.py): `run_plan` walks a list of
    steps in order, asks each step's questions, lets the step decide whether
    it is needed, runs it if so, records its result under its class name,
    and stops at the first failure; `run_preflight_checks` runs checks in
    order and stops at the first that fails.

    A step is modelled by what it does to the state `S` of everything it
    reads and changes (the cluster database, the Juju controller, the answer
    store, the step object's own fields): `prompt`, `is_skip` and `run` are
    total functions of that state. */
module Engine {
  import opened Wrappers
  import opened Common
  import opened Checks

  datatype Behaviour<!S> = Behaviour(
    hasPrompts: bool,
    prompt: S -> S,
    isSkip: S -> (Result, S),
    run: S -> (Result, S))

  /** A step object: its class name (the key of its entry in the results)
      and its behaviour. */
  datatype Step<!S> = Step(className: string, behaviour: Behaviour<S>)

  /** `BaseStep`'s defaults (no questions, never skipped) around a `run`. */
  function DefaultBehaviour<S>(run: S -> (Result, S)): Behaviour<S> {
    Behaviour(false, s => s, s => (NewResult(COMPLETED), s), run)
  }

  /** What happened to one step the runner reached: whether its questions
      were asked, what its skip check answered, and what its run returned
      (`None` when it was not run). */
  datatype Record = Record(prompted: bool, skip: Result, run: Option<Result>)

  /** A step is run exactly when its skip check answered COMPLETED. */
  predicate WellFormed(rec: Record) {
    rec.run.Some? <==> rec.skip.resultType == COMPLETED
  }

  predicate Failed(rec: Record) {
    rec.skip.resultType == FAILED || (rec.run.Some? && rec.run.value.resultType == FAILED)
  }

  /** The message a failed step aborts the plan with. */
  function FailMessage(rec: Record): Option<string> {
    if rec.skip.resultType == FAILED then rec.skip.message
    else if rec.run.Some? then rec.run.value.message
    else None
  }

  /** The entry a reached step leaves in the results: its skip result when
      skipped, its run result when run, nothing when its skip check failed. */
  function Entry(rec: Record): Option<Result> {
    if rec.skip.resultType == SKIPPED then Some(rec.skip) else rec.run
  }

  datatype PlanStatus = PlanCompleted | PlanAborted(message: Option<string>)

  /** Everything one `run_plan` call produces: how it ended, the results
      dictionary, one record per step reached (in plan order), and the
      state afterwards. */
  datatype PlanRun<S> = PlanRun(status: PlanStatus, results: map<string, Result>, records: seq<Record>, state: S)

  /** One step of `run_plan`: ask the step's questions if it has any, ask
      it whether it is needed, and run it when its answer is COMPLETED. */
  function Visit<S>(b: Behaviour<S>, st: S): (Record, S) {
    var s1 := if b.hasPrompts then b.prompt(st) else st;
    var (skip, s2) := b.isSkip(s1);
    if skip.resultType == COMPLETED then
      var (res, s3) := b.run(s2);
      (Record(b.hasPrompts, skip, Some(res)), s3)
    else (Record(b.hasPrompts, skip, None), s2)
  }

  /** Every record `Visit` leaves says whether the questions were asked,
      as the step's `has_prompts` says, and is well formed. */
  lemma VisitRecord<S>(b: Behaviour<S>, st: S)
    ensures Visit(b, st).0.prompted == b.hasPrompts && WellFormed(Visit(b, st).0)
  {
  }

  /** The loop of `run_plan` from step `i` on: each visited step leaves its
      entry under its class name, and the first failing step aborts. */
  function RunFrom<S>(plan: seq<Step<S>>, i: nat, st: S, results: map<string, Result>, records: seq<Record>): PlanRun<S>
    requires i <= |plan|
    decreases |plan| - i
  {
    if i == |plan| then PlanRun(PlanCompleted, results, records, st)
    else
      var (rec, st') := Visit(plan[i].behaviour, st);
      var results' := if Entry(rec).Some? then results[plan[i].className := Entry(rec).value] else results;
      if Failed(rec) then PlanRun(PlanAborted(FailMessage(rec)), results', records + [rec], st')
      else RunFrom(plan, i + 1, st', results', records + [rec])
  }

  /** `run_plan(plan)` started in state `st`. */
  function Run<S>(plan: seq<Step<S>>, st: S): PlanRun<S> {
    RunFrom(plan, 0, st, map[], [])
  }

  /** `run_plan`: the loop itself. */
  method RunPlan<S>(plan: seq<Step<S>>, st: S) returns (r: PlanRun<S>)
    ensures r == Run(plan, st)
  {
    var results: map<string, Result> := map[];
    var records: seq<Record> := [];
    var s := st;
    var i := 0;
    while i < |plan|
      invariant 0 <= i <= |plan|
      invariant RunFrom(plan, i, s, results, records) == Run(plan, st)
      decreases |plan| - i
    {
      var step := plan[i];
      var b := step.behaviour;
      if b.hasPrompts {
        s := b.prompt(s);
      }
      var skip: Result;
      skip, s := b.isSkip(s).0, b.isSkip(s).1;
      if skip.resultType == SKIPPED {
        results := results[step.className := skip];
        records := records + [Record(b.hasPrompts, skip, None)];
        i := i + 1;
        continue;
      }
      if skip.resultType == FAILED {
        return PlanRun(PlanAborted(skip.message), results, records + [Record(b.hasPrompts, skip, None)], s);
      }
      var res: Result;
      res, s := b.run(s).0, b.run(s).1;
      results := results[step.className := res];
      records := records + [Record(b.hasPrompts, skip, Some(res))];
      if res.resultType == FAILED {
        return PlanRun(PlanAborted(res.message), results, records, s);
      }
      i := i + 1;
    }
    return PlanRun(PlanCompleted, results, records, s);
  }

  /** The results dictionary the records leave: entries in plan order, a
      later step of the same class overwriting an earlier one. */
  function Recorded<S>(plan: seq<Step<S>>, records: seq<Record>): map<string, Result>
    requires |records| <= |plan|
    decreases |records|
  {
    if |records| == 0 then map[]
    else
      var k := |records| - 1;
      var m := Recorded(plan, records[..k]);
      if Entry(records[k]).Some? then m[plan[k].className := Entry(records[k]).value] else m
  }

  /** The records of a run from step `i` extend the records so far, one per
      step reached, each taken by `Visit`. */
  lemma {:induction false} RunFromExtends<S>(plan: seq<Step<S>>, i: nat, st: S, results: map<string, Result>, records: seq<Record>)
    requires i <= |plan| && |records| == i
    ensures var r := RunFrom(plan, i, st, results, records);
      && i <= |r.records| <= |plan| && r.records[..i] == records
      && (forall k :: i <= k < |r.records| ==> r.records[k].prompted == plan[k].behaviour.hasPrompts && WellFormed(r.records[k]))
    decreases |plan| - i
  {
    if i < |plan| {
      var (rec, st') := Visit(plan[i].behaviour, st);
      VisitRecord(plan[i].behaviour, st);
      var results' := if Entry(rec).Some? then results[plan[i].className := Entry(rec).value] else results;
      if !Failed(rec) {
        RunFromExtends(plan, i + 1, st', results', records + [rec]);
        var r := RunFrom(plan, i + 1, st', results', records + [rec]);
        assert r.records[..i] == r.records[..i + 1][..i];
        assert r.records[i] == rec;
      }
    }
  }

  /** A run from step `i` stops at its first failing record, and completes
      exactly when it reaches the end of the plan without one. */
  lemma {:induction false} RunFromStops<S>(plan: seq<Step<S>>, i: nat, st: S, results: map<string, Result>, records: seq<Record>)
    requires i <= |plan| && |records| == i
    ensures var r := RunFrom(plan, i, st, results, records);
      && i <= |r.records| <= |plan| && r.records[..i] == records
      && (forall k :: i <= k < |r.records| - 1 ==> !Failed(r.records[k]))
      && (r.status.PlanCompleted? <==> |r.records| == |plan| && (i == |plan| || !Failed(r.records[|plan| - 1])))
      && (r.status.PlanAborted? ==>
            i < |r.records| && Failed(r.records[|r.records| - 1]) && r.status.message == FailMessage(r.records[|r.records| - 1]))
    decreases |plan| - i
  {
    if i < |plan| {
      var (rec, st') := Visit(plan[i].behaviour, st);
      var results' := if Entry(rec).Some? then results[plan[i].className := Entry(rec).value] else results;
      if !Failed(rec) {
        RunFromStops(plan, i + 1, st', results', records + [rec]);
        var r := RunFrom(plan, i + 1, st', results', records + [rec]);
        assert RunFrom(plan, i, st, results, records) == r;
        assert r.records[..i] == r.records[..i + 1][..i];
        assert r.records[i] == rec;
      } else {
        assert RunFrom(plan, i, st, results, records) == PlanRun(PlanAborted(FailMessage(rec)), results', records + [rec], st');
      }
    }
  }

  /** The records of a run from step `i` extend the records so far, one per
      step reached, each taken by `Visit`; all but the last did not fail. */
  lemma RunFromRecords<S>(plan: seq<Step<S>>, i: nat, st: S, results: map<string, Result>, records: seq<Record>)
    requires i <= |plan| && |records| == i
    ensures var r := RunFrom(plan, i, st, results, records);
      && i <= |r.records| <= |plan| && r.records[..i] == records
      && (forall k :: i <= k < |r.records| ==> r.records[k].prompted == plan[k].behaviour.hasPrompts && WellFormed(r.records[k]))
      && (forall k :: i <= k < |r.records| - 1 ==> !Failed(r.records[k]))
      && (r.status.PlanCompleted? <==> |r.records| == |plan| && (i == |plan| || !Failed(r.records[|plan| - 1])))
      && (r.status.PlanAborted? ==>
            i < |r.records| && Failed(r.records[|r.records| - 1]) && r.status.message == FailMessage(r.records[|r.records| - 1]))
  {
    RunFromExtends(plan, i, st, results, records);
    RunFromStops(plan, i, st, results, records);
  }

  /** The results of a run from step `i` are those its records leave. */
  lemma {:induction false} RunFromResults<S>(plan: seq<Step<S>>, i: nat, st: S, results: map<string, Result>, records: seq<Record>)
    requires i <= |plan| && |records| == i && results == Recorded(plan, records)
    ensures |RunFrom(plan, i, st, results, records).records| <= |plan|
    ensures RunFrom(plan, i, st, results, records).results == Recorded(plan, RunFrom(plan, i, st, results, records).records)
    decreases |plan| - i
  {
    if i < |plan| {
      var (rec, st') := Visit(plan[i].behaviour, st);
      var results' := if Entry(rec).Some? then results[plan[i].className := Entry(rec).value] else results;
      assert (records + [rec])[..i] == records;
      assert results' == Recorded(plan, records + [rec]);
      if !Failed(rec) {
        RunFromResults(plan, i + 1, st', results', records + [rec]);
      }
    }
  }

  /** The promises of `run_plan`: steps are reached in plan order, one
      record per step reached; a step's questions are asked exactly when it
      has prompts; a step runs exactly when its skip check answered
      COMPLETED; the plan stops at the first failure (a FAILED skip check or
      a FAILED run), with that result's message, and no step after it is
      reached; a plan completes exactly when every step was reached and none
      failed; the results hold the entries the records leave. */
  lemma RunPlanFacts<S>(plan: seq<Step<S>>, st: S)
    ensures var r := Run(plan, st);
      && |r.records| <= |plan|
      && (forall k :: 0 <= k < |r.records| ==> r.records[k].prompted == plan[k].behaviour.hasPrompts && WellFormed(r.records[k]))
      && (forall k :: 0 <= k < |r.records| - 1 ==> !Failed(r.records[k]))
      && r.results == Recorded(plan, r.records)
      && (r.status.PlanCompleted? <==> |r.records| == |plan| && forall k :: 0 <= k < |r.records| ==> !Failed(r.records[k]))
      && (r.status.PlanAborted? ==>
            0 < |r.records| && Failed(r.records[|r.records| - 1]) && r.status.message == FailMessage(r.records[|r.records| - 1]))
  {
    RunFromRecords(plan, 0, st, map[], []);
    RunFromResults(plan, 0, st, map[], []);
  }

  /** The results hold an entry for a class name exactly when some reached
      step of that class was skipped or run. */
  lemma {:induction false} RecordedHas<S>(plan: seq<Step<S>>, records: seq<Record>, name: string)
    requires |records| <= |plan|
    ensures name in Recorded(plan, records) <==>
            exists k :: 0 <= k < |records| && plan[k].className == name && Entry(records[k]).Some?
    decreases |records|
  {
    if |records| > 0 {
      var n := |records| - 1;
      var front := records[..n];
      RecordedHas(plan, front, name);
      if plan[n].className == name && Entry(records[n]).Some? {
        assert name in Recorded(plan, records);
      } else {
        assert name in Recorded(plan, records) <==> name in Recorded(plan, front);
        if k :| 0 <= k < n && plan[k].className == name && Entry(front[k]).Some? {
          assert front[k] == records[k];
        }
        if k :| 0 <= k < |records| && plan[k].className == name && Entry(records[k]).Some? {
          assert k < n && front[k] == records[k];
        }
      }
    }
  }

  /** The entry under a class name is that of the last reached step of that
      class that was skipped or run. */
  lemma {:induction false} RecordedLast<S>(plan: seq<Step<S>>, records: seq<Record>, name: string, k: nat)
    requires |records| <= |plan| && k < |records|
    requires plan[k].className == name && Entry(records[k]).Some?
    requires forall j :: k < j < |records| && plan[j].className == name ==> Entry(records[j]).None?
    ensures name in Recorded(plan, records) && Recorded(plan, records)[name] == Entry(records[k]).value
    decreases |records|
  {
    var n := |records| - 1;
    var front := records[..n];
    if k < n {
      assert front[k] == records[k];
      assert forall j :: k < j < |front| && plan[j].className == name ==> Entry(front[j]).None? by {
        assert forall j :: 0 <= j < |front| ==> front[j] == records[j];
      }
      RecordedLast(plan, front, name, k);
    }
  }

  /** Every entry left by steps that did not fail is COMPLETED or SKIPPED. */
  lemma {:induction false} RecordedNotFailed<S>(plan: seq<Step<S>>, records: seq<Record>)
    requires |records| <= |plan|
    requires forall k :: 0 <= k < |records| ==> !Failed(records[k])
    ensures forall name :: name in Recorded(plan, records) ==> Recorded(plan, records)[name].resultType != FAILED
    decreases |records|
  {
    if |records| > 0 {
      RecordedNotFailed(plan, records[..|records| - 1]);
    }
  }

  /** The results of a completed plan hold no FAILED result. */
  lemma CompletedPlanHasNoFailure<S>(plan: seq<Step<S>>, st: S)
    requires Run(plan, st).status.PlanCompleted?
    ensures forall name :: name in Run(plan, st).results ==> Run(plan, st).results[name].resultType != FAILED
  {
    RunPlanFacts(plan, st);
    RecordedNotFailed(plan, Run(plan, st).records);
  }

  /** `get_step_message` on a plan's results returns the message of the
      last reached step of that class that was skipped or run. */
  lemma GetStepMessageOfRun<S>(plan: seq<Step<S>>, st: S, name: string, k: nat)
    requires k < |plan| && k < |Run(plan, st).records| && plan[k].className == name && Entry(Run(plan, st).records[k]).Some?
    requires forall j :: k < j < |Run(plan, st).records| && j < |plan| && plan[j].className == name ==> Entry(Run(plan, st).records[j]).None?
    ensures GetStepMessage(Run(plan, st).results, name) == Entry(Run(plan, st).records[k]).value.message
  {
    RunPlanFacts(plan, st);
    RecordedLast(plan, Run(plan, st).records, name, k);
  }

  /** ... and `None` when no reached step of that class was skipped or run. */
  lemma GetStepMessageMissing<S>(plan: seq<Step<S>>, st: S, name: string)
    requires forall k :: 0 <= k < |Run(plan, st).records| && k < |plan| && plan[k].className == name ==> Entry(Run(plan, st).records[k]).None?
    ensures GetStepMessage(Run(plan, st).results, name).None?
  {
    RunPlanFacts(plan, st);
    RecordedHas(plan, Run(plan, st).records, name);
  }

  /** A step that reports SKIPPED whatever the state. */
  ghost predicate AlwaysSkips<S(!new)>(b: Behaviour<S>) {
    forall s :: b.isSkip(s).0.resultType == SKIPPED
  }

  /** A plan whose steps all report SKIPPED, whatever the state, runs
      nothing and completes: re-running a finished deployment is a no-op. */
  lemma {:induction false} AllSkippedRunsNothing<S(!new)>(plan: seq<Step<S>>, i: nat, st: S, results: map<string, Result>, records: seq<Record>)
    requires i <= |plan| && |records| == i
    requires forall k :: i <= k < |plan| ==> AlwaysSkips(plan[k].behaviour)
    ensures RunFrom(plan, i, st, results, records).status.PlanCompleted?
    ensures |RunFrom(plan, i, st, results, records).records| == |plan|
    ensures forall k :: i <= k < |plan| ==> RunFrom(plan, i, st, results, records).records[k].run.None?
    decreases |plan| - i
  {
    if i < |plan| {
      var b := plan[i].behaviour;
      var (rec, st') := Visit(b, st);
      var s1 := if b.hasPrompts then b.prompt(st) else st;
      assert b.isSkip(s1).0.resultType == SKIPPED;
      var results' := if Entry(rec).Some? then results[plan[i].className := Entry(rec).value] else results;
      AllSkippedRunsNothing(plan, i + 1, st', results', records + [rec]);
      RunFromRecords(plan, i + 1, st', results', records + [rec]);
      var r := RunFrom(plan, i + 1, st', results', records + [rec]);
      assert r.records[i] == r.records[..i + 1][i] == rec;
    }
  }

  /** A step keeping `BaseStep`'s defaults is never skipped: it always runs. */
  lemma DefaultStepRuns<S>(name: string, run: S -> (Result, S), st: S)
    ensures Run([Step(name, DefaultBehaviour(run))], st).records == [Record(false, NewResult(COMPLETED), Some(run(st).0))]
  {
    var b := DefaultBehaviour(run);
    var plan := [Step(name, b)];
    var rec := Record(false, NewResult(COMPLETED), Some(run(st).0));
    assert b.isSkip(st) == (NewResult(COMPLETED), st);
    assert Visit(plan[0].behaviour, st) == (rec, run(st).1);
    var noRecords: seq<Record> := [];
    assert noRecords + [rec] == [rec];
    var results' := map[name := Entry(rec).value];
    assert RunFrom(plan, 1, run(st).1, results', [rec]).records == [rec];
  }

  /** A failing check explains itself: a non-empty message. */
  predicate Explained(v: Verdict) {
    !v.ok ==> v.message.Some? && |v.message.value| > 0
  }

  lemma JujuSnapExplained(facts: HostFacts) ensures Explained(Evaluate(JujuSnapCheck, facts)) { }
  lemma SshKeysExplained(facts: HostFacts) ensures Explained(Evaluate(SshKeysConnectedCheck, facts)) { }
  lemma DaemonGroupExplained(facts: HostFacts) ensures Explained(Evaluate(DaemonGroupCheck, facts)) { }
  lemma LocalShareExplained(facts: HostFacts) ensures Explained(Evaluate(LocalShareCheck, facts)) { }
  lemma HostnameExplained(fqdn: string, hostname: string, facts: HostFacts)
    ensures Explained(Evaluate(VerifyHypervisorHostnameCheck(fqdn, hostname), facts)) { }
  lemma BootstrappedExplained(facts: HostFacts) ensures Explained(Evaluate(VerifyBootstrappedCheck, facts)) { }

  /** The `Check` contract: `run` returns False only after setting a
      non-empty message. */
  lemma EvaluateFailureHasMessage(kind: CheckKind, facts: HostFacts)
    ensures Explained(Evaluate(kind, facts))
  {
    match kind
    case BaseCheck =>
    case JujuSnapCheck => JujuSnapExplained(facts);
    case SshKeysConnectedCheck => SshKeysExplained(facts);
    case DaemonGroupCheck => DaemonGroupExplained(facts);
    case LocalShareCheck => LocalShareExplained(facts);
    case VerifyFQDNCheck(fqdn) => FqdnFailureHasMessage(fqdn, facts);
    case VerifyHypervisorHostnameCheck(fqdn, hostname) => HostnameExplained(fqdn, hostname, facts);
    case SystemRequirementsCheck =>
    case VerifyBootstrappedCheck => BootstrappedExplained(facts);
  }

  /** The outcome of `run_preflight_checks`: all passed, or the first that
      failed and the message it left. */
  datatype PreflightOutcome = AllPassed | CheckFailed(index: nat, message: Option<string>)

  /** Which check `run_preflight_checks` stops at. */
  function FirstFailure(kinds: seq<CheckKind>, facts: HostFacts): (o: PreflightOutcome)
    ensures o.AllPassed? <==> forall k :: 0 <= k < |kinds| ==> Evaluate(kinds[k], facts).ok
    ensures o.CheckFailed? ==> o.index < |kinds| && !Evaluate(kinds[o.index], facts).ok
                               && o.message == Evaluate(kinds[o.index], facts).message
                               && forall j :: 0 <= j < o.index ==> Evaluate(kinds[j], facts).ok
    decreases |kinds|
  {
    if |kinds| == 0 then AllPassed
    else
      var v := Evaluate(kinds[0], facts);
      if !v.ok then CheckFailed(0, v.message)
      else
        var rest := FirstFailure(kinds[1..], facts);
        FirstFailureShift(kinds, facts, rest);
        match rest
        case AllPassed => AllPassed
        case CheckFailed(i, m) => CheckFailed(i + 1, m)
  }

  /** The tail's outcome, seen from the whole sequence when its head passes. */
  lemma FirstFailureShift(kinds: seq<CheckKind>, facts: HostFacts, rest: PreflightOutcome)
    requires 0 < |kinds| && Evaluate(kinds[0], facts).ok
    requires rest.AllPassed? <==> forall k :: 0 <= k < |kinds| - 1 ==> Evaluate(kinds[1..][k], facts).ok
    requires rest.CheckFailed? ==> rest.index < |kinds| - 1 && !Evaluate(kinds[1..][rest.index], facts).ok
                                   && rest.message == Evaluate(kinds[1..][rest.index], facts).message
                                   && forall j :: 0 <= j < rest.index ==> Evaluate(kinds[1..][j], facts).ok
    ensures rest.AllPassed? <==> forall k :: 0 <= k < |kinds| ==> Evaluate(kinds[k], facts).ok
    ensures rest.CheckFailed? ==> !Evaluate(kinds[rest.index + 1], facts).ok
                                  && rest.message == Evaluate(kinds[rest.index + 1], facts).message
                                  && forall j :: 0 <= j < rest.index + 1 ==> Evaluate(kinds[j], facts).ok
  {
    assert forall k :: 1 <= k < |kinds| ==> kinds[1..][k - 1] == kinds[k];
  }

  /** The run stops at the first check that fails. */
  lemma FirstFailureAt(kinds: seq<CheckKind>, facts: HostFacts, i: nat)
    requires i < |kinds| && !Evaluate(kinds[i], facts).ok
    requires forall j :: 0 <= j < i ==> Evaluate(kinds[j], facts).ok
    ensures FirstFailure(kinds, facts) == CheckFailed(i, Evaluate(kinds[i], facts).message)
  {
  }

  /** A failing pre-flight run always explains itself. */
  lemma PreflightFailureHasMessage(kinds: seq<CheckKind>, facts: HostFacts)
    requires FirstFailure(kinds, facts).CheckFailed?
    ensures FirstFailure(kinds, facts).message.Some? && |FirstFailure(kinds, facts).message.value| > 0
  {
    EvaluateFailureHasMessage(kinds[FirstFailure(kinds, facts).index], facts);
  }

  function Kinds(checks: seq<Check>): (kinds: seq<CheckKind>)
    ensures |kinds| == |checks| && forall k :: 0 <= k < |checks| ==> kinds[k] == checks[k].kind
  {
    seq(|checks|, k requires 0 <= k < |checks| => checks[k].kind)
  }

  /** The message a check holds after running: the one its verdict sets,
      or the one it held before. */
  function MessageAfter(kind: CheckKind, facts: HostFacts, before: Option<string>): Option<string> {
    if Evaluate(kind, facts).message.Some? then Evaluate(kind, facts).message else before
  }

  /** The number of checks `run_preflight_checks` runs: up to and including
      the first failing one, or all of them. */
  function Reached(outcome: PreflightOutcome, count: nat): nat {
    if outcome.CheckFailed? then outcome.index + 1 else count
  }

  /** `run_preflight_checks`: runs the checks (distinct objects) in order;
      the first failing one ends the loop, with the message it left. The
      checks that ran hold the messages their verdicts set; the ones after
      the failure never ran and keep theirs. */
  method RunPreflightChecks(checks: seq<Check>, facts: HostFacts) returns (outcome: PreflightOutcome)
    requires forall i, j :: 0 <= i < j < |checks| ==> checks[i] != checks[j]
    modifies set k | 0 <= k < |checks| :: checks[k]
    ensures outcome == FirstFailure(Kinds(checks), facts)
    ensures outcome.CheckFailed? ==> checks[outcome.index].message == outcome.message
    ensures Reached(outcome, |checks|) <= |checks|
    ensures forall k :: 0 <= k < Reached(outcome, |checks|) ==>
              checks[k].message == MessageAfter(checks[k].kind, facts, old(checks[k].message))
    ensures forall k :: Reached(outcome, |checks|) <= k < |checks| ==> checks[k].message == old(checks[k].message)
  {
    var reached, failed := RunUntilFailure(checks, facts);
    ghost var kinds := Kinds(checks);
    FirstFailureOfRun(kinds, facts, reached, failed);
    if failed {
      EvaluateFailureHasMessage(kinds[reached - 1], facts);
      outcome := CheckFailed(reached - 1, checks[reached - 1].message);
    } else {
      outcome := AllPassed;
    }
    assert Reached(outcome, |checks|) == reached;
  }

  /** What the loop's stopping point says about `FirstFailure`. */
  lemma FirstFailureOfRun(kinds: seq<CheckKind>, facts: HostFacts, reached: nat, failed: bool)
    requires reached <= |kinds| && (failed ==> 0 < reached) && (!failed ==> reached == |kinds|)
    requires forall j :: 0 <= j < reached - 1 ==> Evaluate(kinds[j], facts).ok
    requires !failed && 0 < reached ==> Evaluate(kinds[reached - 1], facts).ok
    requires failed ==> !Evaluate(kinds[reached - 1], facts).ok
    ensures FirstFailure(kinds, facts)
            == if failed then CheckFailed(reached - 1, Evaluate(kinds[reached - 1], facts).message) else AllPassed
  {
    if failed {
      FirstFailureAt(kinds, facts, reached - 1);
    } else {
      assert forall k :: 0 <= k < |kinds| ==> Evaluate(kinds[k], facts).ok by {
        forall k | 0 <= k < |kinds| ensures Evaluate(kinds[k], facts).ok {
          if k < reached - 1 { } else { assert k == reached - 1; }
        }
      }
    }
  }

  /** The loop of `run_preflight_checks`: runs the checks until one fails
      (`failed`, and it is the last of the `reached` ones) or all passed. */
  method RunUntilFailure(checks: seq<Check>, facts: HostFacts) returns (reached: nat, failed: bool)
    requires forall i, j :: 0 <= i < j < |checks| ==> checks[i] != checks[j]
    modifies set k | 0 <= k < |checks| :: checks[k]
    ensures reached <= |checks| && (failed ==> 0 < reached) && (!failed ==> reached == |checks|)
    ensures forall j :: 0 <= j < reached - 1 ==> Evaluate(checks[j].kind, facts).ok
    ensures !failed && 0 < reached ==> Evaluate(checks[reached - 1].kind, facts).ok
    ensures failed ==> !Evaluate(checks[reached - 1].kind, facts).ok
    ensures forall k :: 0 <= k < reached ==>
              checks[k].message == MessageAfter(checks[k].kind, facts, old(checks[k].message))
    ensures forall k :: reached <= k < |checks| ==> checks[k].message == old(checks[k].message)
  {
    reached := 0;
    while reached < |checks|
      invariant 0 <= reached <= |checks|
      invariant forall j :: 0 <= j < reached ==> Evaluate(checks[j].kind, facts).ok
      invariant forall j :: 0 <= j < reached ==> checks[j].message == MessageAfter(checks[j].kind, facts, old(checks[j].message))
      invariant forall j :: reached <= j < |checks| ==> checks[j].message == old(checks[j].message)
    {
      var ok := checks[reached].Run(facts);
      assert checks[reached].message == MessageAfter(checks[reached].kind, facts, old(checks[reached].message));
      reached := reached + 1;
      if !ok {
        return reached, true;
      }
    }
    return reached, false;
  }
}

=== FILE: json.dfy ===
/** Decoded JSON values as Python's `json` module produces them, and
    Python's truthiness of such a value. Encoding is modelled only for
    plain strings, the one form the core writes and reads back itself. */
module JsonValue {
  import opened Wrappers
  import opened Strs

  datatype Json =
    | JNull
    | JBool(b: bool)
    | JInt(i: int)
    | JStr(s: string)
    | JArr(items: seq<Json>)
    | JObj(fields: map<string, Json>)

  /** `bool(v)` in Python for a decoded value. */
  predicate Truthy(v: Json) {
    match v
    case JNull => false
    case JBool(b) => b
    case JInt(i) => i != 0
    case JStr(s) => s != ""
    case JArr(items) => |items| > 0
    case JObj(fields) => |fields| > 0
  }

  /** A string that `json.dumps` writes without escapes. */
  predicate Plain(s: string) {
    forall k :: 0 <= k < |s| ==> s[k] != '"' && s[k] != '\\' && ' ' <= s[k] <= '~'
  }

  /** `json.dumps(s)` for a plain string. */
  function DumpString(s: string): string
    requires Plain(s)
  {
    "\"" + s + "\""
  }

  /** `json.loads(text)` for the literal forms the core stores: a quoted
      plain string, `true`, `false`, `null` and decimal integers; `None`
      stands for JSONDecodeError (escapes and composite values are not
      decoded here). Unlike `json.loads`, an integer with a leading zero
      ("01") is read, and whitespace around the value is refused; the
      values the core stores never take either form. */
  function Loads(text: string): Option<Json> {
    if |text| >= 2 && text[0] == '"' && text[|text| - 1] == '"' && Plain(text[1..|text| - 1]) then
      Some(JStr(text[1..|text| - 1]))
    else if text == "true" then Some(JBool(true))
    else if text == "false" then Some(JBool(false))
    else if text == "null" then Some(JNull)
    else if ParseInt(text).Some? && text[0] != '+' then Some(JInt(ParseInt(text).value))
    else None
  }

  /** `json.loads(json.dumps(s)) == s` for plain strings. */
  lemma LoadsDumpString(s: string)
    requires Plain(s)
    ensures Loads(DumpString(s)) == Some(JStr(s))
  {
    var t := DumpString(s);
    assert t[1..|t| - 1] == s;
  }
}

=== FILE: juju.dfy ===
/** The Juju helpers (sunbeam/jobs/juju.py): unit-name validation, the
    search for a unit on a machine, readiness conditions the `wait_*`
    helpers poll, owner-qualified model names, the mapping of controller
    errors, and `JujuHelper`, whose controller connection is opened lazily
    by the first call that needs it.

    A Juju model is seen through `ModelView`: its applications, each with
    its status and units, and its units by name. */
module Juju {
  import opened Wrappers
  import opened Strs

  const CONTROLLER_MODEL := "admin/controller"
  const CONTROLLER := "sunbeam-controller"
  const OWNER_TAG_PREFIX := "user-"

  /** `MODEL`, the model part of `CONTROLLER_MODEL`. */
  const MODEL := "controller"

  lemma ModelIsControllerModelPart()
    ensures Split(CONTROLLER_MODEL, '/') == ["admin", MODEL]
  {
    assert CONTROLLER_MODEL == Join(["admin", "controller"], "/");
    SplitJoin(["admin", "controller"], '/');
  }

  /** A unit as the controller reports it: its name, the id of its machine,
      and its agent and workload status. */
  datatype Unit = Unit(name: string, machineId: string, agentStatus: string, workloadStatus: string, isLeader: bool)

  datatype Application = Application(status: string, units: seq<Unit>)

  datatype ModelView = ModelView(applications: map<string, Application>, units: map<string, Unit>)

  /** The exceptions the helpers raise, with the values their messages
      name. */
  datatype JujuError =
    | ModelNotFound(model: string)
    | ApplicationNotFound(modelName: string)
    | UnitNotFound(unit: string, modelName: string)
    | LeaderNotFound(app: string, modelName: string)
    | ActionFailed(output: string)
    | CmdFailed(stderr: string)
    | InvalidUnitName(unit: string)
    | Raised(text: string)

  /** `str(e)` of one of these exceptions: the text it was raised with,
      the names in it written with `repr`. */
  function ErrorText(e: JujuError): string {
    match e
    case ModelNotFound(model) => "Model " + Repr(model) + " not found"
    case ApplicationNotFound(modelName) => "Application missing from model: " + Repr(modelName)
    case UnitNotFound(unit, modelName) => "Unit " + Repr(unit) + " is missing from model " + Repr(modelName)
    case LeaderNotFound(app, modelName) => "Leader for application " + Repr(app) + " is missing from model " + Repr(modelName)
    case ActionFailed(output) => output
    case CmdFailed(stderr) => stderr
    case InvalidUnitName(unit) => "Name " + Repr(unit) + " has invalid format, should be a valid unit of format application/id"
    case Raised(text) => text
  }

  /** `_validate_unit`: a unit name is `application/id`. */
  function ValidateUnit(unit: string): (r: Outcome<(), JujuError>)
    ensures r.Ok? <==> Count(unit, '/') == 1
    ensures r.Err? ==> r.error == InvalidUnitName(unit)
  {
    SplitCount(unit, '/');
    if |Split(unit, '/')| != 2 then
      Err(InvalidUnitName(unit))
    else Ok(())
  }

  /** A valid unit name is an application name and an id around one '/'. */
  lemma ValidUnitName(app: string, id: string)
    requires '/' !in app && '/' !in id
    ensures ValidateUnit(app + "/" + id).Ok?
  {
    assert app + "/" + id == Join([app, id], "/");
    SplitJoin([app, id], '/');
    SplitCount(app + "/" + id, '/');
  }

  /** `get_model`: a controller error mentioning "HTTP 400" means the model
      does not exist; any other error is raised again as it is. */
  function ModelError(model: string, text: string): (e: JujuError)
    ensures Contains(text, "HTTP 400") ==> e == ModelNotFound(model)
    ensures !Contains(text, "HTTP 400") ==> e == Raised(text)
  {
    if Contains(text, "HTTP 400") then ModelNotFound(model) else Raised(text)
  }

  /** `get_model_name_with_owner`: `owner/name`, the owner being the owner
      tag without its "user-" prefix. */
  function ModelNameWithOwner(ownerTag: string, name: string): (r: string)
    ensures StartsWith(ownerTag, OWNER_TAG_PREFIX) ==> OWNER_TAG_PREFIX + r == ownerTag + "/" + name
    ensures !StartsWith(ownerTag, OWNER_TAG_PREFIX) ==> r == ownerTag + "/" + name
  {
    RemovePrefix(ownerTag, OWNER_TAG_PREFIX) + "/" + name
  }

  /** `get_application`. */
  function GetApplication(model: ModelView, name: string, modelName: string): (r: Outcome<Application, JujuError>)
    ensures r.Ok? <==> name in model.applications
    ensures r.Ok? ==> r.value == model.applications[name]
  {
    if name in model.applications then Ok(model.applications[name])
    else Err(ApplicationNotFound(modelName))
  }

  /** `get_unit`: the name is validated before the lookup. */
  function GetUnit(model: ModelView, name: string, modelName: string): (r: Outcome<Unit, JujuError>)
    ensures r.Ok? <==> Count(name, '/') == 1 && name in model.units
    ensures r.Ok? ==> r.value == model.units[name]
    ensures Count(name, '/') != 1 ==> r.Err? && r.error == ValidateUnit(name).error
  {
    if ValidateUnit(name).Err? then Err(ValidateUnit(name).error)
    else if name !in model.units then Err(UnitNotFound(name, modelName))
    else Ok(model.units[name])
  }

  /** `get_unit_from_machine`: the last unit of the application on the
      machine, if any. */
  method GetUnitFromMachine(app: Application, machineId: string) returns (unit: Option<Unit>)
    ensures unit.None? <==> forall i :: 0 <= i < |app.units| ==> app.units[i].machineId != machineId
    ensures unit.Some? ==> exists i :: 0 <= i < |app.units| && app.units[i] == unit.value && unit.value.machineId == machineId
                                       && forall j :: i < j < |app.units| ==> app.units[j].machineId != machineId
  {
    unit := None;
    var k := 0;
    ghost var at := -1;
    while k < |app.units|
      invariant 0 <= k <= |app.units|
      invariant unit.None? <==> forall i :: 0 <= i < k ==> app.units[i].machineId != machineId
      invariant unit.Some? ==> 0 <= at < k && app.units[at] == unit.value && unit.value.machineId == machineId
                               && forall j :: at < j < k ==> app.units[j].machineId != machineId
    {
      if machineId == app.units[k].machineId {
        unit := Some(app.units[k]);
        at := k;
      }
      k := k + 1;
    }
  }

  /** `get_leader_unit`: the name of the first unit that reports itself as
      leader. */
  method GetLeaderUnit(app: Application, name: string, modelName: string) returns (r: Outcome<string, JujuError>)
    ensures r.Ok? ==> exists i :: 0 <= i < |app.units| && app.units[i].isLeader && app.units[i].name == r.value
                                  && forall j :: 0 <= j < i ==> !app.units[j].isLeader
    ensures r.Err? <==> forall i :: 0 <= i < |app.units| ==> !app.units[i].isLeader
    ensures r.Err? ==> r.error == LeaderNotFound(name, modelName)
  {
    var k := 0;
    while k < |app.units|
      invariant 0 <= k <= |app.units|
      invariant forall j :: 0 <= j < k ==> !app.units[j].isLeader
    {
      if app.units[k].isLeader {
        return Ok(app.units[k].name);
      }
      k := k + 1;
    }
    return Err(LeaderNotFound(name, modelName));
  }

  /** What a `wait_*` helper blocks on: nothing (it returned at once), an
      application status among the accepted ones, or a unit whose agent and
      workload statuses are among the accepted ones. */
  datatype Wait =
    | NoWait
    | UntilAppStatus(app: string, accepted: seq<string>)
    | UntilUnitReady(unit: string, agent: seq<string>, workload: seq<string>)

  /** The condition `block_until` polls, evaluated on one view of the model. */
  predicate Satisfied(w: Wait, model: ModelView) {
    match w
    case NoWait => true
    case UntilAppStatus(app, accepted) => app in model.applications && model.applications[app].status in accepted
    case UntilUnitReady(unit, agent, workload) =>
      unit in model.units && model.units[unit].agentStatus in agent && model.units[unit].workloadStatus in workload
  }

  /** `wait_application_ready`: returns at once when the application is
      missing; otherwise waits for its status to be one of the accepted
      ones, by default "active". */
  function WaitApplicationReady(model: ModelView, name: string, accepted: Option<seq<string>>): (w: Wait)
    ensures name !in model.applications ==> w == NoWait
    ensures name in model.applications && accepted.None? ==> w == UntilAppStatus(name, ["active"])
    ensures name in model.applications && accepted.Some? ==> w == UntilAppStatus(name, accepted.value)
  {
    var statuses := if accepted.None? then ["active"] else accepted.value;
    if GetApplication(model, name, "").Err? then NoWait else UntilAppStatus(name, statuses)
  }

  /** `wait_unit_ready`: rejects a malformed unit name, returns at once when
      the unit is missing, otherwise waits for the agent status (by default
      "idle") and the workload status (by default "active"). */
  function WaitUnitReady(model: ModelView, name: string, accepted: Option<map<string, seq<string>>>): (r: Outcome<Wait, JujuError>)
    ensures Count(name, '/') != 1 ==> r.Err?
    ensures Count(name, '/') == 1 && name !in model.units ==> r == Ok(NoWait)
    ensures Count(name, '/') == 1 && name in model.units ==> r.Ok? && r.value.UntilUnitReady?
  {
    var acc := if accepted.None? then map[] else accepted.value;
    var agent := if "agent" in acc then acc["agent"] else ["idle"];
    var workload := if "workload" in acc then acc["workload"] else ["active"];
    if ValidateUnit(name).Err? then Err(ValidateUnit(name).error)
    else if GetUnit(model, name, "").Err? then Ok(NoWait)
    else Ok(UntilUnitReady(name, agent, workload))
  }

  /** With the default accepted statuses a unit is ready exactly when its
      agent is idle and its workload active. */
  lemma DefaultUnitReadiness(model: ModelView, name: string)
    requires Count(name, '/') == 1 && name in model.units
    ensures Satisfied(WaitUnitReady(model, name, None).value, model)
            <==> model.units[name].agentStatus == "idle" && model.units[name].workloadStatus == "active"
  {
  }

  /** Accepted statuses given for only one of the two keys leave the other
      at its default. */
  lemma PartialUnitReadiness(model: ModelView, name: string, workload: seq<string>)
    requires Count(name, '/') == 1 && name in model.units
    ensures WaitUnitReady(model, name, Some(map["workload" := workload])) == Ok(UntilUnitReady(name, ["idle"], workload))
  {
  }

  /** `run_action`: an action that did not complete raises its output. */
  function ActionOutcome<T>(status: string, results: T, output: string): (r: Outcome<T, JujuError>)
    ensures r.Ok? <==> status == "completed"
    ensures r.Ok? ==> r.value == results
    ensures r.Err? ==> r.error == ActionFailed(output)
  {
    if status != "completed" then Err(ActionFailed(output)) else Ok(results)
  }

  /** `run_cmd_on_unit_payload`: a non-zero return code raises stderr. */
  function CmdOutcome<T>(returnCode: int, stderr: string, results: T): (r: Outcome<T, JujuError>)
    ensures r.Ok? <==> returnCode == 0
    ensures r.Ok? ==> r.value == results
    ensures r.Err? ==> r.error == CmdFailed(stderr)
  {
    if returnCode != 0 then Err(CmdFailed(stderr)) else Ok(results)
  }

  /** `JujuHelper`: the controller connection (opened by the `controller`
      decorator on first use) and the parts of the controller's state the
      core changes: its clouds and the credentials added to them. */
  class JujuHelper {
    var connected: bool
    var connections: nat
    var clouds: set<string>
    var credentials: map<string, string>

    constructor (clouds: set<string>, credentials: map<string, string>)
      ensures !connected && connections == 0
      ensures this.clouds == clouds && this.credentials == credentials
    {
      connected := false;
      connections := 0;
      this.clouds := clouds;
      this.credentials := credentials;
    }

    /** The `controller` decorator: connects only when not yet connected. */
    method Connect()
      modifies this
      ensures connected
      ensures connections == if old(connected) then old(connections) else old(connections) + 1
      ensures clouds == old(clouds) && credentials == old(credentials)
    {
      if !connected {
        connected := true;
        connections := connections + 1;
      }
    }

    /** `get_clouds`: the controller names its clouds by tag, "cloud-<name>". */
    method GetClouds() returns (tags: set<string>)
      modifies this
      ensures connected && (connections == if old(connected) then old(connections) else old(connections) + 1)
      ensures clouds == old(clouds) && credentials == old(credentials)
      ensures forall c :: c in clouds ==> "cloud-" + c in tags
      ensures forall t :: t in tags ==> exists c :: c in clouds && t == "cloud-" + c
    {
      Connect();
      tags := set c | c in clouds :: "cloud-" + c;
    }

    /** `get_model`: `reply` is the controller's answer, a model or the
      text of the error it raised. */
    method GetModel(model: string, reply: Outcome<ModelView, string>) returns (r: Outcome<ModelView, JujuError>)
      modifies this
      ensures connected && (connections == if old(connected) then old(connections) else old(connections) + 1)
      ensures clouds == old(clouds) && credentials == old(credentials)
      ensures reply.Ok? ==> r == Ok(reply.value)
      ensures reply.Err? ==> r == Err(ModelError(model, reply.error))
    {
      Connect();
      if reply.Err? {
        return Err(ModelError(model, reply.error));
      }
      return Ok(reply.value);
    }

    /** `add_k8s_cloud` (wrapped by the `controller` decorator, so it first
      connects when no connection is open): `addCloudError` is the text of
      the error the controller raises on `add_cloud`, if any. An error
      saying the cloud "already exists" is tolerated; any other is raised
      and nothing else happens; otherwise the credential is always added
      to the cloud. */
    method AddK8sCloud(cloudName: string, credentialName: string, addCloudError: Option<string>) returns (r: Outcome<(), JujuError>)
      modifies this
      ensures connected && (connections == if old(connected) then old(connections) else old(connections) + 1)
      ensures r.Err? <==> addCloudError.Some? && !Contains(addCloudError.value, "already exists")
      ensures r.Err? ==> r.error == Raised(addCloudError.value) && clouds == old(clouds) && credentials == old(credentials)
      ensures r.Ok? ==> clouds == old(clouds) + (if addCloudError.None? then {cloudName} else {})
      ensures r.Ok? ==> credentials == old(credentials)[credentialName := cloudName]
    {
      Connect();
      if addCloudError.None? {
        clouds := clouds + {cloudName};
      } else if !Contains(addCloudError.value, "already exists") {
        return Err(Raised(addCloudError.value));
      }
      credentials := credentials[credentialName := cloudName];
      return Ok(());
    }
  }
}

=== FILE: log.dfy ===
/** Log-file retention (sunbeam/log.py, `prepare_logfile`): before a run
    opens its log, the oldest "<name>-*.log" files in the log directory are
    removed so that, with the new file, at most `MAX_LOG_FILES` remain.
    File names are compared as Python compares `str`: lexicographically by
    code point. */
module Log {
  import opened Strs

  const MAX_LOG_FILES: nat := 10

  /** The shell pattern "<name>-*.log": the literal prefix "<name>-", any
      middle part, and the literal suffix ".log", not overlapping. */
  predicate Matches(f: string, name: string) {
    |name| + 5 <= |f| && StartsWith(f, name + "-") && EndsWith(f, ".log")
  }

  /** The directory entries `path.glob("<name>-*.log")` reports. */
  function Glob(entries: set<string>, name: string): (g: set<string>)
    ensures g <= entries
    ensures forall f :: f in g <==> f in entries && Matches(f, name)
  {
    set f | f in entries && Matches(f, name)
  }

  /** The name of the new log file; the timestamp text is supplied by the
      caller. The new file is one the pattern matches, so the next run
      counts it. */
  function LogName(name: string, stamp: string): (f: string)
    ensures Matches(f, name)
    ensures StartsWith(f, name + "-") && |f| == |name| + |stamp| + 5
  {
    name + "-" + stamp + ".log"
  }

  // ----- Python's ordering of `str` -----

  /** `a < b` on Python strings. */
  predicate Below(a: string, b: string)
    decreases |a|
  {
    if |a| == 0 then 0 < |b|
    else if |b| == 0 then false
    else if a[0] != b[0] then a[0] < b[0]
    else Below(a[1..], b[1..])
  }

  lemma {:induction false} BelowIrreflexive(a: string)
    ensures !Below(a, a)
    decreases |a|
  {
    if 0 < |a| {
      BelowIrreflexive(a[1..]);
    }
  }

  lemma {:induction false} BelowTransitive(a: string, b: string, c: string)
    requires Below(a, b) && Below(b, c)
    ensures Below(a, c)
    decreases |a|
  {
    if 0 < |a| && a[0] == b[0] && b[0] == c[0] {
      BelowTransitive(a[1..], b[1..], c[1..]);
    }
  }

  lemma {:induction false} BelowTotal(a: string, b: string)
    ensures a == b || Below(a, b) || Below(b, a)
    decreases |a|
  {
    if 0 < |a| && 0 < |b| && a[0] == b[0] {
      BelowTotal(a[1..], b[1..]);
      if a[1..] == b[1..] {
        assert a == [a[0]] + a[1..] && b == [b[0]] + b[1..];
      }
    }
  }

  lemma {:induction false} BelowAsymmetric(a: string, b: string)
    requires Below(a, b)
    ensures !Below(b, a)
  {
    if Below(b, a) {
      BelowTransitive(a, b, a);
      BelowIrreflexive(a);
    }
  }

  // ----- `sorted()` -----

  predicate Ascending(s: seq<string>) {
    forall i, j :: 0 <= i < j < |s| ==> Below(s[i], s[j])
  }

  predicate Distinct(s: seq<string>) {
    forall i, j :: 0 <= i < j < |s| ==> s[i] != s[j]
  }

  function Elements(s: seq<string>): set<string> {
    set x | x in s
  }

  /** Places `x` among the ascending `s`. */
  function Insert(x: string, s: seq<string>): (r: seq<string>)
    requires Ascending(s) && x !in s
    ensures Ascending(r)
    ensures multiset(r) == multiset(s) + multiset{x}
  {
    if |s| == 0 then [x]
    else if Below(x, s[0]) then
      forall y | y in s
        ensures Below(x, y)
      {
        if y != s[0] { BelowTransitive(x, s[0], y); }
      }
      AscendingCons(x, s);
      [x] + s
    else
      var rest := Insert(x, s[1..]);
      forall y | y in rest
        ensures Below(s[0], y)
      {
        assert y in multiset(rest);
        if y == x {
          BelowTotal(x, s[0]);
        } else {
          assert y in multiset(s[1..]);
        }
      }
      AscendingCons(s[0], rest);
      assert s == [s[0]] + s[1..];
      [s[0]] + rest
  }

  lemma AscendingCons(h: string, t: seq<string>)
    requires Ascending(t)
    requires forall y :: y in t ==> Below(h, y)
    ensures Ascending([h] + t)
  {
    forall i, j | 0 <= i < j < |t| + 1
      ensures Below(([h] + t)[i], ([h] + t)[j])
    {
      assert ([h] + t)[j] == t[j - 1];
      if 0 < i { assert ([h] + t)[i] == t[i - 1]; }
    }
  }

  /** `sorted(files)` for files with distinct names. */
  function Sort(s: seq<string>): (r: seq<string>)
    requires Distinct(s)
    ensures Ascending(r)
    ensures multiset(r) == multiset(s)
  {
    if |s| == 0 then []
    else
      assert s == [s[0]] + s[1..];
      var rest := Sort(s[1..]);
      assert s[0] !in multiset(rest);
      Insert(s[0], rest)
  }

  lemma {:induction false} AscendingDistinct(s: seq<string>)
    requires Ascending(s)
    ensures Distinct(s)
  {
    forall i, j | 0 <= i < j < |s|
      ensures s[i] != s[j]
    {
      if s[i] == s[j] { BelowIrreflexive(s[i]); }
    }
  }

  lemma {:induction false} DistinctCount(s: seq<string>)
    requires Distinct(s)
    ensures |Elements(s)| == |s|
  {
    if 0 < |s| {
      var t := s[1..];
      DistinctCount(t);
      assert Elements(s) == {s[0]} + Elements(t);
      assert s[0] !in Elements(t);
    }
  }

  /** Lists the set's elements once each, in no particular order, as
      `path.glob` does. */
  method Enumerate(files: set<string>) returns (present: seq<string>)
    ensures Distinct(present) && Elements(present) == files && |present| == |files|
  {
    present := [];
    var rest := files;
    while rest != {}
      invariant Distinct(present)
      invariant Elements(present) !! rest && Elements(present) + rest == files
      decreases |rest|
    {
      var f :| f in rest;
      present := present + [f];
      rest := rest - {f};
    }
    DistinctCount(present);
  }

  /** Cutting an ascending sequence leaves every element of the front below
      every element of the back, and the back's elements are the whole's
      minus the front's. */
  lemma {:induction false} CutAscending(ordered: seq<string>, cut: nat)
    requires Ascending(ordered) && cut <= |ordered|
    ensures Distinct(ordered[..cut]) && Distinct(ordered[cut..])
    ensures Elements(ordered) - Elements(ordered[..cut]) == Elements(ordered[cut..])
    ensures forall d, k :: d in ordered[..cut] && k in ordered[cut..] ==> Below(d, k)
  {
    AscendingDistinct(ordered);
    var front, back := ordered[..cut], ordered[cut..];
    assert ordered == front + back;
    forall x | x in back
      ensures x !in front
    {
      var j :| 0 <= j < |back| && back[j] == x;
      assert ordered[cut + j] == x;
    }
    forall d, k | d in front && k in back
      ensures Below(d, k)
    {
      var i :| 0 <= i < cut && front[i] == d;
      var j :| 0 <= j < |back| && back[j] == k;
      assert ordered[i] == d && ordered[cut + j] == k;
    }
  }

  /** The oldest files to unlink: `sorted(files)[:-limit]` when there are
      more than `limit` of them, and none otherwise. */
  method SelectOld(files: set<string>, limit: nat) returns (stale: seq<string>)
    requires 0 < limit
    ensures Distinct(stale) && Elements(stale) <= files
    ensures |files| <= limit ==> stale == []
    ensures limit < |files| ==> |files - Elements(stale)| == limit
    ensures forall d, k :: d in stale && k in files - Elements(stale) ==> Below(d, k)
  {
    stale := [];
    var present := Enumerate(files);
    if |present| > limit {
      var ordered := Sort(present);
      assert Elements(ordered) == files by {
        forall x ensures x in ordered <==> x in present {
          assert x in ordered <==> x in multiset(ordered);
        }
      }
      var cut := |ordered| - limit;
      CutAscending(ordered, cut);
      stale := ordered[..cut];
      DistinctCount(ordered[cut..]);
    }
  }

  /** The log directory: its entry names and whether it has been made. */
  class LogDir {
    const path: string
    var made: bool
    var entries: set<string>

    constructor (path: string, made: bool, entries: set<string>)
      ensures this.path == path && this.made == made && this.entries == entries
    {
      this.path := path;
      this.made := made;
      this.entries := entries;
    }

    /** Unlinks each listed file, a missing one being no error. */
    method Unlink(files: seq<string>)
      modifies this
      ensures entries == old(entries) - Elements(files)
      ensures made == old(made)
    {
      var i := 0;
      while i < |files|
        invariant 0 <= i <= |files|
        invariant made == old(made)
        invariant entries == old(entries) - Elements(files[..i])
      {
        // `unlink(missing_ok=True)`
        entries := entries - {files[i]};
        assert Elements(files[..i + 1]) == Elements(files[..i]) + {files[i]} by {
          assert files[..i + 1] == files[..i] + [files[i]];
        }
        i := i + 1;
      }
      assert files[..i] == files;
    }

    /** `prepare_logfile(path, name)`: makes the directory, unlinks all but
        the `MAX_LOG_FILES - 1` newest matching files (by name order) and
        returns the path of the new log file. */
    method PrepareLogfile(name: string, stamp: string) returns (logfile: string)
      modifies this
      ensures made
      ensures logfile == path + "/" + LogName(name, stamp)
      // only matching files are removed
      ensures entries <= old(entries)
      ensures forall f :: f in old(entries) && !Matches(f, name) ==> f in entries
      // nothing goes while at most MAX_LOG_FILES - 1 match
      ensures |Glob(old(entries), name)| <= MAX_LOG_FILES - 1 ==> entries == old(entries)
      // otherwise exactly MAX_LOG_FILES - 1 remain, each newer than every removed one
      ensures MAX_LOG_FILES - 1 < |Glob(old(entries), name)| ==>
                |Glob(entries, name)| == MAX_LOG_FILES - 1
      ensures forall d, k :: d in old(entries) - entries && k in Glob(entries, name) ==> Below(d, k)
      ensures |Glob(entries, name)| <= MAX_LOG_FILES - 1
    {
      made := true;
      var limit := MAX_LOG_FILES - 1;
      var present := Glob(entries, name);
      var doomed := SelectOld(present, limit);
      Unlink(doomed);
      Retention(old(entries), name, doomed);
      logfile := path + "/" + LogName(name, stamp);
    }
  }

  /** What removing the stale files leaves behind. */
  lemma {:induction false} Retention(before: set<string>, name: string, stale: seq<string>)
    requires Elements(stale) <= Glob(before, name)
    requires |Glob(before, name)| <= MAX_LOG_FILES - 1 ==> stale == []
    requires MAX_LOG_FILES - 1 < |Glob(before, name)| ==>
               |Glob(before, name) - Elements(stale)| == MAX_LOG_FILES - 1
    requires forall d, k :: d in stale && k in Glob(before, name) - Elements(stale) ==> Below(d, k)
    ensures Glob(before - Elements(stale), name) == Glob(before, name) - Elements(stale)
    ensures |Glob(before - Elements(stale), name)| <= MAX_LOG_FILES - 1
    ensures forall d, k :: d in before - (before - Elements(stale)) && k in Glob(before - Elements(stale), name) ==> Below(d, k)
  {
    var after := before - Elements(stale);
    assert Glob(after, name) == Glob(before, name) - Elements(stale);
    if stale == [] {
      assert Elements(stale) == {};
    }
  }

  /** Once the new log is created, the matching files number at most
      `MAX_LOG_FILES`. */
  lemma {:induction false} RetentionBound(after: set<string>, name: string, stamp: string)
    requires |Glob(after, name)| <= MAX_LOG_FILES - 1
    ensures |Glob(after + {LogName(name, stamp)}, name)| <= MAX_LOG_FILES
  {
    assert Glob(after + {LogName(name, stamp)}, name) == Glob(after, name) + {LogName(name, stamp)};
  }
}

=== FILE: microk8s.dfy ===
/** The MicroK8s steps (sunbeam/commands/microk8s.py): the MetalLB range
    validator, and the skip and run decisions of the steps that deploy the
    application, add and remove units, store the kubeconfig and register
    the cloud with the controller.

    The cluster database is seen through two views: the lookup of a node's
    record (`Ok` with its `machineid`, or `Err` with the text of the
    node-not-found error) and the configuration store, a map from key to
    stored text. The Juju model is a `Juju.ModelView`. */
module Microk8s {
  import opened Wrappers
  import opened Strs
  import opened Common
  import Juju

  const MICROK8S_CLOUD := "sunbeam-microk8s"
  const APPLICATION := "microk8s"
  const CREDENTIAL_SUFFIX := "-creds"
  const MICROK8S_DEFAULT_STORAGECLASS := "microk8s-hostpath"
  const CONFIG_KEY := "Microk8sConfig"
  const MICROK8S_ADDONS_CONFIG_KEY := "TerraformVarsMicrok8sAddons"
  const DEFAULT_METALLB_RANGE := "10.20.21.10-10.20.21.20"

  const NOT_DEPLOYED := "MicroK8S has not been deployed"
  const NOT_DEPLOYED_YET := "MicroK8S has not been deployed yet"
  const NO_KUBECONFIG := "ERROR: Failed to retrieve kubeconfig"

  // ---------------------------------------------------------------------
  // validate_metallb_range

  /** Why a MetalLB range is refused. `ipaddress` is not modelled: whether a
      text parses as an address or a network is given by the predicates the
      validator receives, and their errors carry the offending text. */
  datatype RangeError =
    | NotCidr
    | BadNetwork(text: string)
    | BadAddress(text: string)
    | NotRange

  /** The verdict on one comma-separated entry: split on '-', one piece must
      be CIDR text ("/" in it, and a network), two pieces must both be
      addresses, and more pieces are refused. */
  function EntryError(entry: string, isAddress: string -> bool, isNetwork: string -> bool): Option<RangeError> {
    var ips := Split(entry, '-');
    if |ips| == 1 then
      if '/' !in ips[0] then Some(NotCidr)
      else if !isNetwork(ips[0]) then Some(BadNetwork(ips[0]))
      else None
    else if |ips| == 2 then
      if !isAddress(ips[0]) then Some(BadAddress(ips[0]))
      else if !isAddress(ips[1]) then Some(BadAddress(ips[1]))
      else None
    else Some(NotRange)
  }

  /** The index of the first refused entry from `i` on, `|entries|` if none is. */
  function FirstRefusedFrom(entries: seq<string>, i: nat, isAddress: string -> bool, isNetwork: string -> bool): (k: nat)
    requires i <= |entries|
    ensures i <= k <= |entries|
    ensures forall j :: i <= j < k ==> EntryError(entries[j], isAddress, isNetwork).None?
    ensures k < |entries| ==> EntryError(entries[k], isAddress, isNetwork).Some?
    decreases |entries| - i
  {
    if i == |entries| || EntryError(entries[i], isAddress, isNetwork).Some? then i
    else FirstRefusedFrom(entries, i + 1, isAddress, isNetwork)
  }

  /** The error of the first refused entry, if any. */
  function FirstRangeError(entries: seq<string>, isAddress: string -> bool, isNetwork: string -> bool): (e: Option<RangeError>)
    ensures e.None? <==> forall k :: 0 <= k < |entries| ==> EntryError(entries[k], isAddress, isNetwork).None?
    ensures e.Some? ==> exists k :: 0 <= k < |entries| && e == EntryError(entries[k], isAddress, isNetwork)
                                    && forall j :: 0 <= j < k ==> EntryError(entries[j], isAddress, isNetwork).None?
  {
    var k := FirstRefusedFrom(entries, 0, isAddress, isNetwork);
    if k < |entries| then EntryError(entries[k], isAddress, isNetwork) else None
  }

  /** `validate_metallb_range`: checks the comma-separated entries in order
      and raises at the first refused one. */
  method ValidateMetallbRange(ipRanges: string, isAddress: string -> bool, isNetwork: string -> bool)
    returns (r: Outcome<(), RangeError>)
    ensures r.Ok? <==> FirstRangeError(Split(ipRanges, ','), isAddress, isNetwork).None?
    ensures r.Err? ==> Some(r.error) == FirstRangeError(Split(ipRanges, ','), isAddress, isNetwork)
  {
    var entries := Split(ipRanges, ',');
    var i := 0;
    while i < |entries|
      invariant 0 <= i <= |entries|
      invariant FirstRefusedFrom(entries, 0, isAddress, isNetwork) == FirstRefusedFrom(entries, i, isAddress, isNetwork)
    {
      var e := EntryError(entries[i], isAddress, isNetwork);
      if e.Some? {
        return Err(e.value);
      }
      i := i + 1;
    }
    return Ok(());
  }

  /** A lone address is refused even when it is a valid address: an entry
      without '-' must be CIDR text. */
  lemma LoneAddressRefused(ip: string, isAddress: string -> bool, isNetwork: string -> bool)
    requires ',' !in ip && '-' !in ip && '/' !in ip
    ensures FirstRangeError(Split(ip, ','), isAddress, isNetwork) == Some(NotCidr)
  {
    SplitNoSep(ip, ',');
    SplitNoSep(ip, '-');
  }

  /** An entry with more than one '-' is refused whatever its pieces. */
  lemma TooManyDashesRefused(entry: string, isAddress: string -> bool, isNetwork: string -> bool)
    requires Count(entry, '-') >= 2
    ensures EntryError(entry, isAddress, isNetwork) == Some(NotRange)
  {
    SplitCount(entry, '-');
  }

  /** Two addresses around one '-' make an accepted entry. */
  lemma AddressRangeAccepted(a: string, b: string, isAddress: string -> bool, isNetwork: string -> bool)
    requires '-' !in a && '-' !in b && isAddress(a) && isAddress(b)
    ensures EntryError(a + "-" + b, isAddress, isNetwork).None?
  {
    assert a + "-" + b == Join([a, b], "-");
    SplitJoin([a, b], '-');
  }

  /** The default range offered by the prompt is an address range. */
  lemma DefaultRangeIsAddressRange()
    ensures Split(DEFAULT_METALLB_RANGE, '-') == ["10.20.21.10", "10.20.21.20"]
  {
    assert DEFAULT_METALLB_RANGE == Join(["10.20.21.10", "10.20.21.20"], "-");
    SplitJoin(["10.20.21.10", "10.20.21.20"], '-');
  }

  // ---------------------------------------------------------------------
  // Units on machines

  /** `str(node.get("machineid"))`. */
  function MachineIdText(machineId: Option<int>): string {
    if machineId.Some? then IntToString(machineId.value) else "None"
  }

  /** Some unit of the application runs on the machine. */
  predicate OnMachine(units: seq<Juju.Unit>, machineId: string) {
    exists k :: 0 <= k < |units| && units[k].machineId == machineId
  }

  /** The first unit of the application on the machine. */
  function FirstOnMachine(units: seq<Juju.Unit>, machineId: string): (k: nat)
    requires OnMachine(units, machineId)
    ensures k < |units| && units[k].machineId == machineId
    ensures forall j :: 0 <= j < k ==> units[j].machineId != machineId
  {
    if units[0].machineId == machineId then 0
    else
      assert OnMachine(units[1..], machineId) by {
        var k :| 0 <= k < |units| && units[k].machineId == machineId;
        assert units[1..][k - 1] == units[k];
      }
      FirstOnMachine(units[1..], machineId) + 1
  }

  /** `AddMicrok8sUnitStep`: the node it adds a unit for, and the machine
      `is_skip` found for it. */
  class AddMicrok8sUnitStep {
    const name: string
    var machineId: string

    constructor (name: string)
      ensures this.name == name && machineId == ""
    {
      this.name := name;
      machineId := "";
    }

    /** `is_skip`: fails when the node is not in the cluster or the
        application is not deployed; skips when a unit already runs on the
        node's machine; otherwise the unit is to be added. */
    method IsSkip(node: Outcome<Option<int>, string>, model: Juju.ModelView) returns (r: Result)
      modifies this
      ensures node.Ok? ==> machineId == MachineIdText(node.value)
      ensures node.Err? ==> machineId == old(machineId) && r == Result(FAILED, Some(node.error))
      ensures node.Ok? && APPLICATION !in model.applications ==> r == Result(FAILED, Some(NOT_DEPLOYED))
      ensures node.Ok? && APPLICATION in model.applications ==>
                r == NewResult(if OnMachine(model.applications[APPLICATION].units, machineId) then SKIPPED else COMPLETED)
    {
      if node.Err? {
        return Result(FAILED, Some(node.error));
      }
      machineId := MachineIdText(node.value);
      var app := Juju.GetApplication(model, APPLICATION, Juju.MODEL);
      if app.Err? {
        return Result(FAILED, Some(NOT_DEPLOYED));
      }
      var units := app.value.units;
      var k := 0;
      while k < |units|
        invariant 0 <= k <= |units|
        invariant forall j :: 0 <= j < k ==> units[j].machineId != machineId
      {
        if units[k].machineId == machineId {
          return NewResult(SKIPPED);
        }
        k := k + 1;
      }
      return NewResult(COMPLETED);
    }

    /** `run`: adds a unit on the machine `is_skip` found and waits for it;
        `error` is the text of the error adding or waiting raised, if any.
        Returns the machine the unit is requested on. */
    method Run(error: Option<string>) returns (r: Result, machine: string)
      ensures machine == machineId
      ensures r == if error.Some? then Result(FAILED, error) else NewResult(COMPLETED)
    {
      machine := machineId;
      r := if error.Some? then Result(FAILED, error) else NewResult(COMPLETED);
    }
  }

  /** `RemoveMicrok8sUnitStep`: the node whose unit it removes, and the
      unit `is_skip` found. */
  class RemoveMicrok8sUnitStep {
    const name: string
    var unit: Option<string>

    constructor (name: string)
      ensures this.name == name && unit.None?
    {
      this.name := name;
      unit := None;
    }

    /** `is_skip`: skips when the node is not in the cluster, when the
        application is not deployed, or when no unit runs on the node's
        machine; otherwise keeps the first unit on the machine and removes it. */
    method IsSkip(node: Outcome<Option<int>, string>, model: Juju.ModelView) returns (r: Result)
      modifies this
      ensures r.resultType != FAILED
      ensures r.resultType == COMPLETED <==>
                node.Ok? && APPLICATION in model.applications
                && OnMachine(model.applications[APPLICATION].units, MachineIdText(node.value))
      ensures r.resultType == COMPLETED ==>
                var units := model.applications[APPLICATION].units;
                unit == Some(units[FirstOnMachine(units, MachineIdText(node.value))].name)
      ensures r.resultType != COMPLETED ==> unit == old(unit)
      ensures node.Ok? && APPLICATION !in model.applications ==> r == Result(SKIPPED, Some(NOT_DEPLOYED_YET))
    {
      if node.Err? {
        return NewResult(SKIPPED);
      }
      var machineId := MachineIdText(node.value);
      var app := Juju.GetApplication(model, APPLICATION, Juju.MODEL);
      if app.Err? {
        return Result(SKIPPED, Some(NOT_DEPLOYED_YET));
      }
      var units := app.value.units;
      var k := 0;
      while k < |units|
        invariant 0 <= k <= |units|
        invariant forall j :: 0 <= j < k ==> units[j].machineId != machineId
      {
        if units[k].machineId == machineId {
          assert OnMachine(units, machineId);
          assert FirstOnMachine(units, machineId) == k;
          unit := Some(units[k].name);
          return NewResult(COMPLETED);
        }
        k := k + 1;
      }
      return NewResult(SKIPPED);
    }

    /** `run`: removes the unit by its `str` (the text "None" when `is_skip`
        kept none), then waits for the application; the removal's error,
        or else the wait's, fails the step. */
    method Run(removeError: Option<string>, waitError: Option<string>) returns (r: Result, removed: string)
      ensures removed == (if unit.Some? then unit.value else "None")
      ensures r.resultType == COMPLETED <==> removeError.None? && waitError.None?
      ensures removeError.Some? ==> r == Result(FAILED, removeError)
      ensures removeError.None? && waitError.Some? ==> r == Result(FAILED, waitError)
    {
      removed := if unit.Some? then unit.value else "None";
      r := TwoStages(removeError, waitError);
    }
  }

  // ---------------------------------------------------------------------
  // The kubeconfig and the cloud

  /** `StoreMicrok8sConfigStep.is_skip`: skips exactly when the kubeconfig
      is already stored. */
  function StoreConfigSkip(config: map<string, string>): (r: Result)
    ensures r.resultType == SKIPPED <==> CONFIG_KEY in config
    ensures r.resultType != FAILED
  {
    if CONFIG_KEY in config then NewResult(SKIPPED) else NewResult(COMPLETED)
  }

  /** `StoreMicrok8sConfigStep.run`: `action` is the result of the leader's
      `kubeconfig` action (its results, or the text of the error looking up
      the application or leader, or running the action, raised). An empty
      or missing "content" fails; otherwise the content is stored. */
  function StoreConfigRun(config: map<string, string>, action: Outcome<map<string, string>, string>): (r: (Result, map<string, string>))
    ensures action.Err? ==> r == (Result(FAILED, Some(action.error)), config)
    ensures action.Ok? && ("content" !in action.value || action.value["content"] == "") ==>
              r == (Result(FAILED, Some(NO_KUBECONFIG)), config)
    ensures action.Ok? && "content" in action.value && action.value["content"] != "" ==>
              r == (NewResult(COMPLETED), config[CONFIG_KEY := action.value["content"]])
    ensures r.0.resultType == COMPLETED ==> r.1 == config[CONFIG_KEY := action.value["content"]]
    ensures r.0.resultType != SKIPPED
  {
    if action.Err? then (Result(FAILED, Some(action.error)), config)
    else if "content" !in action.value || action.value["content"] == "" then (Result(FAILED, Some(NO_KUBECONFIG)), config)
    else (NewResult(COMPLETED), config[CONFIG_KEY := action.value["content"]])
  }

  /** Storing the kubeconfig is idempotent: once a run has stored it, the
      next plan skips the step. */
  lemma StoreConfigThenSkip(config: map<string, string>, action: Outcome<map<string, string>, string>)
    requires StoreConfigRun(config, action).0.resultType == COMPLETED
    ensures StoreConfigSkip(StoreConfigRun(config, action).1).resultType == SKIPPED
  {
  }

  /** `AddMicrok8sCloudStep`: registers the MicroK8s cloud, with its
      credential, with the controller. */
  class AddMicrok8sCloudStep {
    const name: string
    const credentialName: string

    constructor ()
      ensures name == MICROK8S_CLOUD && credentialName == MICROK8S_CLOUD + CREDENTIAL_SUFFIX
    {
      name := MICROK8S_CLOUD;
      credentialName := MICROK8S_CLOUD + CREDENTIAL_SUFFIX;
    }

    /** `is_skip`: skips exactly when the controller already has the cloud. */
    method IsSkip(jhelper: Juju.JujuHelper) returns (r: Result)
      modifies jhelper
      ensures jhelper.clouds == old(jhelper.clouds) && jhelper.credentials == old(jhelper.credentials)
      ensures r.resultType != FAILED
      ensures r.resultType == SKIPPED <==> name in jhelper.clouds
    {
      var tags := jhelper.GetClouds();
      if "cloud-" + name in tags {
        assert exists c :: c in jhelper.clouds && "cloud-" + name == "cloud-" + c;
        var c :| c in jhelper.clouds && "cloud-" + name == "cloud-" + c;
        assert name == ("cloud-" + name)[6..] == ("cloud-" + c)[6..] == c;
        return NewResult(SKIPPED);
      }
      return NewResult(COMPLETED);
    }

    /** `run`: reads the stored kubeconfig (a missing one fails the step)
        and adds the cloud, connecting to the controller first if needed;
        an error adding the cloud other than "already exists" is raised
        (`Err`). */
    method Run(config: map<string, string>, jhelper: Juju.JujuHelper, addCloudError: Option<string>, missingText: string)
      returns (r: Outcome<Result, Juju.JujuError>)
      modifies jhelper
      ensures CONFIG_KEY !in config ==> r == Ok(Result(FAILED, Some(missingText)))
                                        && jhelper.clouds == old(jhelper.clouds)
                                        && jhelper.credentials == old(jhelper.credentials)
      ensures CONFIG_KEY in config ==> jhelper.connected
      ensures CONFIG_KEY in config ==>
                (r.Err? <==> addCloudError.Some? && !Contains(addCloudError.value, "already exists"))
      ensures CONFIG_KEY in config && r.Err? ==>
                r.error == Juju.Raised(addCloudError.value)
                && jhelper.clouds == old(jhelper.clouds) && jhelper.credentials == old(jhelper.credentials)
      ensures CONFIG_KEY in config && r.Ok? ==> r.value == NewResult(COMPLETED)
      ensures r == Ok(NewResult(COMPLETED)) ==>
                jhelper.credentials == old(jhelper.credentials)[credentialName := name]
                && jhelper.clouds == old(jhelper.clouds) + (if addCloudError.None? then {name} else {})
    {
      if CONFIG_KEY !in config {
        return Ok(Result(FAILED, Some(missingText)));
      }
      var added := jhelper.AddK8sCloud(name, credentialName, addCloudError);
      if added.Err? {
        return Err(added.error);
      }
      return Ok(NewResult(COMPLETED));
    }
  }

  // ---------------------------------------------------------------------
  // Deploying the application

  /** `DeployMicrok8sApplicationStep`: the answers it writes for the addons. */
  class DeployMicrok8sApplicationStep {
    var variables: map<string, map<string, string>>

    constructor ()
      ensures variables == map[]
    {
      variables := map[];
    }

    /** `prompt`: starts from the stored answers, makes sure there is an
        "addons" section, leaves DNS and hostpath storage to MicroK8s (empty
        values) and sets "metallb" to the answer to the range question. */
    method Prompt(stored: map<string, map<string, string>>, metallb: string)
      modifies this
      ensures "addons" in variables && variables.Keys == stored.Keys + {"addons"}
      ensures forall k :: k in stored && k != "addons" ==> variables[k] == stored[k]
      ensures variables["addons"] == (if "addons" in stored then stored["addons"] else map[])["dns" := ""]["metallb" := metallb]["hostpath-storage" := ""]
      ensures variables["addons"]["dns"] == "" && variables["addons"]["hostpath-storage"] == ""
      ensures variables["addons"]["metallb"] == metallb
    {
      variables := stored;
      if "addons" !in variables {
        variables := variables["addons" := map[]];
      }
      variables := variables["addons" := variables["addons"]["dns" := ""]];
      variables := variables["addons" := variables["addons"]["metallb" := metallb]];
      variables := variables["addons" := variables["addons"]["hostpath-storage" := ""]];
    }
  }

  /** `DeployMicrok8sApplicationStep.run`: the machine ids handed to
      Terraform are those of the application's units, in order, or none
      when the application is not deployed; then the apply's error, or
      else the wait's, fails the step. Its skip check always lets it run. */
  method DeployRun(model: Juju.ModelView, applyError: Option<string>, waitError: Option<string>)
    returns (r: Result, machineIds: seq<string>)
    ensures APPLICATION !in model.applications ==> machineIds == []
    ensures APPLICATION in model.applications ==>
              var units := model.applications[APPLICATION].units;
              |machineIds| == |units| && forall k :: 0 <= k < |units| ==> machineIds[k] == units[k].machineId
    ensures r.resultType == COMPLETED <==> applyError.None? && waitError.None?
    ensures applyError.Some? ==> r == Result(FAILED, applyError)
    ensures applyError.None? && waitError.Some? ==> r == Result(FAILED, waitError)
  {
    machineIds := [];
    var app := Juju.GetApplication(model, APPLICATION, Juju.MODEL);
    if app.Ok? {
      var units := app.value.units;
      var k := 0;
      while k < |units|
        invariant 0 <= k <= |units|
        invariant |machineIds| == k && forall j :: 0 <= j < k ==> machineIds[j] == units[j].machineId
      {
        machineIds := machineIds + [units[k].machineId];
        k := k + 1;
      }
    }
    r := TwoStages(applyError, waitError);
  }
}

=== FILE: node.dfy ===
/** `sunbeam node add`, `sunbeam node join` and `sunbeam node remove`
    (sunbeam/commands/node.py): the pre-flight checks each command runs,
    the plans it builds from the node's name and roles, and what it takes
    from one plan's results into the next (the Juju user's token for
    `add`, the Juju machine id for `join`).

    The host's FQDN, default-route address and hypervisor hostname are
    inputs; the console output is reduced to what `add` reports. */
module Node {
  import opened Wrappers
  import opened Strs
  import opened Common
  import opened Checks
  import opened Engine
  import opened Workflows
  import Juju
  import OpenStack

  /** `remove_trailing_dot`: `value.rstrip(".")`. */
  function RemoveTrailingDot(value: string): (r: string)
    ensures |r| <= |value| && r == value[..|r|]
    ensures |r| == 0 || r[|r| - 1] != '.'
    ensures forall k :: |r| <= k < |value| ==> value[k] == '.'
  {
    RStrip(value, '.')
  }

  /** Removing the trailing dots twice removes nothing more. */
  lemma RemoveTrailingDotIdempotent(value: string)
    ensures RemoveTrailingDot(RemoveTrailingDot(value)) == RemoveTrailingDot(value)
  {
  }

  /** A name with a trailing dot (the absolute form of an FQDN) and the
      name without it give the same node name. */
  lemma {:induction false} AbsoluteNameSameNode(name: string)
    ensures RemoveTrailingDot(name + ".") == RemoveTrailingDot(name)
  {
    assert (name + ".")[..|name|] == name;
  }

  // ---------------------------------------------------------------------
  // node add

  /** The checks of `add`: the daemon group, then the FQDN as typed. */
  function AddChecks(rawName: string): seq<CheckKind> {
    [DaemonGroupCheck, VerifyFQDNCheck(rawName)]
  }

  /** Plan 1 of `add`: record the node and its token, create its Juju user,
      grant it access to the OpenStack model. */
  function AddPlan1(name: string): seq<StepCall> {
    [ClusterAddNodeStep(name), CreateJujuUserStep(name), JujuGrantModelAccessStep(name, OpenStack.OPENSTACK_MODEL)]
  }

  /** Plan 2 of `add`: store the Juju user with its registration token. */
  function AddPlan2(name: string, userToken: Option<string>): seq<StepCall> {
    [ClusterAddJujuUserStep(name, userToken)]
  }

  /** The user token plan 2 of `add` receives: `CreateJujuUserStep`'s
      message in plan 1's results. */
  function AddToken<S>(w: Workflow<S>): Option<string> {
    if |w.runs| < 1 then None else GetStepMessage(w.runs[0].results, "CreateJujuUserStep")
  }

  /** Once plan 1 of `add` completed, the token plan 2 gets is the message
      the Juju user step left. */
  lemma AddTokenIsCreatedUserMessage<S>(name: string, behave: StepCall -> Behaviour<S>, st: S)
    requires Run(Steps(AddPlan1(name), behave), st).status.PlanCompleted?
    ensures |Run(Steps(AddPlan1(name), behave), st).records| == 3
    ensures Entry(Run(Steps(AddPlan1(name), behave), st).records[1]).Some?
    ensures GetStepMessage(Run(Steps(AddPlan1(name), behave), st).results, "CreateJujuUserStep")
            == Entry(Run(Steps(AddPlan1(name), behave), st).records[1]).value.message
  {
    OnlyStepMessage(AddPlan1(name), behave, st, 1);
  }

  /** What `add` shows at the end. */
  datatype AddReport =
    | ShowToken(token: Option<string>)
    | AlreadyMember
    | NoReport

  /** `add`'s closing report from the `ClusterAddNodeStep` entry: a run
      step shows its message (the join token), a skipped one shows its
      message when that is non-empty and otherwise says the node is
      already a member. */
  function Report(added: Result): (report: AddReport)
    ensures added.resultType == COMPLETED ==> report == ShowToken(added.message)
    ensures added.resultType == SKIPPED ==>
              (report.ShowToken? <==> added.message.Some? && added.message.value != "")
    ensures added.resultType == SKIPPED && report.ShowToken? ==> report.token == added.message
    ensures added.resultType == SKIPPED && !report.ShowToken? ==> report == AlreadyMember
    ensures added.resultType == FAILED ==> report == NoReport
  {
    match added.resultType
    case COMPLETED => ShowToken(added.message)
    case SKIPPED =>
      if added.message.Some? && added.message.value != "" then ShowToken(added.message) else AlreadyMember
    case FAILED => NoReport
  }

  /** `add`: the checks on the name as typed, then the plans. */
  method RunAdd<S>(rawName: string, facts: HostFacts, behave: StepCall -> Behaviour<S>, st: S)
    returns (w: Workflow<S>, report: AddReport)
    ensures w.end.PreflightFailed? <==> FirstFailure(AddChecks(rawName), facts).CheckFailed?
    ensures w.end.PreflightFailed? ==>
              w.end.message == FirstFailure(AddChecks(rawName), facts).message && w.plans == [] && w.state == st
              && report == NoReport
    ensures !w.end.PreflightFailed? ==> AddedAsPlanned(w, report, RemoveTrailingDot(rawName), behave, st)
  {
    var outcome := Preflight(AddChecks(rawName), facts);
    if outcome.CheckFailed? {
      return Workflow(PreflightFailed(outcome.message), [], [], st), NoReport;
    }
    var name := RemoveTrailingDot(rawName);
    w, report := RunAddPlans(name, behave, st);
  }

  /** The plans of an `add` past its checks, on the name without its
      trailing dots: plan 1, then plan 2 with the token plan 1 created;
      once both completed, the report comes from plan 1's add-node entry. */
  ghost predicate AddedAsPlanned<S>(w: Workflow<S>, report: AddReport, name: string, behave: StepCall -> Behaviour<S>, st: S) {
    && Threaded(w, behave, st)
    && 1 <= |w.plans| <= 2
    && w.plans[0] == AddPlan1(name)
    && (|w.plans| == 2 ==> w.plans[1] == AddPlan2(name, AddToken(w)))
    && (w.end.Finished? || w.end.PlanFailed?)
    && (w.end.Finished? ==> |w.plans| == 2 && "ClusterAddNodeStep" in w.runs[0].results)
    && report == if w.end.Finished? then Report(w.runs[0].results["ClusterAddNodeStep"]) else NoReport
  }

  method RunAddPlans<S>(name: string, behave: StepCall -> Behaviour<S>, st: S) returns (w: Workflow<S>, report: AddReport)
    ensures AddedAsPlanned(w, report, name, behave, st)
  {
    StartThreaded(behave, st);
    w := RunNext(Start(st), AddPlan1(name), behave, st);
    var userToken := GetStepMessage(w.runs[0].results, "CreateJujuUserStep");
    ghost var w1 := w;
    w := RunIfFinished(w, AddPlan2(name, userToken), behave, st);
    assert w.runs[0] == w1.runs[0];
    report := NoReport;
    if w.end.Finished? {
      assert w1.end.Finished?;
      CompletedPlanHasEveryEntry(AddPlan1(name), behave, st, 0);
      report := Report(w.runs[0].results["ClusterAddNodeStep"]);
    }
  }

  // ---------------------------------------------------------------------
  // node join

  /** The command's inputs: the join token, the validated roles,
      `--accept-defaults`, and what it reads from the host (its FQDN, the
      address of its default route, the hypervisor hostname). */
  datatype JoinArgs = JoinArgs(
    token: Option<string>,
    roles: seq<Role>,
    acceptDefaults: bool,
    fqdn: string,
    ip: string,
    hypervisorHostname: string)

  /** The checks of `join`: five for every node, then the hypervisor
      hostname check for a compute node. */
  function JoinChecks(args: JoinArgs): seq<CheckKind> {
    [SystemRequirementsCheck, JujuSnapCheck, SshKeysConnectedCheck, DaemonGroupCheck, LocalShareCheck]
    + (if AnyCompute(args.roles) then [VerifyHypervisorHostnameCheck(args.fqdn, args.hypervisorHostname)] else [])
  }

  /** The check list as `join` builds it, by appending. */
  method BuildJoinChecks(args: JoinArgs) returns (checks: seq<CheckKind>)
    ensures checks == JoinChecks(args)
  {
    checks := [];
    checks := checks + [SystemRequirementsCheck];
    checks := checks + [JujuSnapCheck];
    checks := checks + [SshKeysConnectedCheck];
    checks := checks + [DaemonGroupCheck];
    checks := checks + [LocalShareCheck];
    if AnyCompute(args.roles) {
      checks := checks + [VerifyHypervisorHostnameCheck(args.fqdn, args.hypervisorHostname)];
    }
  }

  /** The hypervisor hostname is checked exactly for a compute node, and
      always after the five checks every node runs. */
  lemma JoinChecksGating(args: JoinArgs)
    ensures |JoinChecks(args)| == (if AnyCompute(args.roles) then 6 else 5)
    ensures JoinChecks(args)[..5] == [SystemRequirementsCheck, JujuSnapCheck, SshKeysConnectedCheck, DaemonGroupCheck, LocalShareCheck]
    ensures (exists k :: 0 <= k < |JoinChecks(args)| && JoinChecks(args)[k].VerifyHypervisorHostnameCheck?) <==> AnyCompute(args.roles)
  {
    var checks := JoinChecks(args);
    if AnyCompute(args.roles) {
      assert checks[5].VerifyHypervisorHostnameCheck?;
    }
  }

  /** Plan 1 of `join`: log in, join the cluster with the token and role
      names, save and register the node's Juju user, add the Juju machine. */
  function JoinPlan1(args: JoinArgs): seq<StepCall> {
    [JujuLoginStep, ClusterJoinNodeStep(args.token, RolesToStrList(args.roles)),
     SaveJujuUserLocallyStep(args.fqdn), RegisterJujuUserStep(args.fqdn, Juju.CONTROLLER, false),
     AddJujuMachineStep(args.ip)]
  }

  /** Plan 2 of `join`: record the machine id, add the sunbeam-machine
      unit, then the microk8s unit for a control node, the microceph unit
      and OSDs for a storage node, and the hypervisor plan, application,
      unit and local options for a compute node. */
  function JoinPlan2(args: JoinArgs, machineId: int): seq<StepCall> {
    [ClusterUpdateNodeStep(args.fqdn, machineId), AddSunbeamMachineUnitStep(args.fqdn)]
    + (if AnyControl(args.roles) then [AddMicrok8sUnitStep(args.fqdn)] else [])
    + (if AnyStorage(args.roles) then [AddMicrocephUnitStep(args.fqdn), ConfigureMicrocephOSDStep(args.fqdn, args.acceptDefaults)] else [])
    + (if AnyCompute(args.roles)
       then [TerraformInitStep("hypervisor-plan"), DeployHypervisorApplicationStep,
             AddHypervisorUnitStep(args.fqdn), SetLocalHypervisorOptions(args.fqdn, true)]
       else [])
  }

  /** Plan 2 as `join` builds it, by appending. */
  method BuildJoinPlan2(args: JoinArgs, machineId: int) returns (plan: seq<StepCall>)
    ensures plan == JoinPlan2(args, machineId)
  {
    plan := [];
    plan := plan + [ClusterUpdateNodeStep(args.fqdn, machineId)];
    plan := plan + [AddSunbeamMachineUnitStep(args.fqdn)];
    if AnyControl(args.roles) {
      plan := plan + [AddMicrok8sUnitStep(args.fqdn)];
    }
    if AnyStorage(args.roles) {
      plan := plan + [AddMicrocephUnitStep(args.fqdn)];
      plan := plan + [ConfigureMicrocephOSDStep(args.fqdn, args.acceptDefaults)];
    }
    if AnyCompute(args.roles) {
      plan := plan + [TerraformInitStep("hypervisor-plan"), DeployHypervisorApplicationStep,
                      AddHypervisorUnitStep(args.fqdn), SetLocalHypervisorOptions(args.fqdn, true)];
    }
  }

  /** Plan 2 of `join` always starts by recording the machine and adding
      the sunbeam-machine unit; each role's steps are there exactly when
      the node has that role. */
  lemma JoinPlan2Gating(args: JoinArgs, machineId: int)
    ensures |JoinPlan2(args, machineId)| >= 2
    ensures JoinPlan2(args, machineId)[..2] == [ClusterUpdateNodeStep(args.fqdn, machineId), AddSunbeamMachineUnitStep(args.fqdn)]
    ensures AddMicrok8sUnitStep(args.fqdn) in JoinPlan2(args, machineId) <==> AnyControl(args.roles)
    ensures AddMicrocephUnitStep(args.fqdn) in JoinPlan2(args, machineId) <==> AnyStorage(args.roles)
    ensures ConfigureMicrocephOSDStep(args.fqdn, args.acceptDefaults) in JoinPlan2(args, machineId) <==> AnyStorage(args.roles)
    ensures DeployHypervisorApplicationStep in JoinPlan2(args, machineId) <==> AnyCompute(args.roles)
    ensures SetLocalHypervisorOptions(args.fqdn, true) in JoinPlan2(args, machineId) <==> AnyCompute(args.roles)
    ensures |JoinPlan2(args, machineId)| == 2 + (if AnyControl(args.roles) then 1 else 0)
                                              + (if AnyStorage(args.roles) then 2 else 0)
                                              + (if AnyCompute(args.roles) then 4 else 0)
  {
  }

  /** The machine id `join` records: -1 when `AddJujuMachineStep` left no
      message, otherwise the message read as a decimal integer (`int()`
      skips surrounding whitespace, and raises on anything else: `Err`). */
  function MachineId(message: Option<string>): (r: Outcome<int, string>)
    ensures message.None? ==> r == Ok(-1)
    ensures message.Some? ==> (r.Ok? <==> ParseInt(Strip(message.value)).Some?)
    ensures message.Some? && r.Ok? ==> Some(r.value) == ParseInt(Strip(message.value))
    ensures message.Some? && r.Err? ==> r.error == "invalid literal for int() with base 10: " + Repr(message.value)
  {
    if message.None? then Ok(-1)
    else
      var parsed := ParseInt(Strip(message.value));
      if parsed.Some? then Ok(parsed.value)
      else Err("invalid literal for int() with base 10: " + Repr(message.value))
  }

  /** The machine id a step reports as text is the one `join` records. */
  lemma {:induction false} MachineIdOfText(id: int)
    ensures MachineId(Some(IntToString(id))) == Ok(id)
  {
    var text := IntToString(id);
    assert 0 < |text| && !IsSpace(text[0]) && !IsSpace(text[|text| - 1]) by {
      if id < 0 {
        assert text[1..] == NatToString(-id);
        assert IsDigit(text[|text| - 1]);
      } else {
        assert IsDigit(text[0]) && IsDigit(text[|text| - 1]);
      }
    }
    assert StripLeft(text) == text;
    assert Strip(text) == text;
    ParseIntToString(id);
  }

  /** The message plan 1 of `join` left for `AddJujuMachineStep`. */
  function JoinMachineMessage<S>(w: Workflow<S>): Option<string> {
    if |w.runs| < 1 then None else GetStepMessage(w.runs[0].results, "AddJujuMachineStep")
  }

  /** `join`: the checks, the Terraform directories, plan 1, the machine id
      read from its results, then plan 2 with that id. */
  method RunJoin<S>(args: JoinArgs, facts: HostFacts, behave: StepCall -> Behaviour<S>, st: S)
    returns (w: Workflow<S>)
    ensures w.end.PreflightFailed? <==> FirstFailure(JoinChecks(args), facts).CheckFailed?
    ensures w.end.PreflightFailed? ==>
              w.end.message == FirstFailure(JoinChecks(args), facts).message && w.plans == [] && w.state == st
    ensures !w.end.PreflightFailed? ==> JoinedAsPlanned(w, args, behave, st)
  {
    var checks := BuildJoinChecks(args);
    var outcome := Preflight(checks, facts);
    if outcome.CheckFailed? {
      return Workflow(PreflightFailed(outcome.message), [], [], st);
    }
    // The Terraform plan directories copied into the snap's user data; the
    // copies themselves (`copytree`) are file I/O and are not modelled.
    var dirs := TfplanDirs(args.roles);
    w := RunJoinPlans(args, behave, st);
  }

  /** The plans of a `join` past its checks: plan 1 always; the command
      stops with an error exactly when plan 1 completed and its machine
      id is not an integer; plan 2 runs, with the machine id read from
      plan 1, exactly when plan 1 completed and the id is an integer. */
  ghost predicate JoinedAsPlanned<S>(w: Workflow<S>, args: JoinArgs, behave: StepCall -> Behaviour<S>, st: S) {
    && Threaded(w, behave, st)
    && 1 <= |w.plans| <= 2
    && w.plans[0] == JoinPlan1(args)
    && (w.end.Crashed? <==> |w.plans| == 1 && w.runs[0].status.PlanCompleted? && MachineId(JoinMachineMessage(w)).Err?)
    && (|w.plans| == 2 <==> w.runs[0].status.PlanCompleted? && MachineId(JoinMachineMessage(w)).Ok?)
    && (|w.plans| == 2 ==> w.plans[1] == JoinPlan2(args, MachineId(JoinMachineMessage(w)).value))
    && (w.end.Finished? ==> |w.plans| == 2)
    && !w.end.PreflightFailed?
  }

  method RunJoinPlans<S>(args: JoinArgs, behave: StepCall -> Behaviour<S>, st: S) returns (w: Workflow<S>)
    ensures JoinedAsPlanned(w, args, behave, st)
  {
    StartThreaded(behave, st);
    w := RunNext(Start(st), JoinPlan1(args), behave, st);
    if !w.end.Finished? {
      return;
    }
    var machineId := MachineId(GetStepMessage(w.runs[0].results, "AddJujuMachineStep"));
    if machineId.Err? {
      return Workflow(Crashed(machineId.error), w.plans, w.runs, w.state);
    }
    w := RunJoinPlan2(args, w, machineId.value, behave, st);
  }

  /** Plan 2, once plan 1 completed and recorded the integer machine id `id`. */
  method RunJoinPlan2<S>(args: JoinArgs, w1: Workflow<S>, id: int, behave: StepCall -> Behaviour<S>, ghost st: S) returns (w: Workflow<S>)
    requires Threaded(w1, behave, st) && w1.end.Finished?
    requires |w1.plans| == 1 && w1.plans[0] == JoinPlan1(args) && w1.runs[0].status.PlanCompleted?
    requires MachineId(JoinMachineMessage(w1)) == Ok(id)
    ensures JoinedAsPlanned(w, args, behave, st)
  {
    var plan2 := BuildJoinPlan2(args, id);
    w := RunNext(w1, plan2, behave, st);
    assert w.runs[0] == w1.runs[0] && w.plans[0] == w1.plans[0];
    assert JoinMachineMessage(w) == JoinMachineMessage(w1);
  }

  // ---------------------------------------------------------------------
  // node remove

  const REMOVE_CHECKS: seq<CheckKind> := [DaemonGroupCheck]

  /** The plan of `remove`: the microk8s unit, the microceph unit, the Juju
      machine, then the cluster member (the Juju user is kept, as its name
      cannot be reused). */
  function RemovePlan(name: string): seq<StepCall> {
    [RemoveMicrok8sUnitStep(name), RemoveMicrocephUnitStep(name), RemoveJujuMachineStep(name), ClusterRemoveNodeStep(name)]
  }

  /** `remove`: the daemon-group check, then its one plan. */
  method RunRemove<S>(name: string, facts: HostFacts, behave: StepCall -> Behaviour<S>, st: S)
    returns (w: Workflow<S>)
    ensures w.end.PreflightFailed? <==> FirstFailure(REMOVE_CHECKS, facts).CheckFailed?
    ensures w.end.PreflightFailed? ==>
              w.end.message == FirstFailure(REMOVE_CHECKS, facts).message && w.plans == [] && w.state == st
    ensures !w.end.PreflightFailed? ==>
              Threaded(w, behave, st) && w.plans == [RemovePlan(name)]
              && (w.end.Finished? <==> w.runs[0].status.PlanCompleted?)
              && (w.end.Finished? || w.end.PlanFailed?)
  {
    var outcome := Preflight(REMOVE_CHECKS, facts);
    if outcome.CheckFailed? {
      return Workflow(PreflightFailed(outcome.message), [], [], st);
    }
    StartThreaded(behave, st);
    w := RunNext(Start(st), RemovePlan(name), behave, st);
  }
}

=== FILE: openstack.dfy ===
/** The OpenStack control plane (sunbeam/commands/openstack.py): the
    topology a deployment is sized for, the scales derived from it, the
    rule that keeps the database topology fixed once deployed, the rule
    that refuses a resize the database cannot follow, and the patching of
    the load-balancer services with the MetalLB annotation.

    The host's memory is an input (`hostRamKb`); the cluster database is
    seen through the node names per role and through the stored topology
    record, a map of text values; Terraform and Juju are left out. */
module OpenStack {
  import opened Wrappers
  import opened Strs
  import opened JsonValue
  import opened Common
  import Juju
  import Microk8s

  const OPENSTACK_MODEL := "openstack"
  const OPENSTACK_DEPLOY_TIMEOUT := 3600
  const METALLB_ANNOTATION := "metallb.universe.tf/loadBalancerIPs"
  const CONFIG_KEY := "TerraformVarsOpenstack"
  const TOPOLOGY_KEY := "Topology"

  const DATABASE_CHANGED := "Database topology cannot be changed, please destroy and re-bootstrap"
  const RESIZE_REFUSED := "Cannot resize control plane to large with single database, use -f/--force to override"
  const NO_MICROK8S_CONFIG := "MicroK8S config not found"

  // ---------------------------------------------------------------------
  // Topology and scales

  /** `determine_target_topology_at_bootstrap`: a host with less than
      32 GiB of memory is a single-node deployment, any other a multi-node
      one (the threshold in the code is 32 GiB, not the 20 GiB its
      documentation names). */
  function TopologyAtBootstrap(hostRamKb: int): (t: string)
    ensures t == "single" <==> hostRamKb < RAM_32_GB_IN_KB
    ensures t == "single" || t == "multi"
  {
    if hostRamKb < RAM_32_GB_IN_KB then "single" else "multi"
  }

  /** The distinct names among the control and compute nodes. */
  function Combined(controlNames: seq<string>, computeNames: seq<string>): set<string> {
    set n | n in controlNames + computeNames
  }

  /** `determine_target_topology`: one distinct node on a host under
      32 GiB is "single"; otherwise fewer than ten distinct nodes (none
      included) is "multi", and ten or more is "large". */
  function TargetTopology(controlNames: seq<string>, computeNames: seq<string>, hostRamKb: int): (t: string)
    ensures var n := |Combined(controlNames, computeNames)|;
            && (t == "single" <==> n == 1 && hostRamKb < RAM_32_GB_IN_KB)
            && (t == "multi" <==> !(n == 1 && hostRamKb < RAM_32_GB_IN_KB) && n < 10)
            && (t == "large" <==> n >= 10)
  {
    var combined := Combined(controlNames, computeNames);
    if |combined| == 1 && hostRamKb < RAM_32_GB_IN_KB then "single"
    else if |combined| < 10 then "multi"
    else "large"
  }

  /** A node listed under both roles counts once. */
  lemma {:induction false} NodeInBothRolesCountsOnce(name: string, hostRamKb: int)
    requires hostRamKb < RAM_32_GB_IN_KB
    ensures TargetTopology([name], [name], hostRamKb) == "single"
  {
    assert Combined([name], [name]) == {name} by {
      assert [name] + [name] == [name, name];
    }
  }

  /** An empty cluster is sized as "multi". */
  lemma {:induction false} NoNodesIsMulti(hostRamKb: int)
    ensures TargetTopology([], [], hostRamKb) == "multi"
  {
    var none: seq<string> := [];
    assert none + none == [];
    assert Combined([], []) == {};
  }

  /** `compute_ha_scale`. */
  function HaScale(topology: string): (n: int)
    ensures n == (if topology == "single" then 1 else 3)
  {
    if topology == "single" then 1 else 3
  }

  /** `compute_os_api_scale`: `Err` where the code raises ValueError for a
      topology it does not know. */
  function OsApiScale(topology: string, controlNodes: int): (r: Outcome<int, string>)
    ensures r.Err? <==> topology != "single" && topology != "multi" && topology != "large"
    ensures r.Err? ==> r.error == "Unknown topology " + topology
    ensures topology == "single" ==> r == Ok(1)
    // the least of the two: no more than either, and one of them
    ensures topology == "multi" ==>
              r.Ok? && r.value <= 3 && r.value <= controlNodes && (r.value == 3 || r.value == controlNodes)
    ensures topology == "large" ==>
              r.Ok? && r.value <= 7 && r.value <= controlNodes + 2 && (r.value == 7 || r.value == controlNodes + 2)
  {
    if topology == "single" then Ok(1)
    else if topology == "multi" then Ok(Min(controlNodes, 3))
    else if topology == "large" then Ok(Min(controlNodes + 2, 7))
    else Err("Unknown topology " + topology)
  }

  function Min(a: int, b: int): int {
    if a <= b then a else b
  }

  /** With at least one control node the API services run between one and
      seven units. */
  lemma OsApiScaleBounds(topology: string, controlNodes: int)
    requires controlNodes >= 1 && OsApiScale(topology, controlNodes).Ok?
    ensures 1 <= OsApiScale(topology, controlNodes).value <= 7
  {
  }

  /** Adding control nodes never shrinks the API services, and from three
      control nodes on ("multi") or five ("large") the scale is capped. */
  lemma OsApiScaleMonotone(topology: string, fewer: int, more: int)
    requires fewer <= more && OsApiScale(topology, fewer).Ok?
    ensures OsApiScale(topology, more).Ok?
    ensures OsApiScale(topology, fewer).value <= OsApiScale(topology, more).value
    ensures topology == "multi" && 3 <= fewer ==> OsApiScale(topology, fewer).value == 3
    ensures topology == "large" && 5 <= fewer ==> OsApiScale(topology, fewer).value == 7
  {
  }

  /** `compute_ingress_scale`: one for a single node, otherwise one per
      control node. */
  function IngressScale(topology: string, controlNodes: int): (n: int)
    ensures topology == "single" ==> n == 1
    ensures topology != "single" ==> n == controlNodes
  {
    if topology == "single" then 1 else controlNodes
  }

  /** `compute_ceph_replica_scale`: one replica for a single node or with
      fewer than two storage nodes, otherwise as many as there are storage
      nodes, at most three. */
  function CephReplicaScale(topology: string, storageNodes: int): (n: int)
    ensures 1 <= n <= 3
    ensures n == 1 <==> topology == "single" || storageNodes < 2
    ensures topology != "single" && 2 <= storageNodes ==> n <= storageNodes && (n == 3 || n == storageNodes)
  {
    if topology == "single" || storageNodes < 2 then 1 else Min(storageNodes, 3)
  }

  /** Adding storage nodes never lowers the replica count, which is three
      from three storage nodes on outside "single". */
  lemma CephReplicaScaleMonotone(topology: string, fewer: int, more: int)
    requires fewer <= more
    ensures CephReplicaScale(topology, fewer) <= CephReplicaScale(topology, more)
    ensures topology != "single" && 3 <= fewer ==> CephReplicaScale(topology, fewer) == 3
  {
  }

  // ---------------------------------------------------------------------
  // Deploying the control plane

  /** A setting of the command: "auto" takes the stored value, or else the
      detected one; any other value is kept. */
  function Resolve(requested: string, stored: map<string, string>, key: string, detected: string): (v: string)
    ensures requested != "auto" ==> v == requested
    ensures requested == "auto" && key in stored ==> v == stored[key]
    ensures requested == "auto" && key !in stored ==> v == detected
  {
    if requested != "auto" then requested
    else if key in stored then stored[key]
    else detected
  }

  /** The stored record names a (non-empty) database topology other than
      the one asked for. */
  predicate DatabaseConflict(stored: map<string, string>, database: string) {
    "database" in stored && stored["database"] != "" && stored["database"] != database
  }

  /** `DeployControlPlaneStep`: the topology and database it deploys with;
      `is_skip` replaces "auto" by what it resolves. */
  class DeployControlPlaneStep {
    var topology: string
    var database: string

    constructor (topology: string, database: string)
      ensures this.topology == topology && this.database == database
    {
      this.topology := topology;
      this.database := database;
    }

    /** `is_skip`: `previous` is the stored topology record (`None` when it
        was never stored); never skips, and fails exactly when the stored
        database topology differs from the one the step would deploy. */
    method IsSkip(previous: Option<map<string, string>>, hostRamKb: int) returns (r: Result)
      modifies this
      ensures var stored := if previous.Some? then previous.value else map[];
              && topology == Resolve(old(topology), stored, "topology", TopologyAtBootstrap(hostRamKb))
              && database == Resolve(old(database), stored, "database", TopologyAtBootstrap(hostRamKb))
              && (r.resultType == FAILED <==> DatabaseConflict(stored, database))
      ensures r.resultType != SKIPPED
      ensures r.resultType == FAILED ==> r.message == Some(DATABASE_CHANGED)
    {
      var stored := if previous.Some? then previous.value else map[];
      var detected := TopologyAtBootstrap(hostRamKb);
      if topology == "auto" {
        topology := if "topology" in stored then stored["topology"] else detected;
      }
      if database == "auto" {
        database := if "database" in stored then stored["database"] else detected;
      }
      if "database" in stored && stored["database"] != "" && stored["database"] != database {
        return Result(FAILED, Some(DATABASE_CHANGED));
      }
      return NewResult(COMPLETED);
    }

    /** `run`: stores the topology record and the Terraform variables and
        applies them; once applied, waits for the model's applications
        (`apps`), cinder-ceph left out when Ceph is not enabled. The apply's
        error, or else the wait's, fails the step. Returns the stored
        record, the variables and the applications waited for. */
    method Run(storageNodes: seq<string>, microcephApplication: string, applyError: Option<string>,
               apps: seq<string>, waitError: Option<string>)
      returns (r: Result, record: map<string, string>, tfvars: map<string, Json>, waited: seq<string>)
      ensures record.Keys == {"topology", "database"} && record["topology"] == topology && record["database"] == database
      ensures tfvars == DeployTfvars(database, storageNodes, microcephApplication)
      ensures applyError.Some? ==> waited == [] && r == Result(FAILED, applyError)
      ensures applyError.None? ==> waited == AppsToWaitFor(apps, |storageNodes| > 0)
      ensures r.resultType == COMPLETED <==> applyError.None? && waitError.None?
      ensures applyError.None? && waitError.Some? ==> r == Result(FAILED, waitError)
    {
      record := map["topology" := topology, "database" := database];
      tfvars := DeployTfvars(database, storageNodes, microcephApplication);
      waited := [];
      if applyError.None? {
        waited := AppsToWaitFor(apps, tfvars["enable-ceph"] == JBool(true));
      }
      r := TwoStages(applyError, waitError);
    }
  }

  /** The record a deployment stores lets the next bootstrap through with
      "auto" for both settings, which then resolve to what was deployed. */
  lemma {:induction false} StoredRecordIsStable(topology: string, database: string, detected: string)
    ensures var record := map["topology" := topology, "database" := database];
            && Resolve("auto", record, "topology", detected) == topology
            && Resolve("auto", record, "database", detected) == database
            && !DatabaseConflict(record, Resolve("auto", record, "database", detected))
  {
  }

  /** Asking for "auto" never conflicts with what is stored. */
  lemma AutoDatabaseNeverConflicts(stored: map<string, string>, detected: string)
    ensures !DatabaseConflict(stored, Resolve("auto", stored, "database", detected))
  {
  }

  /** Once a database topology is stored, the step proceeds only with that
      same topology: the database topology of a deployment never changes. */
  lemma StoredDatabaseIsKept(stored: map<string, string>, requested: string, detected: string)
    requires "database" in stored && stored["database"] != ""
    requires !DatabaseConflict(stored, Resolve(requested, stored, "database", detected))
    ensures Resolve(requested, stored, "database", detected) == stored["database"]
  {
  }

  /** `get_storage_tfvars`: Ceph is enabled exactly when some node has the
      storage role, and then the charms consume the microceph offer of the
      controller model (`microcephApplication` is the application's name;
      sunbeam/commands/microceph.py is not part of this model). */
  function StorageTfvars(storageNodes: seq<string>, microcephApplication: string): (tf: map<string, Json>)
    ensures "enable-ceph" in tf && tf["enable-ceph"] == JBool(|storageNodes| > 0)
    ensures "ceph-offer-url" in tf <==> |storageNodes| > 0
    ensures "ceph-offer-url" in tf ==> tf["ceph-offer-url"] == JStr(Juju.CONTROLLER_MODEL + "." + microcephApplication)
    ensures tf.Keys <= {"enable-ceph", "ceph-offer-url"}
  {
    if |storageNodes| > 0 then
      map["enable-ceph" := JBool(true), "ceph-offer-url" := JStr(Juju.CONTROLLER_MODEL + "." + microcephApplication)]
    else map["enable-ceph" := JBool(false)]
  }

  /** The variables `DeployControlPlaneStep.run` hands to Terraform: the
      model, channels, MicroK8s cloud and credential, storage class, one
      MySQL per service for a "multi" database, and the storage variables. */
  function DeployTfvars(database: string, storageNodes: seq<string>, microcephApplication: string): (tf: map<string, Json>)
    ensures tf.Keys == {"model", "openstack-channel", "ovn-channel", "cloud", "credential", "config", "many-mysql"}
                       + StorageTfvars(storageNodes, microcephApplication).Keys
    ensures tf["model"] == JStr(OPENSTACK_MODEL)
    ensures tf["cloud"] == JStr(Microk8s.MICROK8S_CLOUD)
    ensures tf["credential"] == JStr(Microk8s.MICROK8S_CLOUD + Microk8s.CREDENTIAL_SUFFIX)
    ensures tf["many-mysql"] == JBool(database == "multi")
    ensures tf["enable-ceph"] == JBool(|storageNodes| > 0)
  {
    map["model" := JStr(OPENSTACK_MODEL),
        "openstack-channel" := JStr("2023.1/edge"),
        "ovn-channel" := JStr("23.03/edge"),
        "cloud" := JStr(Microk8s.MICROK8S_CLOUD),
        "credential" := JStr(Microk8s.MICROK8S_CLOUD + Microk8s.CREDENTIAL_SUFFIX),
        "config" := JObj(map["workload-storage" := JStr(Microk8s.MICROK8S_DEFAULT_STORAGECLASS)]),
        "many-mysql" := JBool(database == "multi")]
    + StorageTfvars(storageNodes, microcephApplication)
  }

  /** `list.remove`: drops the first occurrence of `x`. */
  function RemoveFirst(xs: seq<string>, x: string): (r: seq<string>)
    requires x in xs
    ensures |r| == |xs| - 1
    ensures multiset(r) == multiset(xs) - multiset{x}
  {
    assert xs == [xs[0]] + xs[1..];
    if xs[0] == x then xs[1..] else [xs[0]] + RemoveFirst(xs[1..], x)
  }

  /** The applications a deployment waits for: all of the model's, except
      cinder-ceph when Ceph is not enabled. */
  function AppsToWaitFor(apps: seq<string>, enableCeph: bool): (r: seq<string>)
    ensures !enableCeph && "cinder-ceph" in apps ==> multiset(r) == multiset(apps) - multiset{"cinder-ceph"}
    ensures enableCeph || "cinder-ceph" !in apps ==> r == apps
  {
    if !enableCeph && "cinder-ceph" in apps then RemoveFirst(apps, "cinder-ceph") else apps
  }

  // ---------------------------------------------------------------------
  // Resizing the control plane

  const NOT_DEPLOYED := "OpenStack control plane is not deployed, cannot resize"

  /** `ResizeControlPlaneStep.is_skip`: a resize needs the OpenStack model;
      it never skips. */
  function ResizeIsSkip(modelExists: bool): (r: Result)
    ensures r.resultType == FAILED <==> !modelExists
    ensures r.resultType != SKIPPED
    ensures !modelExists ==> r.message == Some(NOT_DEPLOYED)
  {
    if modelExists then NewResult(COMPLETED) else Result(FAILED, Some(NOT_DEPLOYED))
  }

  /** The scales a resize writes. */
  datatype Scales = Scales(ha: int, osApi: int, ingress: int, cephReplicas: int)

  /** What `ResizeControlPlaneStep.run` decides before it applies the plan. */
  datatype ResizeDecision =
    | ResizeRefused(message: string)
    | ResizeProceeds(record: map<string, string>, scales: Scales)
    | ResizeRaises(reason: string)

  /** `ResizeControlPlaneStep.run`'s decision: the stored topology record
      (`record`) must have a database (the code indexes it); a "large"
      target with a "single" database is refused unless forced; otherwise
      the record gets the new topology and the scales follow from it and
      the node counts. */
  function Resize(record: map<string, string>, topology: string, force: bool, controlNodes: nat, storageNodes: nat): (d: ResizeDecision)
    ensures "database" !in record ==> d.ResizeRaises?
    ensures d.ResizeRefused? <==> "database" in record && !force && record["database"] == "single" && topology == "large"
    ensures d.ResizeRefused? ==> d.message == RESIZE_REFUSED
    ensures "database" in record && !d.ResizeRefused? ==> (d.ResizeProceeds? <==> OsApiScale(topology, controlNodes).Ok?)
    ensures "database" in record && d.ResizeRaises? ==> Err(d.reason) == OsApiScale(topology, controlNodes)
    ensures d.ResizeProceeds? ==>
              && d.record == record["topology" := topology]
              && d.scales.ha == HaScale(topology)
              && Ok(d.scales.osApi) == OsApiScale(topology, controlNodes)
              && d.scales.ingress == IngressScale(topology, controlNodes)
              && d.scales.cephReplicas == CephReplicaScale(topology, storageNodes)
  {
    if "database" !in record then ResizeRaises("KeyError: 'database'")
    else if !force && record["database"] == "single" && topology == "large" then ResizeRefused(RESIZE_REFUSED)
    else
      var osApi := OsApiScale(topology, controlNodes);
      if osApi.Err? then ResizeRaises(osApi.error)
      else ResizeProceeds(record["topology" := topology],
                          Scales(HaScale(topology), osApi.value, IngressScale(topology, controlNodes), CephReplicaScale(topology, storageNodes)))
  }

  /** `--force` lets any known topology through. */
  lemma ForcedResizeProceeds(record: map<string, string>, topology: string, controlNodes: nat, storageNodes: nat)
    requires "database" in record
    requires topology == "single" || topology == "multi" || topology == "large"
    ensures Resize(record, topology, true, controlNodes, storageNodes).ResizeProceeds?
  {
  }

  const SCALE_KEYS: set<string> := {"ha-scale", "os-api-scale", "ingress-scale", "ceph-osd-replication-count"}

  /** The stored Terraform variables with the four scales written over
      them; every other variable is kept. */
  function ScaledTfvars(tfvars: map<string, Json>, s: Scales): (tf: map<string, Json>)
    ensures tf.Keys == tfvars.Keys + SCALE_KEYS
    ensures tf["ha-scale"] == JInt(s.ha) && tf["os-api-scale"] == JInt(s.osApi)
    ensures tf["ingress-scale"] == JInt(s.ingress) && tf["ceph-osd-replication-count"] == JInt(s.cephReplicas)
    ensures forall k :: k in tfvars && k !in SCALE_KEYS ==> tf[k] == tfvars[k]
  {
    tfvars["ha-scale" := JInt(s.ha)]["os-api-scale" := JInt(s.osApi)]
          ["ingress-scale" := JInt(s.ingress)]["ceph-osd-replication-count" := JInt(s.cephReplicas)]
  }

  /** `ResizeControlPlaneStep.run` on the resolved target: `Resize` decides.
      A refusal fails the step with nothing stored; a missing database
      raises (`Err`) with nothing stored, and an unknown topology raises
      after the record was stored. A resize that proceeds stores the new
      record and the scaled variables, applies them and waits for the
      model's applications, cinder-ceph left out when no node has the
      storage role; the apply's error, or else the wait's, fails the step.
      Returns the stored record and variables and the applications waited
      for. */
  method ResizeRun(record: map<string, string>, topology: string, force: bool, controlNodes: nat, storageNodes: nat,
                   tfvars: map<string, Json>, applyError: Option<string>, apps: seq<string>, waitError: Option<string>)
    returns (r: Outcome<Result, string>, record': map<string, string>, tfvars': map<string, Json>, waited: seq<string>)
    ensures r.Err? <==> Resize(record, topology, force, controlNodes, storageNodes).ResizeRaises?
    ensures tfvars' != tfvars || waited != [] ==> Resize(record, topology, force, controlNodes, storageNodes).ResizeProceeds?
    ensures "database" !in record ==> r.Err? && record' == record && tfvars' == tfvars && waited == []
    ensures "database" in record && r.Err? ==> record' == record["topology" := topology] && tfvars' == tfvars && waited == []
    ensures Resize(record, topology, force, controlNodes, storageNodes).ResizeRefused? ==>
              r == Ok(Result(FAILED, Some(RESIZE_REFUSED))) && record' == record && tfvars' == tfvars && waited == []
    ensures Resize(record, topology, force, controlNodes, storageNodes).ResizeProceeds? ==>
              && record' == record["topology" := topology]
              && tfvars' == ScaledTfvars(tfvars, Resize(record, topology, force, controlNodes, storageNodes).scales)
              && r == Ok(TwoStages(applyError, waitError))
              && waited == (if applyError.Some? then [] else AppsToWaitFor(apps, storageNodes > 0))
  {
    record', tfvars', waited := record, tfvars, [];
    var d := Resize(record, topology, force, controlNodes, storageNodes);
    match d
    case ResizeRefused(message) =>
      r := Ok(Result(FAILED, Some(message)));
    case ResizeRaises(reason) =>
      if "database" in record {
        record' := record["topology" := topology];
      }
      r := Err(reason);
    case ResizeProceeds(updated, scales) =>
      record' := updated;
      tfvars' := ScaledTfvars(tfvars, scales);
      if applyError.None? {
        waited := AppsToWaitFor(apps, storageNodes > 0);
      }
      r := Ok(TwoStages(applyError, waitError));
  }

  /** The target a resize aims at: the given topology, or the one the
      cluster's nodes call for when "auto". */
  function ResizeTarget(topology: string, controlNames: seq<string>, computeNames: seq<string>, hostRamKb: int): (t: string)
    ensures topology != "auto" ==> t == topology
    ensures topology == "auto" ==> t == TargetTopology(controlNames, computeNames, hostRamKb)
  {
    if topology == "auto" then TargetTopology(controlNames, computeNames, hostRamKb) else topology
  }

  // ---------------------------------------------------------------------
  // Load-balancer services

  /** A Kubernetes service: its annotations and the addresses of its load
      balancer's ingress list (`None` until one is assigned). */
  datatype Service = Service(annotations: map<string, string>, ingress: Option<seq<string>>)

  const SERVICES: seq<string> := ["traefik", "rabbitmq", "ovn-relay"]

  /** Every load-balancer service exists in the cluster (a missing one
      raises out of the step). */
  predicate HasServices(kube: map<string, Service>) {
    forall k :: 0 <= k < |SERVICES| ==> SERVICES[k] in kube
  }

  predicate Annotated(s: Service) {
    METALLB_ANNOTATION in s.annotations
  }

  /** `run` gets past the service: it is annotated already, or its load
      balancer has a first ingress address to annotate it with. */
  predicate Patchable(s: Service) {
    Annotated(s) || (s.ingress.Some? && |s.ingress.value| > 0)
  }

  /** What `ingress[0]` raises on a service that has no first ingress. */
  function IngressError(s: Service): string {
    if s.ingress.None? then "TypeError: 'NoneType' object is not subscriptable" else "IndexError: list index out of range"
  }

  /** `PatchLoadBalancerServicesStep.is_skip`: fails without a stored
      MicroK8s config or when the client cannot be built from it
      (`clientError`); skips exactly when every service already carries
      the MetalLB annotation. */
  method PatchIsSkip(config: map<string, string>, clientError: Option<string>, kube: map<string, Service>) returns (r: Result)
    requires HasServices(kube)
    ensures Microk8s.CONFIG_KEY !in config ==> r == Result(FAILED, Some(NO_MICROK8S_CONFIG))
    ensures Microk8s.CONFIG_KEY in config && clientError.Some? ==> r == Result(FAILED, clientError)
    ensures Microk8s.CONFIG_KEY in config && clientError.None? ==>
              (r.resultType == SKIPPED <==> forall k :: 0 <= k < |SERVICES| ==> Annotated(kube[SERVICES[k]]))
              && r.resultType != FAILED
  {
    if Microk8s.CONFIG_KEY !in config {
      return Result(FAILED, Some(NO_MICROK8S_CONFIG));
    }
    if clientError.Some? {
      return Result(FAILED, clientError);
    }
    var i := 0;
    while i < |SERVICES|
      invariant 0 <= i <= |SERVICES|
      invariant forall k :: 0 <= k < i ==> Annotated(kube[SERVICES[k]])
    {
      if !Annotated(kube[SERVICES[i]]) {
        return NewResult(COMPLETED);
      }
      i := i + 1;
    }
    return NewResult(SKIPPED);
  }

  /** The service after `run` patched it: an unannotated service is
      annotated with its load balancer's address. */
  function Patched(s: Service): (p: Service)
    requires Patchable(s)
    ensures Annotated(p) && p.ingress == s.ingress
    ensures !Annotated(s) ==> p.annotations == s.annotations[METALLB_ANNOTATION := s.ingress.value[0]]
  {
    if Annotated(s) then s else Service(s.annotations[METALLB_ANNOTATION := s.ingress.value[0]], s.ingress)
  }

  /** One round of `run`'s loop: a service without the annotation is
      annotated and recorded as patched; any other is left alone. */
  function PatchOne(kube: map<string, Service>, patched: seq<string>, name: string): (r: (map<string, Service>, seq<string>))
    requires name in kube && Patchable(kube[name])
  {
    if Annotated(kube[name]) then (kube, patched)
    else (kube[name := Patched(kube[name])], patched + [name])
  }

  /** The cluster and the patched names after `run`'s loop went through
      `names` in order. */
  function PatchAll(kube: map<string, Service>, names: seq<string>): (r: (map<string, Service>, seq<string>))
    requires forall k :: 0 <= k < |names| ==> names[k] in kube && Patchable(kube[names[k]])
    ensures r.0.Keys == kube.Keys
    ensures forall n :: n in kube && Patchable(kube[n]) ==> Patchable(r.0[n])
  {
    if names == [] then (kube, [])
    else
      var before := PatchAll(kube, names[..|names| - 1]);
      PatchOne(before.0, before.1, names[|names| - 1])
  }

  /** The position of the first load-balancer service at or after `i`
      that `run` cannot get past, or `|SERVICES|` when there is none. */
  function FirstUnpatchable(kube: map<string, Service>, i: nat): (n: nat)
    requires HasServices(kube) && i <= |SERVICES|
    ensures i <= n <= |SERVICES|
    ensures forall k :: i <= k < n ==> Patchable(kube[SERVICES[k]])
    ensures n < |SERVICES| ==> !Patchable(kube[SERVICES[n]])
    decreases |SERVICES| - i
  {
    if i == |SERVICES| || !Patchable(kube[SERVICES[i]]) then i else FirstUnpatchable(kube, i + 1)
  }

  /** `PatchLoadBalancerServicesStep.run`: goes through the load-balancer
      services in order and annotates each one that lacks the annotation
      with its load balancer's first address. A service without one makes
      `ingress[0]` raise out of the step (`Err`), after the services before
      it were patched. */
  method PatchRun(kube: map<string, Service>) returns (r: Outcome<Result, string>, kube': map<string, Service>, patched: seq<string>)
    requires HasServices(kube)
    ensures var n := FirstUnpatchable(kube, 0);
            && (r.Ok? <==> n == |SERVICES|)
            && (r.Ok? ==> r.value == NewResult(COMPLETED))
            && (r.Err? ==> r.error == IngressError(kube[SERVICES[n]]))
            && (kube', patched) == PatchAll(kube, SERVICES[..n])
  {
    kube' := kube;
    patched := [];
    var i := 0;
    while i < |SERVICES|
      invariant 0 <= i <= FirstUnpatchable(kube, 0)
      invariant (kube', patched) == PatchAll(kube, SERVICES[..i])
    {
      var name := SERVICES[i];
      PatchedSoFar(kube, i);
      PatchAllStep(kube, i);
      var service := kube'[name];
      if !Annotated(service) {
        if service.ingress.None? || |service.ingress.value| == 0 {
          return Err(IngressError(service)), kube', patched;
        }
        kube' := kube'[name := Service(service.annotations[METALLB_ANNOTATION := service.ingress.value[0]], service.ingress)];
        patched := patched + [name];
      }
      i := i + 1;
    }
    assert SERVICES[..i] == SERVICES;
    return Ok(NewResult(COMPLETED)), kube', patched;
  }

  /** Before `run` reaches the `i`-th service, that service is still as
      it was in the cluster. */
  lemma PatchedSoFar(kube: map<string, Service>, i: nat)
    requires HasServices(kube) && i < |SERVICES| && i <= FirstUnpatchable(kube, 0)
    ensures PatchAll(kube, SERVICES[..i]).0[SERVICES[i]] == kube[SERVICES[i]]
  {
    PatchAllEffect(kube, SERVICES[..i]);
    assert SERVICES[i] !in SERVICES[..i];
  }

  /** One more turn of `run`'s loop is `PatchOne` on what the turns before
      left. */
  lemma PatchAllStep(kube: map<string, Service>, i: nat)
    requires HasServices(kube) && i < |SERVICES| && i <= FirstUnpatchable(kube, 0)
    ensures i < FirstUnpatchable(kube, 0) ==>
              PatchAll(kube, SERVICES[..i + 1])
              == var before := PatchAll(kube, SERVICES[..i]); PatchOne(before.0, before.1, SERVICES[i])
  {
    assert SERVICES[..i + 1][..i] == SERVICES[..i];
  }

  /** What `run` leaves behind: every named service is annotated (with
      its own address when it was not already), every other service is
      unchanged, and exactly the services that lacked the annotation are
      patched. */
  lemma {:induction false} PatchAllEffect(kube: map<string, Service>, names: seq<string>)
    requires forall k :: 0 <= k < |names| ==> names[k] in kube && Patchable(kube[names[k]])
    ensures forall n :: n in kube ==> PatchAll(kube, names).0[n] == if n in names then Patched(kube[n]) else kube[n]
    ensures forall n :: n in PatchAll(kube, names).1 <==> n in names && !Annotated(kube[n])
  {
    if names != [] {
      var init := names[..|names| - 1];
      var last := names[|names| - 1];
      assert names == init + [last];
      PatchAllEffect(kube, init);
      forall n | n in names
        ensures n in init || n == last
      {
      }
    }
  }

  /** After a run the step is skipped: every service carries the annotation. */
  lemma PatchedAllAnnotated(kube: map<string, Service>)
    requires HasServices(kube) && forall k :: 0 <= k < |SERVICES| ==> Patchable(kube[SERVICES[k]])
    ensures forall k :: 0 <= k < |SERVICES| ==> Annotated(PatchAll(kube, SERVICES).0[SERVICES[k]])
  {
    PatchAllEffect(kube, SERVICES);
  }

}

=== FILE: service.dfy ===
/** The request layer of the cluster daemon's client
    (sunbeam/clusterd/service.py): `_request` drops one leading '/' from
    the path, sends the request over the daemon's socket, turns connection
    errors and HTTP errors into the client's exceptions by looking for known
    texts in the daemon's error message, and otherwise returns the decoded
    body; the verb helpers fill in `allow_redirects` when the caller has not.

    The daemon's socket, the URL quoting and the HTTP session are outside
    the model: a request is the `Call` value the client would send, and the
    daemon's answer is a `Response`. */
module Service {
  import opened Wrappers
  import opened Strs
  import opened JsonValue

  /** The exceptions `_request` and its callers raise. `HttpError` is the
      HTTP error raised again unchanged; `NoErrorText` stands for the
      TypeError Python raises when an error reply carries no "error" text;
      `MalformedReply` for the error a reply of an unexpected shape causes. */
  datatype ClusterError =
    | ClusterAlreadyBootstrapped(message: string)
    | ClusterServiceUnavailable(message: string)
    | ConfigItemNotFound(message: string)
    | NodeAlreadyExists(message: string)
    | NodeNotExistInCluster(message: string)
    | NodeJoinFailed(message: string)
    | LastNodeRemovalFromCluster(message: string)
    | TokenAlreadyGenerated(message: string)
    | TokenNotFound(message: string)
    | JujuUserNotFound
    | HttpError(status: int, error: string)
    | NoErrorText(status: int)
    | MalformedReply

  /** A keyword argument of a request: None, a flag, the text
      `json.dumps(v)` of a value (the encoding itself is not modelled), or a
      text sent as it is. */
  datatype Arg = NoneArg | Flag(b: bool) | Dumped(v: Json) | Text(s: string)

  /** A request: verb, path (as given to `_request`) and keyword arguments. */
  datatype Call = Call(verb: string, path: string, kwargs: map<string, Arg>)

  /** The daemon's answer: a connection error with its text, or a reply
      with its status code and decoded body. */
  datatype Response = ConnectionError(text: string) | Reply(status: int, body: Json)

  /** The path `_request` puts after the socket in the URL. */
  function NormalizePath(path: string): (r: string)
    ensures StartsWith(path, "/") ==> "/" + r == path
    ensures !StartsWith(path, "/") ==> r == path
  {
    if StartsWith(path, "/") then path[1..] else path
  }

  /** A leading '/' does not change the request; only one is dropped. */
  lemma NormalizePathLeadingSlash(p: string)
    ensures NormalizePath("/" + p) == p
    ensures StartsWith(p, "/") ==> NormalizePath("/" + p) != NormalizePath(p)
  {
    assert StartsWith("/" + p, "/");
  }

  const SOCKET_NOT_FOUND := "Sunbeam Cluster socket not found, is clusterd running ? Check with 'snap services openstack.clusterd'"

  /** A connection error: a missing socket gets its own explanation;
      any other is reported with its own text. */
  function ConnectionFailure(text: string): (e: ClusterError)
    ensures e.ClusterServiceUnavailable?
    ensures e.message == (if Contains(text, "FileNotFoundError") then SOCKET_NOT_FOUND else text)
  {
    if Contains(text, "FileNotFoundError") then ClusterServiceUnavailable(SOCKET_NOT_FOUND)
    else ClusterServiceUnavailable(text)
  }

  // The texts the daemon's error messages are searched for, in order.
  const REMOTE_EXISTS := "remote with name"
  const NO_REMOTE := "No remote exists with the given name"
  const NODE_NOT_FOUND := "Node not found"
  const JOIN_FAILED := "Failed to join cluster with the given join token"
  const TOKEN_UNIQUE := "UNIQUE constraint failed: internal_token_records.name"
  const NOT_INITIALIZED := "Daemon not yet initialized"
  const TOKEN_MISSING := "InternalTokenRecord not found"
  const LAST_MEMBER := "Cannot remove cluster members, there are no remaining non-pending members"
  const ALREADY_RUNNING := "already running"
  const CONFIG_MISSING := "ConfigItem not found"

  // The exceptions those texts are translated to.
  const E_NODE_EXISTS := NodeAlreadyExists("Already node exists in the sunbeam cluster")
  const E_NODE_MISSING := NodeNotExistInCluster("Node does not exist in the sunbeam cluster")
  const E_JOIN_FAILED := NodeJoinFailed("Join node to cluster failed with the given token")
  const E_TOKEN_EXISTS := TokenAlreadyGenerated("Token already generated for the node")
  const E_NOT_INITIALIZED := ClusterServiceUnavailable("Sunbeam Cluster not initialized")
  const E_TOKEN_MISSING := TokenNotFound("Token not found for the node")
  const E_LAST_MEMBER :=
    LastNodeRemovalFromCluster("Cannot remove cluster member as there are no remaining non-pending members. Reset the last node instead.")
  const E_BOOTSTRAPPED := ClusterAlreadyBootstrapped("Already cluster is bootstrapped.")
  const E_CONFIG_MISSING := ConfigItemNotFound("ConfigItem not found")

  /** The translation of an HTTP error, as written: the first known text
      found in the daemon's error message decides; an unknown message
      raises the HTTP error itself. */
  function Classify(error: string, status: int): ClusterError {
    if Contains(error, REMOTE_EXISTS) then E_NODE_EXISTS
    else if Contains(error, NO_REMOTE) then E_NODE_MISSING
    else if Contains(error, NODE_NOT_FOUND) then E_NODE_MISSING
    else if Contains(error, JOIN_FAILED) then E_JOIN_FAILED
    else if Contains(error, TOKEN_UNIQUE) then E_TOKEN_EXISTS
    else ClassifyRest(error, status)
  }

  /** The same translation as a table of (text, exception) rules, read in
      order: the first five, then the rest. */
  const RULES: seq<(string, ClusterError)> := FIRST_RULES + LATER_RULES

  const FIRST_RULES: seq<(string, ClusterError)> := [
    (REMOTE_EXISTS, E_NODE_EXISTS),
    (NO_REMOTE, E_NODE_MISSING),
    (NODE_NOT_FOUND, E_NODE_MISSING),
    (JOIN_FAILED, E_JOIN_FAILED),
    (TOKEN_UNIQUE, E_TOKEN_EXISTS)
  ]

  const LATER_RULES: seq<(string, ClusterError)> := [
    (NOT_INITIALIZED, E_NOT_INITIALIZED),
    (TOKEN_MISSING, E_TOKEN_MISSING),
    (LAST_MEMBER, E_LAST_MEMBER),
    (ALREADY_RUNNING, E_BOOTSTRAPPED),
    (CONFIG_MISSING, E_CONFIG_MISSING)
  ]

  /** The exception of the first rule whose text occurs in `error`. */
  function FirstMatch(rules: seq<(string, ClusterError)>, error: string, otherwise: ClusterError): (e: ClusterError)
    ensures (exists i :: 0 <= i < |rules| && Contains(error, rules[i].0)) || e == otherwise
    ensures forall i :: 0 <= i < |rules| && Contains(error, rules[i].0) && (forall j :: 0 <= j < i ==> !Contains(error, rules[j].0))
                        ==> e == rules[i].1
    decreases |rules|
  {
    if |rules| == 0 then otherwise
    else if Contains(error, rules[0].0) then rules[0].1
    else
      assert forall i :: 1 <= i < |rules| ==> rules[1..][i - 1] == rules[i];
      FirstMatch(rules[1..], error, otherwise)
  }

  /** Reading two tables one after the other: the second decides only when
      no rule of the first matches. */
  lemma {:induction false} FirstMatchAppend(a: seq<(string, ClusterError)>, b: seq<(string, ClusterError)>, error: string, otherwise: ClusterError)
    ensures FirstMatch(a + b, error, otherwise) == FirstMatch(a, error, FirstMatch(b, error, otherwise))
    decreases |a|
  {
    if |a| > 0 {
      assert (a + b)[0] == a[0];
      assert (a + b)[1..] == a[1..] + b;
      FirstMatchAppend(a[1..], b, error, otherwise);
    } else {
      assert a + b == b;
    }
  }

  /** The translation after the first five texts have not been found. */
  function ClassifyRest(error: string, status: int): ClusterError {
    if Contains(error, NOT_INITIALIZED) then E_NOT_INITIALIZED
    else if Contains(error, TOKEN_MISSING) then E_TOKEN_MISSING
    else if Contains(error, LAST_MEMBER) then E_LAST_MEMBER
    else if Contains(error, ALREADY_RUNNING) then E_BOOTSTRAPPED
    else if Contains(error, CONFIG_MISSING) then E_CONFIG_MISSING
    else HttpError(status, error)
  }

  lemma RestIsFirstMatch(error: string, status: int)
    ensures ClassifyRest(error, status) == FirstMatch(LATER_RULES, error, HttpError(status, error))
  {
    var o := HttpError(status, error);
    var r := LATER_RULES;
    assert FirstMatch(r[5..], error, o) == o;
    assert FirstMatch(r[4..], error, o) == if Contains(error, CONFIG_MISSING) then E_CONFIG_MISSING else o;
    assert FirstMatch(r[3..], error, o) == if Contains(error, ALREADY_RUNNING) then E_BOOTSTRAPPED else FirstMatch(r[4..], error, o);
    assert FirstMatch(r[2..], error, o) == if Contains(error, LAST_MEMBER) then E_LAST_MEMBER else FirstMatch(r[3..], error, o);
    assert FirstMatch(r[1..], error, o) == if Contains(error, TOKEN_MISSING) then E_TOKEN_MISSING else FirstMatch(r[2..], error, o);
  }

  /** The if-chain and the rule table agree on every message. */
  lemma ClassifyIsFirstMatch(error: string, status: int)
    ensures Classify(error, status) == FirstMatch(RULES, error, HttpError(status, error))
  {
    var o := FirstMatch(LATER_RULES, error, HttpError(status, error));
    var r := FIRST_RULES;
    RestIsFirstMatch(error, status);
    FirstMatchAppend(FIRST_RULES, LATER_RULES, error, HttpError(status, error));
    assert FirstMatch(r[5..], error, o) == o;
    assert FirstMatch(r[4..], error, o) == if Contains(error, TOKEN_UNIQUE) then E_TOKEN_EXISTS else o;
    assert FirstMatch(r[3..], error, o) == if Contains(error, JOIN_FAILED) then E_JOIN_FAILED else FirstMatch(r[4..], error, o);
    assert FirstMatch(r[2..], error, o) == if Contains(error, NODE_NOT_FOUND) then E_NODE_MISSING else FirstMatch(r[3..], error, o);
    assert FirstMatch(r[1..], error, o) == if Contains(error, NO_REMOTE) then E_NODE_MISSING else FirstMatch(r[2..], error, o);
  }

  /** An error message that holds none of the known texts is raised as the
      HTTP error itself. */
  lemma UnknownErrorRaisedAsIs(error: string, status: int)
    requires forall i :: 0 <= i < |RULES| ==> !Contains(error, RULES[i].0)
    ensures Classify(error, status) == HttpError(status, error)
  {
    ClassifyIsFirstMatch(error, status);
  }

  /** A known text is translated to its exception unless an earlier rule's
      text is also present. */
  lemma KnownErrorTranslated(error: string, status: int, i: nat)
    requires i < |RULES| && Contains(error, RULES[i].0)
    requires forall j :: 0 <= j < i ==> !Contains(error, RULES[j].0)
    ensures Classify(error, status) == RULES[i].1
    ensures Classify(error, status) != HttpError(status, error)
  {
    ClassifyIsFirstMatch(error, status);
  }

  /** `_request`'s handling of the answer: connection errors and HTTP error
      statuses (400 to 599) become exceptions, any other reply returns its
      decoded body. */
  function HandleResponse(resp: Response): (r: Outcome<Json, ClusterError>)
    ensures resp.ConnectionError? ==> r == Err(ConnectionFailure(resp.text))
    ensures resp.Reply? && !(400 <= resp.status < 600) ==> r == Ok(resp.body)
    ensures resp.Reply? && 400 <= resp.status < 600 ==> r.Err?
  {
    match resp
    case ConnectionError(text) => Err(ConnectionFailure(text))
    case Reply(status, body) =>
      if 400 <= status < 600 then
        match ErrorText(body)
        case None => Err(NoErrorText(status))
        case Some(error) => Err(Classify(error, status))
      else Ok(body)
  }

  /** `response.json().get("error")` when it is a text. */
  function ErrorText(body: Json): Option<string> {
    if body.JObj? && "error" in body.fields && body.fields["error"].JStr? then Some(body.fields["error"].s) else None
  }

  /** `dict.get(key)` on a decoded body, which must be a mapping (on any
      other value Python has no `.get`): None (JNull) when absent. */
  function Get(body: Json, key: string): (v: Json)
    requires body.JObj?
    ensures key in body.fields ==> v == body.fields[key]
    ensures key !in body.fields ==> v == JNull
  {
    if key in body.fields then body.fields[key] else JNull
  }

  /** `kwargs.setdefault(key, value)`. */
  function SetDefault(kwargs: map<string, Arg>, key: string, value: Arg): (r: map<string, Arg>)
    ensures r.Keys == kwargs.Keys + {key}
    ensures key in kwargs ==> r[key] == kwargs[key]
    ensures key !in kwargs ==> r[key] == value
    ensures forall k :: k in kwargs && k != key ==> r[k] == kwargs[k]
  {
    if key in kwargs then kwargs else kwargs[key := value]
  }

  /** `_get`: follows redirects unless the caller said otherwise. */
  function GetCall(path: string, kwargs: map<string, Arg>): (c: Call)
    ensures c.verb == "get" && c.path == path && c.kwargs == SetDefault(kwargs, "allow_redirects", Flag(true))
  {
    Call("get", path, SetDefault(kwargs, "allow_redirects", Flag(true)))
  }

  /** `_head`: does not follow redirects unless the caller said otherwise. */
  function HeadCall(path: string, kwargs: map<string, Arg>): (c: Call)
    ensures c.verb == "head" && c.path == path && c.kwargs == SetDefault(kwargs, "allow_redirects", Flag(false))
  {
    Call("head", path, SetDefault(kwargs, "allow_redirects", Flag(false)))
  }

  /** `_options`: follows redirects unless the caller said otherwise. */
  function OptionsCall(path: string, kwargs: map<string, Arg>): (c: Call)
    ensures c.verb == "options" && c.path == path && c.kwargs == SetDefault(kwargs, "allow_redirects", Flag(true))
  {
    Call("options", path, SetDefault(kwargs, "allow_redirects", Flag(true)))
  }

  /** `_post(path, data)`: `data` and `json` are always passed, `json` as None. */
  function PostCall(path: string, data: Arg): (c: Call)
    ensures c.verb == "post" && c.kwargs == map["data" := data, "json" := NoneArg]
  {
    Call("post", path, map["data" := data, "json" := NoneArg])
  }

  function PutCall(path: string, data: Arg): (c: Call)
    ensures c.verb == "put" && c.kwargs == map["data" := data]
  {
    Call("put", path, map["data" := data])
  }

  function DeleteCall(path: string): (c: Call)
    ensures c.verb == "delete" && c.kwargs == map[]
  {
    Call("delete", path, map[])
  }

  /** The path actually requested. */
  function RequestPath(c: Call): string {
    NormalizePath(c.path)
  }
}

=== FILE: strs.dfy ===
/** The handful of Python `str` operations the core relies on, over
    `seq<char>`: prefix and substring tests, `split` on one character,
    `join`, `rstrip` of one character, `strip` of whitespace, ASCII case
    mapping, `removeprefix`, and `str(int)` / `int(str)` for decimal text. */
module Strs {
  import opened Wrappers

  predicate StartsWith(s: string, p: string) {
    |p| <= |s| && s[..|p|] == p
  }

  predicate EndsWith(s: string, p: string) {
    |p| <= |s| && s[|s| - |p|..] == p
  }

  /** `p` occurs in `s` starting at index `i`. */
  predicate OccursAt(s: string, p: string, i: int) {
    0 <= i && i + |p| <= |s| && s[i..i + |p|] == p
  }

  /** Python's `p in s` for strings. */
  predicate Contains(s: string, p: string)
    decreases |s|
  {
    StartsWith(s, p) || (0 < |s| && Contains(s[1..], p))
  }

  lemma {:induction false} ContainsIff(s: string, p: string)
    ensures Contains(s, p) <==> exists i :: OccursAt(s, p, i)
    decreases |s|
  {
    if i :| OccursAt(s, p, i) {
      if i == 0 {
        assert StartsWith(s, p);
      } else {
        ContainsIff(s[1..], p);
        assert s[1..][i - 1..i - 1 + |p|] == s[i..i + |p|];
        assert OccursAt(s[1..], p, i - 1);
      }
    }
    if Contains(s, p) {
      if StartsWith(s, p) {
        assert OccursAt(s, p, 0);
      } else {
        ContainsIff(s[1..], p);
        var i :| OccursAt(s[1..], p, i);
        assert s[1..][i..i + |p|] == s[i + 1..i + 1 + |p|];
        assert OccursAt(s, p, i + 1);
      }
    }
  }

  /** Shown occurrence implies containment, the direction concrete examples need. */
  lemma OccursAtContains(s: string, p: string, i: int)
    requires OccursAt(s, p, i)
    ensures Contains(s, p)
  {
    ContainsIff(s, p);
  }

  /** Number of occurrences of `c` in `s`. */
  function Count(s: string, c: char): nat
    decreases |s|
  {
    if |s| == 0 then 0 else (if s[0] == c then 1 else 0) + Count(s[1..], c)
  }

  /** Python's `s.split(sep)` for a one-character separator: the pieces
      between separators, always at least one (possibly empty). */
  function Split(s: string, sep: char): (parts: seq<string>)
    ensures |parts| >= 1
    decreases |s|
  {
    if |s| == 0 then [""]
    else
      var rest := Split(s[1..], sep);
      if s[0] == sep then [""] + rest
      else [[s[0]] + rest[0]] + rest[1..]
  }

  /** Python's `sep.join(parts)`. */
  function Join(parts: seq<string>, sep: string): string
    decreases |parts|
  {
    if |parts| == 0 then ""
    else if |parts| == 1 then parts[0]
    else parts[0] + sep + Join(parts[1..], sep)
  }

  /** One more piece than separators. */
  lemma {:induction false} SplitCount(s: string, sep: char)
    ensures |Split(s, sep)| == Count(s, sep) + 1
    decreases |s|
  {
    if |s| > 0 {
      SplitCount(s[1..], sep);
    }
  }

  /** No piece contains the separator. */
  lemma {:induction false} SplitPiecesFree(s: string, sep: char)
    ensures forall k :: 0 <= k < |Split(s, sep)| ==> sep !in Split(s, sep)[k]
    decreases |s|
  {
    if |s| > 0 {
      SplitPiecesFree(s[1..], sep);
    }
  }

  /** Joining the pieces with the separator gives back the text. */
  lemma {:induction false} JoinSplit(s: string, sep: char)
    ensures Join(Split(s, sep), [sep]) == s
    decreases |s|
  {
    if |s| > 0 {
      var rest := Split(s[1..], sep);
      JoinSplit(s[1..], sep);
      if s[0] == sep {
        assert Split(s, sep) == [""] + rest;
        assert ([""] + rest)[1..] == rest;
      } else {
        var parts := Split(s, sep);
        assert parts == [[s[0]] + rest[0]] + rest[1..];
        if |rest| == 1 {
          assert Join(parts, [sep]) == [s[0]] + rest[0];
        } else {
          assert parts[1..] == rest[1..];
          assert Join(rest, [sep]) == rest[0] + [sep] + Join(rest[1..], [sep]);
        }
        assert s == [s[0]] + s[1..];
      }
    }
  }

  /** Splitting a text that starts with a separator-free head followed by
      the separator. */
  lemma {:induction false} SplitStep(s: string, head: string, tail: string, sep: char)
    requires s == head + tail && sep !in head && 0 < |tail| && tail[0] == sep
    ensures Split(s, sep) == [head] + Split(tail[1..], sep)
    decreases |head|
  {
    if |head| == 0 {
      assert s == tail;
    } else {
      assert s[1..] == head[1..] + tail;
      SplitStep(s[1..], head[1..], tail, sep);
      assert [s[0]] + head[1..] == head;
    }
  }

  /** Splitting what `join` wrote gives back the pieces, when no piece
      holds the separator. */
  lemma {:induction false} SplitJoin(parts: seq<string>, sep: char)
    requires |parts| >= 1 && forall k :: 0 <= k < |parts| ==> sep !in parts[k]
    ensures Split(Join(parts, [sep]), sep) == parts
    decreases |parts|
  {
    if |parts| == 1 {
      SplitNoSep(parts[0], sep);
    } else {
      var rest := Join(parts[1..], [sep]);
      SplitJoin(parts[1..], sep);
      SplitStep(Join(parts, [sep]), parts[0], [sep] + rest, sep);
      assert ([sep] + rest)[1..] == rest;
      assert [parts[0]] + parts[1..] == parts;
    }
  }

  /** A joined text ends with the last piece. */
  lemma {:induction false} JoinLast(parts: seq<string>, sep: string)
    requires |parts| >= 1
    ensures EndsWith(Join(parts, sep), parts[|parts| - 1])
    decreases |parts|
  {
    if |parts| > 1 {
      JoinLast(parts[1..], sep);
      var j := Join(parts, sep);
      var r := Join(parts[1..], sep);
      assert j == parts[0] + sep + r;
      assert j[|j| - |r|..] == r;
    }
  }

  /** A text without the separator is one piece. */
  lemma {:induction false} SplitNoSep(s: string, sep: char)
    requires sep !in s
    ensures Split(s, sep) == [s]
    decreases |s|
  {
    if |s| > 0 {
      SplitNoSep(s[1..], sep);
      assert s == [s[0]] + s[1..];
    }
  }

  /** Python's `s.rstrip(c)`: drops every trailing `c`. */
  function RStrip(s: string, c: char): (r: string)
    ensures |r| <= |s| && r == s[..|r|]
    ensures |r| == 0 || r[|r| - 1] != c
    ensures forall k :: |r| <= k < |s| ==> s[k] == c
    decreases |s|
  {
    if 0 < |s| && s[|s| - 1] == c then RStrip(s[..|s| - 1], c) else s
  }

  /** The characters Python's argument-less `str.strip()` removes (the ASCII ones). */
  predicate IsSpace(c: char) {
    c == ' ' || c == '\t' || c == '\n' || c == '\r' || c == '\U{000B}' || c == '\U{000C}'
  }

  function StripLeft(s: string): (r: string)
    ensures |r| <= |s| && r == s[|s| - |r|..]
    ensures |r| == 0 || !IsSpace(r[0])
    decreases |s|
  {
    if 0 < |s| && IsSpace(s[0]) then StripLeft(s[1..]) else s
  }

  function StripRight(s: string): (r: string)
    ensures |r| <= |s| && r == s[..|r|]
    ensures |r| == 0 || !IsSpace(r[|r| - 1])
    decreases |s|
  {
    if 0 < |s| && IsSpace(s[|s| - 1]) then StripRight(s[..|s| - 1]) else s
  }

  /** Python's `s.strip()`. */
  function Strip(s: string): string {
    StripRight(StripLeft(s))
  }

  /** The end of the run of non-whitespace characters of `t` that starts at `i`. */
  function WordEnd(t: string, i: nat): (n: nat)
    requires i <= |t|
    ensures i <= n <= |t|
    ensures forall j :: i <= j < n ==> !IsSpace(t[j])
    ensures n == |t| || IsSpace(t[n])
    decreases |t| - i
  {
    if i < |t| && !IsSpace(t[i]) then WordEnd(t, i + 1) else i
  }

  /** A non-empty run of non-whitespace characters. */
  predicate IsWord(w: string) {
    0 < |w| && forall j :: 0 <= j < |w| ==> !IsSpace(w[j])
  }

  /** A text that starts with a non-whitespace character starts with a word. */
  lemma FirstWord(t: string)
    requires 0 < |t| && !IsSpace(t[0])
    ensures 0 < WordEnd(t, 0) && IsWord(t[..WordEnd(t, 0)])
  {
  }

  /** Python's `s.split()` with no separator: the maximal runs of
      non-whitespace characters, in order. */
  function Words(s: string): (r: seq<string>)
    ensures forall k :: 0 <= k < |r| ==> IsWord(r[k])
    decreases |s|
  {
    var t := StripLeft(s);
    if t == "" then []
    else
      var n := WordEnd(t, 0);
      FirstWord(t);
      assert |t[n..]| < |s|;
      var rest := Words(t[n..]);
      WordsCons(t[..n], rest);
      [t[..n]] + rest
  }

  lemma WordsCons(w: string, rest: seq<string>)
    requires IsWord(w) && forall k :: 0 <= k < |rest| ==> IsWord(rest[k])
    ensures forall k :: 0 <= k < |rest| + 1 ==> IsWord(([w] + rest)[k])
  {
    forall k | 0 <= k < |rest| + 1
      ensures IsWord(([w] + rest)[k])
    {
      if 0 < k { assert ([w] + rest)[k] == rest[k - 1]; }
    }
  }

  /** A text with no whitespace (a single nameserver) is one word. */
  lemma {:induction false} WordsOfWord(w: string)
    requires IsWord(w)
    ensures Words(w) == [w]
  {
    assert StripLeft(w) == w;
    assert WordEnd(w, 0) == |w|;
    assert w[..|w|] == w && w[|w|..] == "";
    assert Words(w) == [w] + Words("");
  }

  function LowerChar(c: char): char {
    if 'A' <= c <= 'Z' then (c as int + 32) as char else c
  }

  function UpperChar(c: char): char {
    if 'a' <= c <= 'z' then (c as int - 32) as char else c
  }

  /** Python's `s.lower()` on ASCII letters. */
  function Lower(s: string): (r: string)
    ensures |r| == |s|
  {
    seq(|s|, i requires 0 <= i < |s| => LowerChar(s[i]))
  }

  /** Python's `s.upper()` on ASCII letters. */
  function Upper(s: string): (r: string)
    ensures |r| == |s|
  {
    seq(|s|, i requires 0 <= i < |s| => UpperChar(s[i]))
  }

  /** A character Python's `repr` writes as a `\xhh` escape: the ASCII
      control characters other than tab, newline and carriage return, DEL,
      and the non-printable characters U+0080 to U+00A0 and U+00AD. */
  predicate HexEscaped(c: char) {
    (c < ' ' && c != '\t' && c != '\n' && c != '\r') || ('\U{007F}' <= c <= '\U{00A0}') || c == '\U{00AD}'
  }

  function HexDigitChar(d: nat): (c: char)
    requires d < 16
  {
    if d < 10 then ('0' as int + d) as char else ('a' as int + d - 10) as char
  }

  /** Whether `c` occurs in `s`, one character at a time. */
  function Occurs(c: char, s: string): bool
    decreases |s|
  {
    s != [] && (s[0] == c || Occurs(c, s[1..]))
  }

  lemma {:induction false} OccursIsIn(c: char, s: string)
    ensures Occurs(c, s) <==> c in s
    decreases |s|
  {
    if s != [] {
      OccursIsIn(c, s[1..]);
      assert s == [s[0]] + s[1..];
    }
  }

  /** The quote `repr` chooses: a double quote when the text holds a single
      quote and no double quote, otherwise a single quote. */
  function ReprQuote(s: string): (q: char)
    ensures q == '\'' || q == '"'
  {
    if Occurs('\'', s) && !Occurs('"', s) then '"' else '\''
  }

  /** One character inside `repr`'s quotes `q`. */
  function EscapeChar(c: char, q: char): (r: string)
    ensures |r| >= 1
    ensures c != q && c != '\\' && c != '\t' && c != '\n' && c != '\r' && !HexEscaped(c) ==> r == [c]
    ensures c == q || c == '\\' || c == '\t' || c == '\n' || c == '\r' || HexEscaped(c) ==> r[0] == '\\'
  {
    if c == '\\' then "\\\\"
    else if c == q then ['\\', q]
    else if c == '\t' then "\\t"
    else if c == '\n' then "\\n"
    else if c == '\r' then "\\r"
    else if HexEscaped(c) then "\\x" + [HexDigitChar(c as int / 16), HexDigitChar(c as int % 16)]
    else [c]
  }

  function Escaped(s: string, q: char): string
    decreases |s|
  {
    if s == [] then [] else EscapeChar(s[0], q) + Escaped(s[1..], q)
  }

  /** Python's `repr(s)` of a string, as `str(KeyError(s))`, `f"{s!r}"`
      and `int()`'s error message write it. Non-printable characters above
      U+00FF, which Python writes as `\u` or `\U` escapes, are kept. */
  function Repr(s: string): (r: string)
    ensures |r| >= |s| + 2
    ensures r[0] == ReprQuote(s) && r[|r| - 1] == ReprQuote(s)
  {
    EscapedLength(s, ReprQuote(s));
    [ReprQuote(s)] + Escaped(s, ReprQuote(s)) + [ReprQuote(s)]
  }

  /** `repr` quotes with double quotes exactly when the text holds a
      single quote and no double quote. */
  lemma ReprQuoteChoice(s: string)
    ensures Repr(s)[0] == '"' <==> '\'' in s && '"' !in s
    ensures Repr(s)[0] == '\'' <==> !('\'' in s && '"' !in s)
  {
    OccursIsIn('\'', s);
    OccursIsIn('"', s);
  }

  lemma {:induction false} EscapedLength(s: string, q: char)
    ensures |Escaped(s, q)| >= |s|
    decreases |s|
  {
    if s != [] {
      EscapedLength(s[1..], q);
    }
  }

  /** Text without the quote, backslashes or characters `repr` escapes
      is written as it is. */
  lemma {:induction false} EscapedUnchanged(s: string, q: char)
    requires forall k :: 0 <= k < |s| ==> s[k] != q && s[k] != '\\' && s[k] != '\t' && s[k] != '\n' && s[k] != '\r' && !HexEscaped(s[k])
    ensures Escaped(s, q) == s
    decreases |s|
  {
    if s != [] {
      EscapedUnchanged(s[1..], q);
      assert [s[0]] + s[1..] == s;
    }
  }

  /** `repr` of text without quotes, backslashes or escaped characters is
      the text in single quotes. */
  lemma ReprOfQuoteFree(s: string)
    requires forall k :: 0 <= k < |s| ==> s[k] != '\'' && s[k] != '"' && s[k] != '\\' && s[k] != '\t' && s[k] != '\n' && s[k] != '\r' && !HexEscaped(s[k])
    ensures Repr(s) == "'" + s + "'"
  {
    assert '\'' !in s;
    OccursIsIn('\'', s);
    EscapedUnchanged(s, '\'');
  }

  /** `repr` of text that holds a single quote but no double quote (and no
      backslash or escaped character) is the text in double quotes. */
  lemma ReprOfSingleQuoted(s: string)
    requires '\'' in s
    requires forall k :: 0 <= k < |s| ==> s[k] != '"' && s[k] != '\\' && s[k] != '\t' && s[k] != '\n' && s[k] != '\r' && !HexEscaped(s[k])
    ensures Repr(s) == "\"" + s + "\""
  {
    assert '"' !in s;
    OccursIsIn('\'', s);
    OccursIsIn('"', s);
    EscapedUnchanged(s, '"');
  }

  /** A backslash is doubled. */
  lemma ReprDoublesBackslash()
    ensures Repr("a\\b") == "'a\\\\b'"
  {
  }

  /** With both quotes present, the single quote is escaped. */
  lemma ReprEscapesSingleQuote()
    ensures Repr("'\"") == "'\\'\"'"
  {
  }

  /** Python's `s.removeprefix(p)`. */
  function RemovePrefix(s: string, p: string): (r: string)
    ensures StartsWith(s, p) ==> s == p + r
    ensures !StartsWith(s, p) ==> r == s
  {
    if StartsWith(s, p) then s[|p|..] else s
  }

  predicate IsDigit(c: char) {
    '0' <= c <= '9'
  }

  predicate AllDigits(s: string) {
    forall k :: 0 <= k < |s| ==> IsDigit(s[k])
  }

  function DigitChar(d: nat): (c: char)
    requires d < 10
    ensures IsDigit(c)
  {
    (d + '0' as int) as char
  }

  function DigitValue(c: char): (d: nat)
    requires IsDigit(c)
    ensures d < 10
  {
    c as int - '0' as int
  }

  /** Decimal digits of `n`, most significant first, without leading zeros. */
  function NatToString(n: nat): (r: string)
    ensures 0 < |r| && AllDigits(r)
    decreases n
  {
    if n < 10 then [DigitChar(n)] else NatToString(n / 10) + [DigitChar(n % 10)]
  }

  /** Python's `str(i)` for an integer. */
  function IntToString(i: int): string {
    if i < 0 then "-" + NatToString(-i) else NatToString(i)
  }

  function ParseDigits(s: string): nat
    requires AllDigits(s)
    decreases |s|
  {
    if |s| == 0 then 0 else ParseDigits(s[..|s| - 1]) * 10 + DigitValue(s[|s| - 1])
  }

  /** Python's `int(s)` on an optional sign followed by decimal digits;
      `None` where Python raises ValueError. */
  function ParseInt(s: string): Option<int> {
    if 0 < |s| && (s[0] == '-' || s[0] == '+') then
      var digits := s[1..];
      if 0 < |digits| && AllDigits(digits) then
        var v: int := ParseDigits(digits);
        Some(if s[0] == '-' then -v else v)
      else None
    else if 0 < |s| && AllDigits(s) then Some(ParseDigits(s))
    else None
  }

  lemma {:induction false} ParseNatToString(n: nat)
    ensures ParseDigits(NatToString(n)) == n
    decreases n
  {
    if n >= 10 {
      ParseNatToString(n / 10);
      var s := NatToString(n);
      assert s[..|s| - 1] == NatToString(n / 10);
    }
  }

  /** `int(str(i)) == i`: the decimal text of an integer reads back as it. */
  lemma ParseIntToString(i: int)
    ensures ParseInt(IntToString(i)) == Some(i)
  {
    if i < 0 {
      ParseNatToString(-i);
      var s := IntToString(i);
      assert s[0] == '-' && s[1..] == NatToString(-i);
    } else {
      ParseNatToString(i);
      var s := NatToString(i);
      assert IsDigit(s[0]);
    }
  }
}

=== FILE: workflows.dfy ===
/** What the commands (`bootstrap`, `node add`, `node join`, `node remove`)
    have in common: the step classes they instantiate, with the arguments
    that vary between calls; the run of a list of pre-flight checks built
    from scratch; and a sequence of plans run one after another, each
    started in the state the previous one left, stopping at the first plan
    that does not complete (`run_plan` raises, which ends the command). */
module Workflows {
  import opened Wrappers
  import opened Common
  import opened Checks
  import opened Engine

  /** A step object as a command creates it: its class and the arguments
      that matter to the plan (helpers such as the Juju and Terraform
      clients are shared objects and are left out; a Terraform step is
      identified by its plan name). */
  datatype StepCall =
    | JujuLoginStep
    | ClusterInitStep(roles: seq<string>)
    | BootstrapJujuStep(cloudName: string, cloudType: string, controller: string)
    | CreateJujuUserStep(name: string)
    | ClusterUpdateJujuControllerStep(controller: string)
    | ClusterAddJujuUserStep(name: string, token: Option<string>)
    | BackupBootstrapUserStep(name: string)
    | SaveJujuUserLocallyStep(name: string)
    | RegisterJujuUserStep(name: string, controller: string, replace: bool)
    | TerraformInitStep(tfplan: string)
    | DeploySunbeamMachineApplicationStep
    | AddSunbeamMachineUnitStep(name: string)
    | DeployMicrok8sApplicationStep(acceptDefaults: bool)
    | AddMicrok8sUnitStep(name: string)
    | StoreMicrok8sConfigStep
    | AddMicrok8sCloudStep
    | DeployMicrocephApplicationStep
    | AddMicrocephUnitStep(name: string)
    | ConfigureMicrocephOSDStep(name: string, acceptDefaults: bool)
    | DeployControlPlaneStep(topology: string, database: string)
    | ConfigureMySQLStep
    | PatchLoadBalancerServicesStep
    | DeployHypervisorApplicationStep
    | AddHypervisorUnitStep(name: string)
    | ClusterAddNodeStep(name: string)
    | JujuGrantModelAccessStep(name: string, model: string)
    | ClusterJoinNodeStep(token: Option<string>, roles: seq<string>)
    | AddJujuMachineStep(ip: string)
    | ClusterUpdateNodeStep(name: string, machineId: int)
    | SetLocalHypervisorOptions(name: string, joinMode: bool)
    | RemoveMicrok8sUnitStep(name: string)
    | RemoveMicrocephUnitStep(name: string)
    | RemoveJujuMachineStep(name: string)
    | ClusterRemoveNodeStep(name: string)

  /** The class name a step's result is stored under. */
  function ClassName(c: StepCall): string {
    match c
    case JujuLoginStep => "JujuLoginStep"
    case ClusterInitStep(_) => "ClusterInitStep"
    case BootstrapJujuStep(_, _, _) => "BootstrapJujuStep"
    case CreateJujuUserStep(_) => "CreateJujuUserStep"
    case ClusterUpdateJujuControllerStep(_) => "ClusterUpdateJujuControllerStep"
    case ClusterAddJujuUserStep(_, _) => "ClusterAddJujuUserStep"
    case BackupBootstrapUserStep(_) => "BackupBootstrapUserStep"
    case SaveJujuUserLocallyStep(_) => "SaveJujuUserLocallyStep"
    case RegisterJujuUserStep(_, _, _) => "RegisterJujuUserStep"
    case TerraformInitStep(_) => "TerraformInitStep"
    case DeploySunbeamMachineApplicationStep => "DeploySunbeamMachineApplicationStep"
    case AddSunbeamMachineUnitStep(_) => "AddSunbeamMachineUnitStep"
    case DeployMicrok8sApplicationStep(_) => "DeployMicrok8sApplicationStep"
    case AddMicrok8sUnitStep(_) => "AddMicrok8sUnitStep"
    case StoreMicrok8sConfigStep => "StoreMicrok8sConfigStep"
    case AddMicrok8sCloudStep => "AddMicrok8sCloudStep"
    case DeployMicrocephApplicationStep => "DeployMicrocephApplicationStep"
    case AddMicrocephUnitStep(_) => "AddMicrocephUnitStep"
    case ConfigureMicrocephOSDStep(_, _) => "ConfigureMicrocephOSDStep"
    case DeployControlPlaneStep(_, _) => "DeployControlPlaneStep"
    case ConfigureMySQLStep => "ConfigureMySQLStep"
    case PatchLoadBalancerServicesStep => "PatchLoadBalancerServicesStep"
    case DeployHypervisorApplicationStep => "DeployHypervisorApplicationStep"
    case AddHypervisorUnitStep(_) => "AddHypervisorUnitStep"
    case ClusterAddNodeStep(_) => "ClusterAddNodeStep"
    case JujuGrantModelAccessStep(_, _) => "JujuGrantModelAccessStep"
    case ClusterJoinNodeStep(_, _) => "ClusterJoinNodeStep"
    case AddJujuMachineStep(_) => "AddJujuMachineStep"
    case ClusterUpdateNodeStep(_, _) => "ClusterUpdateNodeStep"
    case SetLocalHypervisorOptions(_, _) => "SetLocalHypervisorOptions"
    case RemoveMicrok8sUnitStep(_) => "RemoveMicrok8sUnitStep"
    case RemoveMicrocephUnitStep(_) => "RemoveMicrocephUnitStep"
    case RemoveJujuMachineStep(_) => "RemoveJujuMachineStep"
    case ClusterRemoveNodeStep(_) => "ClusterRemoveNodeStep"
  }

  /** The step objects of a plan, each with the behaviour `behave` gives its
      class and arguments. */
  function Steps<S>(calls: seq<StepCall>, behave: StepCall -> Behaviour<S>): (steps: seq<Step<S>>)
    ensures |steps| == |calls|
    ensures forall k :: 0 <= k < |calls| ==> steps[k] == Step(ClassName(calls[k]), behave(calls[k]))
  {
    seq(|calls|, k requires 0 <= k < |calls| => Step(ClassName(calls[k]), behave(calls[k])))
  }

  /** A plan that completes leaves an entry for every one of its steps'
      classes: no step failed, so each was either skipped or run. */
  lemma CompletedPlanHasEveryEntry<S>(calls: seq<StepCall>, behave: StepCall -> Behaviour<S>, st: S, k: nat)
    requires k < |calls|
    requires Run(Steps(calls, behave), st).status.PlanCompleted?
    ensures ClassName(calls[k]) in Run(Steps(calls, behave), st).results
  {
    var plan := Steps(calls, behave);
    var r := Run(plan, st);
    RunPlanFacts(plan, st);
    assert !Failed(r.records[k]) && WellFormed(r.records[k]);
    assert Entry(r.records[k]).Some?;
    RecordedHas(plan, r.records, ClassName(calls[k]));
  }

  /** When a completed plan has exactly one step of some class, its
      `get_step_message` is the message that step left. */
  lemma OnlyStepMessage<S>(calls: seq<StepCall>, behave: StepCall -> Behaviour<S>, st: S, k: nat)
    requires k < |calls|
    requires forall j :: 0 <= j < |calls| && j != k ==> ClassName(calls[j]) != ClassName(calls[k])
    requires Run(Steps(calls, behave), st).status.PlanCompleted?
    ensures |Run(Steps(calls, behave), st).records| == |calls|
    ensures Entry(Run(Steps(calls, behave), st).records[k]).Some?
    ensures GetStepMessage(Run(Steps(calls, behave), st).results, ClassName(calls[k]))
            == Entry(Run(Steps(calls, behave), st).records[k]).value.message
  {
    var plan := Steps(calls, behave);
    var r := Run(plan, st);
    RunPlanFacts(plan, st);
    assert !Failed(r.records[k]) && WellFormed(r.records[k]);
    GetStepMessageOfRun(plan, st, ClassName(calls[k]), k);
  }

  /** `any(role.is_control_node() for role in roles)` and its two siblings. */
  predicate AnyControl(roles: seq<Role>) {
    exists k :: 0 <= k < |roles| && roles[k].IsControlNode()
  }

  predicate AnyCompute(roles: seq<Role>) {
    exists k :: 0 <= k < |roles| && roles[k].IsComputeNode()
  }

  predicate AnyStorage(roles: seq<Role>) {
    exists k :: 0 <= k < |roles| && roles[k].IsStorageNode()
  }

  /** A role flag is set exactly when its role is listed. */
  lemma RoleFlags(roles: seq<Role>)
    ensures AnyControl(roles) <==> CONTROL in roles
    ensures AnyCompute(roles) <==> COMPUTE in roles
    ensures AnyStorage(roles) <==> STORAGE in roles
  {
    if CONTROL in roles {
      var k :| 0 <= k < |roles| && roles[k] == CONTROL;
      assert roles[k].IsControlNode();
    }
    if COMPUTE in roles {
      var k :| 0 <= k < |roles| && roles[k] == COMPUTE;
      assert roles[k].IsComputeNode();
    }
    if STORAGE in roles {
      var k :| 0 <= k < |roles| && roles[k] == STORAGE;
      assert roles[k].IsStorageNode();
    }
  }

  /** The Terraform plan directories copied to the user's area before a
      bootstrap or a join: the sunbeam-machine plan always, the microk8s,
      microceph and openstack plans for a control node, the hypervisor plan
      for a compute node. */
  method TfplanDirs(roles: seq<Role>) returns (dirs: seq<string>)
    ensures 0 < |dirs| && dirs[0] == "deploy-sunbeam-machine"
    ensures |dirs| == 1 + (if AnyControl(roles) then 3 else 0) + (if AnyCompute(roles) then 1 else 0)
    ensures "deploy-microk8s" in dirs <==> AnyControl(roles)
    ensures "deploy-microceph" in dirs <==> AnyControl(roles)
    ensures "deploy-openstack" in dirs <==> AnyControl(roles)
    ensures "deploy-openstack-hypervisor" in dirs <==> AnyCompute(roles)
  {
    dirs := ["deploy-sunbeam-machine"];
    if AnyControl(roles) {
      dirs := dirs + ["deploy-microk8s", "deploy-microceph", "deploy-openstack"];
    }
    if AnyCompute(roles) {
      dirs := dirs + ["deploy-openstack-hypervisor"];
    }
  }

  /** `run_preflight_checks` on check objects created for the given kinds. */
  method Preflight(kinds: seq<CheckKind>, facts: HostFacts) returns (outcome: PreflightOutcome)
    ensures outcome == FirstFailure(kinds, facts)
  {
    var checks: seq<Check> := [];
    var i := 0;
    while i < |kinds|
      invariant 0 <= i <= |kinds|
      invariant |checks| == i
      invariant forall k :: 0 <= k < i ==> checks[k].kind == kinds[k] && fresh(checks[k])
      invariant forall k, l :: 0 <= k < l < i ==> checks[k] != checks[l]
    {
      var c := new Check(kinds[i]);
      checks := checks + [c];
      i := i + 1;
    }
    assert Kinds(checks) == kinds;
    outcome := RunPreflightChecks(checks, facts);
  }

  /** How a command ended: normally, at a failed pre-flight check, at a
      plan that did not complete (with the message `run_plan` raises), or
      with an error raised between plans. */
  datatype WorkflowEnd =
    | Finished
    | PreflightFailed(message: Option<string>)
    | PlanFailed(message: Option<string>)
    | Crashed(reason: string)

  /** The plans a command ran, in order, their runs, and the state after the last. */
  datatype Workflow<S> = Workflow(end: WorkflowEnd, plans: seq<seq<StepCall>>, runs: seq<PlanRun<S>>, state: S)

  /** The plans ran one after another from `st`: each run is `run_plan` of
      its plan in the state the previous run left; every run but the last
      completed; the command failed at a plan exactly when its last run
      aborted, with that run's message; a command that finished completed
      every plan it ran. */
  ghost predicate Threaded<S>(w: Workflow<S>, behave: StepCall -> Behaviour<S>, st: S) {
    && |w.runs| == |w.plans|
    && (forall k {:trigger w.plans[k]} :: 0 <= k < |w.runs| ==> w.runs[k] == Run(Steps(w.plans[k], behave), StateBefore(w, st, k)))
    && (forall k :: 0 <= k < |w.runs| - 1 ==> w.runs[k].status.PlanCompleted?)
    && w.state == (if |w.runs| == 0 then st else w.runs[|w.runs| - 1].state)
    && (w.end.PlanFailed? <==> 0 < |w.runs| && w.runs[|w.runs| - 1].status.PlanAborted?)
    && (w.end.PlanFailed? ==> w.end.message == w.runs[|w.runs| - 1].status.message)
  }

  /** The state plan `k` of a command starts in. */
  function StateBefore<S>(w: Workflow<S>, st: S, k: nat): S
    requires k <= |w.runs|
  {
    if k == 0 then st else w.runs[k - 1].state
  }

  /** A command that has not run any plan yet. */
  function Start<S>(st: S): (w: Workflow<S>)
    ensures w.end.Finished? && w.plans == [] && w.runs == [] && w.state == st
  {
    Workflow(Finished, [], [], st)
  }

  lemma StartThreaded<S>(behave: StepCall -> Behaviour<S>, st: S)
    ensures Threaded(Start(st), behave, st)
  {
  }

  /** The command after one more plan ran with result `r`. */
  function Append<S>(w: Workflow<S>, plan: seq<StepCall>, r: PlanRun<S>): (w': Workflow<S>)
    ensures w'.plans == w.plans + [plan] && w'.runs == w.runs + [r] && w'.state == r.state
    ensures w'.end == (if r.status.PlanCompleted? then Finished else PlanFailed(r.status.message))
  {
    Workflow(if r.status.PlanCompleted? then Finished else PlanFailed(r.status.message), w.plans + [plan], w.runs + [r], r.state)
  }

  /** Running one more plan after plans that all completed keeps the runs
      threaded: the new plan starts in the state the last one left. */
  lemma {:induction false} AppendThreaded<S>(w: Workflow<S>, plan: seq<StepCall>, behave: StepCall -> Behaviour<S>, st: S)
    requires w.end.Finished? && Threaded(w, behave, st)
    ensures Threaded(Append(w, plan, Run(Steps(plan, behave), w.state)), behave, st)
  {
    var r := Run(Steps(plan, behave), w.state);
    var w' := Append(w, plan, r);
    forall k | 0 <= k < |w'.runs|
      ensures w'.runs[k] == Run(Steps(w'.plans[k], behave), StateBefore(w', st, k))
    {
      if k < |w.runs| {
        assert w'.plans[k] == w.plans[k];
        assert StateBefore(w', st, k) == StateBefore(w, st, k);
      } else {
        assert w'.plans[k] == plan;
      }
    }
    forall k | 0 <= k < |w'.runs| - 1
      ensures w'.runs[k].status.PlanCompleted?
    {
      assert w'.runs[k] == w.runs[k];
      if k == |w.runs| - 1 {
        assert !w.runs[k].status.PlanAborted?;
      }
    }
  }

  /** Runs one more plan (`run_plan(plan, console)`) after plans that all
      completed. */
  method RunNext<S>(w: Workflow<S>, plan: seq<StepCall>, behave: StepCall -> Behaviour<S>, ghost st: S) returns (w': Workflow<S>)
    requires w.end.Finished? && Threaded(w, behave, st)
    ensures w' == Append(w, plan, Run(Steps(plan, behave), w.state))
    ensures Threaded(w', behave, st)
  {
    var r := RunPlan(Steps(plan, behave), w.state);
    w' := Workflow(if r.status.PlanCompleted? then Finished else PlanFailed(r.status.message), w.plans + [plan], w.runs + [r], r.state);
    AppendThreaded(w, plan, behave, st);
  }

  /** The next `run_plan` of a command: it runs only while every earlier
      plan completed (a failing `run_plan` raises and ends the command). */
  method RunIfFinished<S>(w: Workflow<S>, plan: seq<StepCall>, behave: StepCall -> Behaviour<S>, ghost st: S) returns (w': Workflow<S>)
    requires Threaded(w, behave, st)
    ensures w' == (if w.end.Finished? then Append(w, plan, Run(Steps(plan, behave), w.state)) else w)
    ensures Threaded(w', behave, st)
  {
    if w.end.Finished? {
      w' := RunNext(w, plan, behave, st);
    } else {
      w' := w;
    }
  }

  /** A threaded command that finished completed every plan it ran. */
  lemma FinishedCompletedAll<S>(w: Workflow<S>, behave: StepCall -> Behaviour<S>, st: S)
    requires Threaded(w, behave, st) && w.end.Finished?
    ensures forall k :: 0 <= k < |w.runs| ==> w.runs[k].status.PlanCompleted?
  {
    if |w.runs| > 0 {
      assert !w.runs[|w.runs| - 1].status.PlanAborted?;
    }
  }
}

=== FILE: wrappers.dfy ===
/** Optional values and outcomes that carry an error, used in place of
    Python's None and raised exceptions. */
module Wrappers {
  datatype Option<T> = None | Some(value: T)

  datatype Outcome<T, E> = Ok(value: T) | Err(error: E)
}
